=== FILE: README.md ===
# exprcmpl in Dafny

A model of the sequential core of `exprcmpl`, a small library that compiles arithmetic expressions
such as `sin(x) * 2 + f(y, 0.5)` into x87 machine code. It covers:

- the lexer: a cursor over the input bytes with one character of lookahead;
- the precedence-climbing parser that builds the four-kind expression tree (number, variable, call, binary);
- the marshalling descriptor and constant folding;
- the byte emitter, which writes into a bounded `ByteBuffer`;
- the fully parenthesised printer (`ToString`);
- the three exported entry points `ParseExpression`, `PrintExpression` and `CompileExpression`.

Everything is a pure function over immutable values:
- A buffer is a record of its array and position.
- The host's identifier callback is a function `string -> Option<Identifier>`.
- A `double` is its 64-bit pattern, with the floating-point operations supplied as uninterpreted functions (`Fpu.FloatOps`).

Modules, in dependency order:

| module | file | content |
|---|---|---|
| `Base`, `Fpu`, `Api`, `Util` | base, fpu, api, util | options, byte and word types, doubles, error codes, identifier kinds, character classes |
| `Lexer` | lexer | `GetChar`/`PeekChar`/`GetToken` and the token list a parser pulls |
| `LexerSpec` | lexer_spec | a reference lexer over the character stream, and the proof that `GetToken` agrees with it |
| `Ast`, `Parser` | ast, parser | the tree and the recursive-descent parser over the token list |
| `Grammar`, `ParserFacts` | grammar, parser_facts | a reference grammar, primaries and argument lists included, that the parser is proved equal to, and concrete parses |
| `ByteBuffer` | byte_buffer | the bounded writer and `!append(..) \|\| ...` chains |
| `Marshalling`, `Builtins`, `X87` | marshalling, builtins, x87 | descriptors and folding, the built-in table and `CheckArgs`, the instruction encodings |
| `Emitter` | emitter | `Emit` of every node kind, with `EXIT_ON_ERR` |
| `CodeGen` | codegen | a buffer-free reference code generator, and the proof that the emitter writes exactly its bytes |
| `EmitterFacts` | emitter_facts | byte-level facts about numbers, variables, folding and host calls |
| `Render` | render | `ToString` and the canonical text |
| `Driver` | driver | the exported entry points |

Some behaviours of the code worth knowing:

- Identifiers:
  - The identifier buffer holds 128 characters.
  - A longer identifier is not truncated: its 129th character starts the next token (`LexerSpec.IdentifierTokenSpec`).
- Calls with more than 32 arguments:
  - Such a call is not rejected.
  - After the 32nd argument and its comma, the next token is consumed unchecked in place of the `)`, and the call ends with 32 arguments (`ParserFacts.ThirtyThirdArgumentSwallowed`).
  - So only the first token of a 33rd argument is swallowed; the tokens after it continue the enclosing expression. `f(1, …, 1, a+b)` with 32 ones parses as `f(1, …, 1) + b` (`ParserFacts.SwallowedOperandContinues`).
- Constants are folded only in binary nodes whose two operands are immediates; operands are emitted left to right with the plain `DE xx` forms, and built-in calls are never folded.
- The lexer reads bytes through a signed `char`, so byte 0xFF reads as -1 and ends the input.
- Any other byte that starts no identifier or number is returned as its own token code, read through the same signed `char` (`Lexer.RawBytesCollide`):
  - byte 0xFE comes back as -2, the number code, and byte 0xFD as -3, the end-of-input code;
  - both keep the name and value fields of the previous token, so the parser sees a stale number or a premature end;
  - byte 0x00 comes back as 0, the error code.
- `CheckArgs` reads the host's type list from index 1, but the pushes use index 0 upwards. A list laid out as the comment on `func_argtypes` in `exprcmpl.h` describes it (0-terminated, one entry per argument) is therefore rejected (`Builtins.DocumentedTypesRejected`).
- `cot` emits `D9 E0` (`fchs`) where its comment says `ftan`.
- The host `call` and its return fix-up sit inside the argument loop:
  - they are emitted once per argument (`EmitterFacts.HostCallPerArgument`);
  - they are never emitted for a host function without arguments, whose compilation then fails (`Driver.NoArgumentHostCallFails`).
- A call whose argument does not fit in `ToString` reports its partial length rather than 0. An enclosing call then prints malformed text (`Render.TruncatedArgumentKeepsGoing`).

## Model

| member | source | states |
|---|---|---|
| Util.IsChar | exprcmpl/util.h:21 | on 32-bit values the mask test holds exactly for 0..255 |
| Util.IsCharRange | exprcmpl/util.h:21 | `is_char` holds exactly for 0..255, so never for end of input (-1) |
| Util.ClassesAreAscii | exprcmpl/util.h:22-27 | identifier characters lie in the ASCII range 48..122 and are never whitespace; whitespace lies in 9..32; digits are identifier characters but not letters; end of input (-1) is in no class |
| Util.IsWhitespaceChar | exprcmpl/util.h:22 | blank, tab, newline and carriage return; no contract of its own: `Util.ClassesAreAscii` places it in 9..32 and outside the identifier characters |
| Util.IsLowerLetterChar | exprcmpl/util.h:23 | `a`..`z`; no contract of its own: `Util.ClassesAreAscii` states it is disjoint from the upper-case letters |
| Util.IsUpperLetterChar | exprcmpl/util.h:24 | `A`..`Z`; no contract of its own: `Util.ClassesAreAscii` states it is disjoint from the lower-case letters |
| Util.IsDigitChar | exprcmpl/util.h:25 | `0`..`9`; no contract of its own: `Util.ClassesAreAscii` states digits are identifier characters but not letters |
| Util.IsLetterChar | exprcmpl/util.h:26 | either case of letter; no contract of its own: `Util.ClassesAreAscii` states it excludes the digits |
| Util.IsIdentifierChar | exprcmpl/util.h:27 | letters, digits and `_`; no contract of its own: `Util.ClassesAreAscii` states it lies in 48..122, excludes whitespace, and is a letter or `_` unless it is a digit |
| Api.FromCode | exprcmpl/exprcmpl.h:37-53 | exactly the integers -11..1 are error codes |
| Api.CodeRoundTrip | exprcmpl/exprcmpl.h:37-53 | every error code is recovered from its integer, so the codes are distinct |
| Api.OnlySuccessIsPositive | exprcmpl/Expression.h:8 | only `ERR_SUCCESS` is positive, so every other code stops a caller that tests `<= 0` |
| Fpu.WordsRoundTrip | exprcmpl/NumberExpression.h:64-69 | the high and low 32-bit words pushed for a double rebuild that double exactly |
| Fpu.WordsInjective | exprcmpl/NumberExpression.h:64-69 | two doubles pushed as the same two words are equal |
| Fpu.HighWord | exprcmpl/NumberExpression.h:64-67 | the high word is the pattern's upper 32 bits: the pattern lies in `[hi * 2^32, (hi+1) * 2^32)` |
| Fpu.LowWord | exprcmpl/NumberExpression.h:64-69 | the low word is the pattern's lower 32 bits: it differs from the pattern by a multiple of 2^32 |
| Lexer.Initial | exprcmpl/AstParser.h:27-33 | the constructor's state is a valid cursor over its input |
| Lexer.SignedChar | exprcmpl/AstParser.h:47-53 | a byte read as signed `char` lies in -128..127 and equals end of input exactly for 0xFF |
| Lexer.RawBytesCollide | exprcmpl/AstParser.h:122-125 | bytes 0xFE, 0xFD and 0x00 read as the number, end-of-input and error codes, and only byte 0xFF reads as -1 |
| Lexer.Advance | exprcmpl/AstParser.h:47-53 | reading a character never moves the cursor back, never leaves the input and leaves the token fields alone |
| Lexer.PeekChar | exprcmpl/AstParser.h:55-61 | the character peeked is the one the next read would return, and it is end of input exactly at the end or on byte 0xFF |
| Lexer.SkipWhitespace | exprcmpl/AstParser.h:66-67 | after the loop the lookahead is not whitespace, and the identifier and number fields are unchanged |
| Lexer.ScanIdentifier | exprcmpl/AstParser.h:72-77 | the identifier loop always consumes at least one character and keeps the number field |
| Lexer.ScanNumber | exprcmpl/AstParser.h:83-115 | the number loop yields the number or the error token, keeping the identifier field |
| Lexer.GetToken | exprcmpl/AstParser.h:63-126 | every call consumes input unless only whitespace is left; then it is EOF without consuming; an identifier token carries 1..128 identifier characters not starting with a digit |
| Lexer.EndIsSticky | exprcmpl/AstParser.h:118-120 | once only whitespace remains, EOF is returned again and again and the state no longer changes |
| Lexer.Tokenize | exprcmpl/AstParser.h:128-131 | every identifier token the parser pulls has a well-formed name |
| Lexer.Tokens | exprcmpl/AstParser.h:27-33 | from the constructor, every identifier token has a well-formed name and there are at most `2n+1` tokens for `n` input bytes; `LexerSpec.TokensMatchSpec` states which tokens |
| LexerSpec.IdentifierTokenSpec | exprcmpl/AstParser.h:69-77 | an identifier is the longest run of identifier characters cut at 128; the rest of the stream starts right after the cut |
| LexerSpec.NumberTokenSpec | exprcmpl/AstParser.h:80-116 | a number is the run of digits and dots; a second dot gives the error token with the stream left at that dot; the value is the digits accumulated before it |
| LexerSpec.RawTokenSpec | exprcmpl/AstParser.h:122-125 | any other character is its own token code, read as a signed `char`, and is consumed; the name and value fields of the previous token are kept |
| LexerSpec.DotTokenSpec | exprcmpl/AstParser.h:80-125 | a dot not followed by a digit is a raw character token |
| LexerSpec.AtEndStream | exprcmpl/AstParser.h:63-67 | the lexer is at its end exactly when only whitespace is left in the character stream |
| LexerSpec.GetTokenMatchesSpec | exprcmpl/AstParser.h:63-126 | `GetToken` equals the reference lexer on the remaining character stream: code, rest of the stream, identifier and value |
| LexerSpec.TokenizeMatchesSpec | exprcmpl/AstParser.h:128-131 | the tokens pulled one at a time are exactly the reference token list of the stream |
| LexerSpec.TokensMatchSpec | exprcmpl/AstParser.h:27-33 | from the constructor's state, the tokens of an input are the reference tokens of its bytes up to the first 0xFF |
| Parser.Eat | exprcmpl/AstParser.h:128-131 | consuming any token other than EOF moves exactly one token on, and the position stays within the list |
| Parser.Precedence | exprcmpl/AstParser.h:216-227 | the precedence is 20, 40 or -1, and it is not -1 exactly for `+ - * /` |
| Parser.OpChar | exprcmpl/AstParser.h:252 | the operator stored in a binary node is the token's own character and one of the four operators |
| Parser.ParseNumberExpr | exprcmpl/AstParser.h:229-235 | a number token becomes a number node with its value and is consumed |
| Parser.ParseIdentifierExpr | exprcmpl/AstParser.h:136-183 | an identifier not followed by `(` is the variable of that name, one token consumed; otherwise the result, if any, is a call of that name |
| Parser.ParseArgs | exprcmpl/AstParser.h:150-182 | a successful argument loop yields a well-formed call of the given name that keeps the arguments already read and adds at least one; a failure of the first argument it reads fails the call |
| Parser.ParseParenExpr | exprcmpl/AstParser.h:186-198 | a successful parenthesised expression is the inner expression, and the token that closes it is `)` |
| Parser.ParsePrimary | exprcmpl/AstParser.h:204-214 | a primary succeeds only on an identifier, a number or `(`, and a number token always gives its number node |
| Parser.ParseBinOpRHS | exprcmpl/AstParser.h:239-273 | the operator loop never moves back and yields a well-formed tree |
| Parser.ParseExpression | exprcmpl/AstParser.h:278-285 | a successful expression consumes at least one token and yields a well-formed tree |
| Parser.Parse | exprcmpl/AstParser.h:287-291 | every tree `GetExpression` returns is well formed |
| Grammar.BinOpRHSIsTermTail | exprcmpl/AstParser.h:239-273 | the loop at a precedence above 20 builds exactly a left-grouped chain of `*` and `/` |
| Grammar.BinOpRHSIsExprFrom | exprcmpl/AstParser.h:239-273 | the loop at precedence 0 builds exactly a left-grouped chain of `+` and `-` over such products |
| Grammar.ParseExpressionIsReference | exprcmpl/AstParser.h:278-285 | the parser equals the reference grammar on every token list, in result and position |
| Grammar.PrimaryIsReference | exprcmpl/AstParser.h:136-214 | on every token list, a primary is the reference one: a number; a variable when no `(` follows the identifier; a call of it with the reference arguments; or a parenthesised expression whose `)` is present. Anything else fails |
| Grammar.ArgsIsReference | exprcmpl/AstParser.h:150-182 | on every token list, the argument loop makes the call with the reference argument list: expressions separated by `,` and ended by `)`, or by any one token after the 32nd `,`. A failed argument, or any other separator, fails |
| Grammar.ArgList | exprcmpl/AstParser.h:155-182 | a reference argument list consumes tokens and holds between 1 and the remaining room of 32 well-formed arguments |
| ParserFacts.SubtractionGroupsLeft | exprcmpl/AstParser.h:248-271 | `a-b-c` parses as `(a-b)-c` |
| ParserFacts.ProductBindsTighterOnTheRight | exprcmpl/AstParser.h:260-268 | `a+b*c` parses as `a+(b*c)` |
| ParserFacts.ProductBindsTighterOnTheLeft | exprcmpl/AstParser.h:239-273 | `a*b+c` parses as `(a*b)+c` |
| ParserFacts.TrailingTokensIgnored | exprcmpl/AstParser.h:287-291 | `a b` parses as `a`, stopping before `b` |
| ParserFacts.MalformedInputsFail | exprcmpl/AstParser.h:157-214 | `a+`, `(a`, `f(a b)` and `)` do not parse |
| ParserFacts.OverlongArgs | exprcmpl/AstParser.h:155-182 | after 32 arguments and a `,`, the argument loop consumes the following token, whatever it is, and ends the call |
| ParserFacts.ThirtyThirdArgumentSwallowed | exprcmpl/AstParser.h:150-182 | for any tokens after the 32nd `,`, the first is swallowed and parsing goes on after it with the 32-argument call as the left operand |
| ParserFacts.SingleTokenArgumentSwallowed | exprcmpl/AstParser.h:150-182 | a 33rd argument of one token gives the call of the first 32 and leaves the closing `)` unread |
| ParserFacts.SwallowedOperandContinues | exprcmpl/AstParser.h:150-182 | `f(1, …, 1, a+b)` with 32 ones parses as `f(1, …, 1) + b` |
| ByteBuffer.Over | exprcmpl/ByteBuffer.h:9-12 | a writer over a caller's array starts at position 0 |
| ByteBuffer.EnsureCapacity | exprcmpl/ByteBuffer.h:24-27 | capacity for `n` bytes holds exactly when `pos + n` is within the array |
| ByteBuffer.Bytes32RoundTrip | exprcmpl/ByteBuffer.h:49-57 | the four little-endian bytes of a word read back as that word |
| ByteBuffer.Put | exprcmpl/ByteBuffer.h:29-57 | writing puts the bytes at `[pos, pos+n)` and keeps every byte before and after |
| ByteBuffer.AppendBytes | exprcmpl/ByteBuffer.h:24-57 | an append succeeds exactly when there is room, and a failed append changes nothing |
| ByteBuffer.Append8 | exprcmpl/ByteBuffer.h:29-37 | `append_8` succeeds exactly with 1 byte free, stores the low 8 bits and advances by 1; on failure nothing changes |
| ByteBuffer.Append16 | exprcmpl/ByteBuffer.h:39-47 | `append_16` succeeds exactly with 2 bytes free, stores the value little-endian, keeps the other bytes and advances by 2; on failure nothing changes |
| ByteBuffer.Append32 | exprcmpl/ByteBuffer.h:49-57 | `append_32` succeeds exactly with 4 bytes free, the 4 bytes read back as the word, the other bytes are kept and the position advances by 4; on failure nothing changes |
| ByteBuffer.AppendAll | exprcmpl/NumberExpression.h:66-76 | a chain of appends fits exactly when its total size fits, and then writes the concatenation; the position stays within the array |
| Marshalling.Compute | exprcmpl/BinaryExpression.h:106-120 | `compute` succeeds exactly for the four operators |
| Marshalling.Info | exprcmpl/BinaryExpression.h:122-139 | every node's descriptor is IMM or ST0, never one of the other marshalling kinds |
| Marshalling.ImmIffConstant | exprcmpl/BinaryExpression.h:122-139 | a node is IMM exactly when its subtree has no variable and no call |
| Marshalling.FoldedIsValue | exprcmpl/BinaryExpression.h:106-139 | the immediate of an IMM node is the value the reference evaluator gives the tree |
| Marshalling.ConstantHasValue | exprcmpl/BinaryExpression.h:106-120 | a well-formed constant tree always has a value |
| Builtins.FindFrom | exprcmpl/CallExpression.h:220-240 | a match has the name and arity asked for; the overload flag is set exactly when the name is in the rest of the table |
| Builtins.Find | exprcmpl/CallExpression.h:220-240 | a built-in found has the name and argument count asked for; the overload flag is set exactly when some table entry has the name |
| Builtins.NamesDistinct | exprcmpl/CallExpression.h:372-384 | the table's names are distinct |
| Builtins.FindIsTable | exprcmpl/CallExpression.h:220-240 | the lookup finds a built-in exactly when the table has that name with that arity |
| Builtins.FindFromSelects | exprcmpl/CallExpression.h:220-240 | the lookup returns the table entry with that name and arity |
| Builtins.CheckFrom | exprcmpl/CallExpression.h:69-89 | the type scan ends in success, `ERR_ARG_TYPE_ERR` or `ERR_ARGC_DOESNT_MATCH` |
| Builtins.CheckArgs | exprcmpl/CallExpression.h:69-89 | the check passes or gives `ERR_ARG_TYPE_ERR` or `ERR_ARGC_DOESNT_MATCH`; a function type in entry 1 is a type error; a terminator in entry 1 passes exactly for no arguments |
| Builtins.CheckFromPasses | exprcmpl/CallExpression.h:69-89 | the scan from a count passes exactly when the entries after it up to `argc` are value types and the entry at `argc+1` ends the list |
| Builtins.CheckArgsPasses | exprcmpl/CallExpression.h:69-89 | `CheckArgs` passes exactly when entries 1..argc are value types and entry `argc+1` is `IDENTIFIER_NONE` |
| Builtins.CheckFromShort | exprcmpl/CallExpression.h:69-89 | a list that ends one entry early is reported as the wrong argument count |
| Builtins.DocumentedTypesRejected | exprcmpl/exprcmpl.h:62 | a 0-terminated list with one value type per argument, as documented, is rejected with `ERR_ARGC_DOESNT_MATCH` |
| X87.FirstSpecialFrom | exprcmpl/NumberExpression.h:53-62 | the special constant chosen is the first in table order that matches the value |
| X87.FirstSpecial | exprcmpl/NumberExpression.h:53-62 | the special constant chosen is within the tolerance of the value and the first in table order that is; none is chosen only when no constant is |
| X87.LoadNumber | exprcmpl/NumberExpression.h:53-76 | a number is one `D9 xx` constant load exactly when a special constant matches; otherwise ten writes that start with two `push imm32` of words rebuilding the value, high word first; `EmitterFacts.GenericNumberBytes` states the bytes |
| X87.LoadOpcode | exprcmpl/VariableExpression.h:39-63 | a load opcode exists exactly for int32, float32 and float64 variables, and it is an x87 escape byte D8..DF |
| X87.LoadVariable | exprcmpl/VariableExpression.h:41-60 | a variable load is three writes: the opcode byte first and the 32-bit address as the last word; `EmitterFacts.VariableBytes` states the bytes |
| X87.OperatorOpcode | exprcmpl/BinaryExpression.h:78-98 | an instruction exists exactly for `+ - * /`, and each is stored as `DE` followed by a register-form ModRM byte |
| X87.BuiltinSuffix | exprcmpl/CallExpression.h:91-194 | every built-in's instructions start with `D9` and are single bytes; `tan` and `cot` take four bytes, the others two |
| X87.PushImmediate | exprcmpl/CallExpression.h:270-297 | an immediate push exists exactly for the three loadable types; it alternates `68` and a word, twice for float64 whose words rebuild the value, once otherwise |
| X87.PushStackTop | exprcmpl/CallExpression.h:304-330 | a store exists exactly for the three loadable types; it reserves two stack words for float64 and one otherwise, then stores through `[esp]` with the same escape byte as the type's load |
| X87.CallAddress | exprcmpl/CallExpression.h:333-337 | the call is four writes: `B8`, then the address as a word |
| X87.ReturnFixup | exprcmpl/CallExpression.h:339-355 | a fix-up exists exactly for the three loadable types; it is empty for floats, and for int32 it pushes eax, loads with the int32 escape byte and pops eax |
| Emitter.Ret | exprcmpl/Expression.h:8 | a successful emission returns a non-negative position; a failed one returns its error's code, which decodes back to the error and is positive only for `ERR_SUCCESS` |
| Emitter.Aborts | exprcmpl/Expression.h:8 | `EXIT_ON_ERR` stops exactly on an emission that left the position at 0 or on any error other than `ERR_SUCCESS` |
| Emitter.Append | exprcmpl/NumberExpression.h:66-76 | an append chain succeeds exactly when its bytes fit, writing them after the position; otherwise `ERR_OUTPUT_BUFFER_TOO_SMALL` |
| Emitter.EmitNumber | exprcmpl/NumberExpression.h:24-79 | frame only: keeps the array size and every byte before the position, and never moves back; the bytes themselves are stated by `CodeGen.EmitMatchesCode` |
| Emitter.EmitVariable | exprcmpl/VariableExpression.h:33-67 | frame only: keeps the array size and every byte before the position, and never moves back; the bytes themselves are stated by `CodeGen.EmitMatchesCode` |
| Emitter.Emit | exprcmpl/Expression.h:82-86 | emitting any tree keeps the array and every byte before the starting position, and never moves back |
| Emitter.EmitBinary | exprcmpl/BinaryExpression.h:57-104 | frame only: keeps the array size and every byte before the position, and never moves back; the bytes themselves are stated by `CodeGen.EmitBinaryMatches` |
| Emitter.EmitOperator | exprcmpl/BinaryExpression.h:79-100 | frame only: keeps the array size and every byte before the position, and never moves back; the bytes themselves are stated by `CodeGen.EmitOperatorMatches` |
| Emitter.EmitCall | exprcmpl/CallExpression.h:243-260 | frame only: keeps the array size and every byte before the position, and never moves back; the bytes themselves are stated by `CodeGen.EmitCallMatches` |
| Emitter.EmitBuiltin | exprcmpl/CallExpression.h:91-194 | frame only: keeps the array size and every byte before the position, and never moves back; the bytes themselves are stated by `CodeGen.EmitBuiltinMatches` |
| Emitter.EmitPush | exprcmpl/CallExpression.h:266-321 | frame only: keeps the array size and every byte before the position, and never moves back; the bytes themselves are stated by `CodeGen.EmitPushMatches` |
| Emitter.EmitStore | exprcmpl/CallExpression.h:301-321 | frame only: keeps the array size and every byte before the position, and never moves back; the bytes themselves are stated by `CodeGen.EmitStoreMatches` |
| Emitter.EmitCallTail | exprcmpl/CallExpression.h:324-355 | frame only: keeps the array size and every byte before the position, and never moves back; the bytes themselves are stated by `CodeGen.EmitCallTailMatches` |
| Emitter.EmitFixup | exprcmpl/CallExpression.h:330-355 | frame only: keeps the array size and every byte before the position, and never moves back; the bytes themselves are stated by `CodeGen.EmitFixupMatches` |
| Emitter.EmitHostArgs | exprcmpl/CallExpression.h:263-358 | frame only: keeps the array size and every byte before the position, and never moves back; the bytes themselves are stated by `CodeGen.EmitHostArgsMatches` |
| CodeGen.CodeOf | exprcmpl/Expression.h:8 | the error the reference code ends with, if any, is a negative code, so `EXIT_ON_ERR` always stops at it |
| CodeGen.AndThen | exprcmpl/Expression.h:8 | sequencing keeps errors negative |
| CodeGen.StepMatches | exprcmpl/Expression.h:8 | `EXIT_ON_ERR` followed by the rest writes the first code then the second, unless the first stops |
| CodeGen.AppendMatches | exprcmpl/NumberExpression.h:66-76 | an append chain writes exactly its bytes or reports the too-small buffer |
| CodeGen.EmitMatchesCode | exprcmpl/Expression.h:82-86 | for every tree and buffer, the emitter writes exactly the reference code after the position when it fits and returns its error if any; otherwise it reports the too-small buffer |
| CodeGen.EmitBinaryMatches | exprcmpl/BinaryExpression.h:57-104 | a binary node writes the folded load, or the left code, right code and operator, stopping at the first error |
| CodeGen.EmitOperatorMatches | exprcmpl/BinaryExpression.h:79-100 | the operator writes `DE C1`/`DE E9`/`DE C9`/`DE F9`, or `ERR_UNKNOWN_OPERAND` with nothing written |
| CodeGen.EmitCallMatches | exprcmpl/CallExpression.h:243-260 | a call dispatches to the built-in or the host code, with the resolver and `CheckArgs` errors in source order |
| CodeGen.EmitBuiltinMatches | exprcmpl/CallExpression.h:91-194 | a built-in writes its argument code and its instruction suffix (`log2`'s `fld1` first; `pi` alone) |
| CodeGen.EmitPushMatches | exprcmpl/CallExpression.h:266-321 | an argument is pushed as immediate words for its declared type, or emitted and stored; other types give `ERR_ARG_TYPE_ERR` |
| CodeGen.EmitStoreMatches | exprcmpl/CallExpression.h:301-321 | storing st0 writes the sequence for the declared type |
| CodeGen.EmitCallTailMatches | exprcmpl/CallExpression.h:324-355 | every argument is followed by `B8 addr FF D0` and the return fix-up |
| CodeGen.EmitFixupMatches | exprcmpl/CallExpression.h:330-355 | an int32 result is reloaded with `50 DB 04 24 58`; floats need nothing; other types give `ERR_RET_TYPE_ERR` |
| CodeGen.EmitHostArgsMatches | exprcmpl/CallExpression.h:263-358 | the host-call loop writes exactly the per-argument code in order |
| EmitterFacts.SpecialNumberBytes | exprcmpl/NumberExpression.h:29-62 | a value matching a special constant is loaded by `D9 E8+i` for the first matching `i` |
| EmitterFacts.GenericNumberBytes | exprcmpl/NumberExpression.h:64-76 | any other value is 16 bytes `68 hi 68 lo DD 04 24 83 C4 08`, whose two words rebuild the value |
| EmitterFacts.VariableBytes | exprcmpl/VariableExpression.h:39-61 | a variable load is 6 bytes: its opcode, `05`, and the address little-endian |
| EmitterFacts.ConstantTreeIsOneLoad | exprcmpl/BinaryExpression.h:62-71 | a well-formed constant tree compiles to one load of its value |
| EmitterFacts.ConstantEmitIsLoad | exprcmpl/BinaryExpression.h:62-68 | emitting a constant tree is emitting the number of its value |
| EmitterFacts.ConstantTreeIgnoresHost | exprcmpl/BinaryExpression.h:62-71 | a constant tree's emission does not depend on the resolver |
| EmitterFacts.UnknownLeftmostFails | exprcmpl/BinaryExpression.h:72-76 | an unknown variable in first position fails the whole tree with `ERR_UNKNOWN_IDENTIFIER` and writes nothing |
| EmitterFacts.HostCallPerArgument | exprcmpl/CallExpression.h:263-356 | a host call with two immediates pushes, calls, pushes and calls again |
| Render.Sprintf | exprcmpl/NumberExpression.h:17-20 | `sprintf_s` writes its text exactly when the text and its terminator fit; otherwise the run-time handler aborts |
| Render.ToString | exprcmpl/Expression.h:79 | every node's `ToString` (NumberExpression.h:17-20, VariableExpression.h:21-29, CallExpression.h:24-64, BinaryExpression.h:19-55) reports a non-zero count only for text that fits in `len`; `Render.RoomyBufferGetsText` states which text |
| Render.ArgsToString | exprcmpl/CallExpression.h:37-63 | the argument loop and the closing `)` never report more than the room they are given |
| Render.BinaryToString | exprcmpl/BinaryExpression.h:19-55 | a binary node's non-zero count fits in `len`, and its text starts with `(` and ends with `)` |
| Render.BinaryRest | exprcmpl/BinaryExpression.h:36-54 | after the left operand, a non-empty result keeps what was already written, adds at least the operator, an operand and `)`, and stays within the room |
| Render.JoinedLength | exprcmpl/CallExpression.h:28-29 | each argument takes at least one character and each separator two, so the call's size check is implied by the text fitting |
| Render.RoomyBufferGetsText | exprcmpl/BinaryExpression.h:19-55 | a buffer with room for the canonical text and its terminator receives exactly that text |
| Render.RoomyCall | exprcmpl/CallExpression.h:24-64 | a call with room for its text and terminator prints exactly its canonical text |
| Render.RoomyBinary | exprcmpl/BinaryExpression.h:19-55 | a binary node with room for its text and terminator prints exactly its canonical text |
| Render.RoomyArgs | exprcmpl/CallExpression.h:36-57 | with room, the argument loop prints the arguments separated by `", "` and the `)` |
| Render.CallFreeAllOrNothing | exprcmpl/BinaryExpression.h:19-55 | without calls, printing gives the canonical text or nothing |
| Render.TruncatedArgumentKeepsGoing | exprcmpl/CallExpression.h:38-64 | `g(f(abcdefghij), x)` in 9 bytes prints `g(f(, x)`, which is not a prefix of its text |
| Driver.ParseExpression | exprcmpl/exprcmpl.cpp:6-20 | invalid input exactly for null text, length <= 0 or null destination; a tree exactly on success, and it is well formed |
| Driver.ParseFollowsGrammar | exprcmpl/exprcmpl.cpp:11-19 | parsing succeeds exactly when the reference grammar derives the reference tokens of the text, with the same tree |
| Driver.PrintExpression | exprcmpl/exprcmpl.cpp:22-28 | invalid input for a null store, length <= 0 or a null tree; otherwise the count is the length of what was written and at most the store |
| Driver.PrintGivesText | exprcmpl/exprcmpl.cpp:22-28 | a store with room for the text and its terminator receives the canonical text |
| Driver.CompileExpression | exprcmpl/exprcmpl.cpp:30-48 | invalid input for any null pointer or length <= 0; the result is never 0; a positive result is within the buffer and ends in `ret` |
| Driver.CompileFollowsCode | exprcmpl/exprcmpl.cpp:37-47 | success exactly when the reference code has no error, is not empty and fits with `ret`; then the buffer holds that code and `C3`; otherwise its error, `ERR_COMPILATION_FAILED` or `ERR_OUTPUT_BUFFER_TOO_SMALL` |
| Driver.Compile | exprcmpl/exprcmpl.cpp:36-47 | once every argument is checked, emitting from position 0 and finishing never returns 0, and a positive count lies within the caller's bytes and ends in `ret` |
| Driver.CompileIsFinish | exprcmpl/exprcmpl.cpp:32-38 | with every pointer present and a positive length, the result depends only on the emission of the tree into all `output_len` bytes from position 0 |
| Driver.FinishMatches | exprcmpl/exprcmpl.cpp:39-47 | for any emission that matches a reference code from position 0, success exactly for error-free, non-empty code that fits with `ret`; otherwise that code's error, `ERR_COMPILATION_FAILED` or `ERR_OUTPUT_BUFFER_TOO_SMALL` |
| Driver.FinishTooSmall | exprcmpl/exprcmpl.cpp:39-42 | an emission that ran out of room is returned as `ERR_OUTPUT_BUFFER_TOO_SMALL` by the negative-result check, before `ret` is tried |
| Driver.Finish | exprcmpl/exprcmpl.cpp:39-47 | after emission the result is never 0: an error passes through unchanged, and a positive result ends in `ret` within the buffer |
| Driver.FinishCode | exprcmpl/exprcmpl.cpp:39-47 | for code that fits: success exactly for error-free, non-empty code leaving room for `ret`; otherwise the code's error, `ERR_COMPILATION_FAILED` for empty code, or `ERR_OUTPUT_BUFFER_TOO_SMALL` |
| Driver.FinishCodeError | exprcmpl/exprcmpl.cpp:39-42 | code that ends in an error returns that error's code, which is negative |
| Driver.FinishCodeDone | exprcmpl/exprcmpl.cpp:39-47 | error-free code succeeds exactly when it is non-empty and leaves room for `ret`; empty code is `ERR_COMPILATION_FAILED`, and code that fills the buffer is `ERR_OUTPUT_BUFFER_TOO_SMALL` |
| Driver.RetAppended | exprcmpl/exprcmpl.cpp:44-47 | after the code, `ret` is appended and the count covers it |
| Driver.NoArgumentHostCallFails | exprcmpl/exprcmpl.cpp:38-40 | a host function called without arguments writes nothing, so compiling it gives `ERR_COMPILATION_FAILED` |

## Left out

- Floating-point numerics are uninterpreted operations of `Fpu.FloatOps`:
  - arithmetic and decimal accumulation;
  - `eqdbl`;
  - `%.3f`;
  - conversions to float32 and int32.
  Only the bit split of a double into two words is exact.
- The x87 code's run-time meaning and the calling convention: the model states which bytes are written, not what they compute.
- Memory management: destructors, `ReleaseExpression`, `new[]`/`delete[]` and the allocating `ByteBuffer(int)` constructor. Trees are values.
- The console test harness in `exprcmpltest/main.cpp`, which does its own I/O.
- Null pointers are `None` or `false` arguments. A caller's buffer shorter than the length it passes is excluded by a precondition, as the C API assumes it.
- The behaviour of `sprintf_s` and `memcpy_s` on failure:
  - a `sprintf_s` without room for its text and terminator is `Render.Aborted`, standing for the invalid-parameter handler ending the program;
  - NUL terminators written into the store are not modelled.
- `GetExpressionTreeLength`: it is defined only for variables and never called.
- `GetInputPos`: it is not used by the entry points.
- Render.FormatsNonEmpty: the lemmas about printed text assume that `%.3f` never prints an empty string, which the uninterpreted `format` cannot promise by itself.

=== FILE: api.dfy ===
/** The public vocabulary of the compiler: error codes, identifier kinds and the resolver. */
module Api {
  import opened Base

  /** The library's error enumeration. */
  datatype ErrorCode =
    | Success
    | Unknown
    | InvalidInput
    | CompilationFailed
    | ParsingFailed
    | OutputBufferTooSmall
    | ImmBinaryComputeErr
    | UnknownIdentifier
    | IdentifierMisuse
    | ArgcDoesntMatch
    | UnknownOperand
    | ArgTypeErr
    | RetTypeErr

  /** The integer each error is returned as. */
  function Code(e: ErrorCode): int
  {
    match e
    case Success => 1
    case Unknown => 0
    case InvalidInput => -1
    case CompilationFailed => -2
    case ParsingFailed => -3
    case OutputBufferTooSmall => -4
    case ImmBinaryComputeErr => -5
    case UnknownIdentifier => -6
    case IdentifierMisuse => -7
    case ArgcDoesntMatch => -8
    case UnknownOperand => -9
    case ArgTypeErr => -10
    case RetTypeErr => -11
  }

  /** Reads a returned integer back as an error code. */
  function FromCode(n: int): (r: Option<ErrorCode>)
    ensures r.Some? <==> -11 <= n <= 1
  {
    if n == 1 then Some(Success)
    else if n == 0 then Some(Unknown)
    else if n == -1 then Some(InvalidInput)
    else if n == -2 then Some(CompilationFailed)
    else if n == -3 then Some(ParsingFailed)
    else if n == -4 then Some(OutputBufferTooSmall)
    else if n == -5 then Some(ImmBinaryComputeErr)
    else if n == -6 then Some(UnknownIdentifier)
    else if n == -7 then Some(IdentifierMisuse)
    else if n == -8 then Some(ArgcDoesntMatch)
    else if n == -9 then Some(UnknownOperand)
    else if n == -10 then Some(ArgTypeErr)
    else if n == -11 then Some(RetTypeErr)
    else None
  }

  /** Every error code survives the trip through its integer, so codes are distinct. */
  lemma CodeRoundTrip(e: ErrorCode)
    ensures FromCode(Code(e)) == Some(e)
  {
  }

  /** Only `Success` is positive: every other code is a failure to a caller testing `<= 0`. */
  lemma OnlySuccessIsPositive(e: ErrorCode)
    ensures Code(e) > 0 <==> e == Success
    ensures e != Success ==> Code(e) <= 0
  {
  }

  // Identifier kinds; the resolver may report any byte value.
  const IdNone: Byte := 0
  const IdInt32: Byte := 1
  const IdFloat32: Byte := 2
  const IdFloat64: Byte := 3
  const IdFunc: Byte := 4

  /**
    What the host reports about a name: its kind, the return type of a
    function, its 32-bit address, and the function's argument-type array.
    The array is 0-terminated by convention; the model sees the memory from its
    start as `nat -> Byte`, so a read past the terminator is simply a read.
  */
  datatype Identifier = Identifier(kind: Byte, returnType: Byte, address: Word32, argTypes: nat -> Byte)

  /** The host's lookup: `None` when the callback returns 0 (not found). */
  type Resolver = string -> Option<Identifier>
}

=== FILE: ast.dfy ===
/**
  The expression tree: a number literal, a variable reference, a call with its
  argument list, or a binary operation. The parser builds trees whose
  operators are the four arithmetic ones and whose calls have at most 32
  arguments; the emitter and printer accept any tree.
*/
module Ast {
  import opened Fpu
  import opened Lexer

  /** The most arguments a call the parser builds can have. */
  const MaxArgs: nat := 32

  datatype Expr =
    | Number(value: Double)
    | Variable(name: string)
    | Call(name: string, args: seq<Expr>)
    | Binary(op: char, lhs: Expr, rhs: Expr)

  predicate IsOperator(op: char)
  {
    op == '+' || op == '-' || op == '*' || op == '/'
  }

  /** The shape of every tree the parser can produce. */
  predicate WellFormed(e: Expr)
  {
    match e
    case Number(_) => true
    case Variable(n) => IsIdentifierName(n)
    case Call(n, args) => IsIdentifierName(n) && |args| <= MaxArgs && forall a | a in args :: WellFormed(a)
    case Binary(op, l, r) => IsOperator(op) && WellFormed(l) && WellFormed(r)
  }

  /** True when the tree holds no variable and no call: its value is known without a host. */
  predicate IsConstant(e: Expr)
  {
    match e
    case Number(_) => true
    case Variable(_) => false
    case Call(_, _) => false
    case Binary(_, l, r) => IsConstant(l) && IsConstant(r)
  }
}

=== FILE: base.dfy ===
/** Machine-level value types shared by every module of the expression compiler model. */
module Base {

  /** The usual Some/None wrapper, standing in for nullable pointers. */
  datatype Option<+T> = None | Some(value: T) {
    function GetOr(default: T): T {
      match this
      case Some(v) => v
      case None => default
    }
  }

  /** A success value or an error value. */
  datatype Result<+T, +E> = Ok(value: T) | Err(error: E)

  /** An unsigned 8-bit value (`uint8`). */
  type Byte = x: int | 0 <= x < 0x100

  /** An unsigned 32-bit value (`uint32`); also a 32-bit x86 address. */
  type Word32 = x: int | 0 <= x < 0x1_0000_0000

  /** An unsigned 64-bit value: the bit pattern of a `double`. */
  type Bits64 = x: int | 0 <= x < 0x1_0000_0000_0000_0000
}

=== FILE: builtins.dfy ===
/**
  The names a call may use without asking the host, and the check a host
  function's argument-type array must pass.
*/
module Builtins {
  import opened Base
  import opened Api

  datatype Builtin = Sin | Cos | Abs | Chs | Tan | Cot | Sqrt | Log2 | Pi

  /** The built-in table in its order: name, argument count, handler. */
  const Table: seq<Builtin> := [Sin, Cos, Abs, Chs, Tan, Cot, Sqrt, Log2, Pi]

  function Name(f: Builtin): string
  {
    match f
    case Sin => "sin"
    case Cos => "cos"
    case Abs => "abs"
    case Chs => "chs"
    case Tan => "tan"
    case Cot => "cot"
    case Sqrt => "sqrt"
    case Log2 => "log2"
    case Pi => "pi"
  }

  function Arity(f: Builtin): nat
  {
    if f == Pi then 0 else 1
  }

  /** The result of `GetBuiltInFunct`: the entry, and whether the name was in the table at all. */
  datatype Lookup = Lookup(found: Option<Builtin>, overloaded: bool)

  /**
    `GetBuiltInFunct`, scanning the table from entry `i`: the first entry with
    the name marks the name as built in, and is returned only when its argument
    count matches; the scan stops there either way.
  */
  function FindFrom(name: string, argc: nat, i: nat): (r: Lookup)
    requires i <= |Table|
    ensures r.found.Some? ==> Name(r.found.value) == name && Arity(r.found.value) == argc && r.overloaded
    ensures r.overloaded <==> exists k :: i <= k < |Table| && Name(Table[k]) == name
    decreases |Table| - i
  {
    if i == |Table| then Lookup(None, false)
    else if Name(Table[i]) == name then
      Lookup(if Arity(Table[i]) == argc then Some(Table[i]) else None, true)
    else FindFrom(name, argc, i + 1)
  }

  /** `GetBuiltInFunct` over the whole table. */
  function Find(name: string, argc: nat): (r: Lookup)
    ensures r.found.Some? ==> Name(r.found.value) == name && Arity(r.found.value) == argc
    ensures r.overloaded <==> exists k :: 0 <= k < |Table| && Name(Table[k]) == name
  {
    FindFrom(name, argc, 0)
  }

  /** The table names are distinct, so a name selects at most one built-in. */
  lemma NamesDistinct(f: Builtin, g: Builtin)
    requires Name(f) == Name(g)
    ensures f == g
  {
  }

  /**
    A call is handled by a built-in exactly when some table entry has its name
    and its argument count; the entry found is that one.
  */
  lemma FindIsTable(name: string, argc: nat)
    ensures Find(name, argc).found.Some? <==>
      exists k :: 0 <= k < |Table| && Name(Table[k]) == name && Arity(Table[k]) == argc
  {
    if exists k :: 0 <= k < |Table| && Name(Table[k]) == name && Arity(Table[k]) == argc {
      var k :| 0 <= k < |Table| && Name(Table[k]) == name && Arity(Table[k]) == argc;
      FindFromSelects(name, argc, 0, k);
    }
  }

  /** Scanning from before the entry named `name` finds that entry. */
  lemma {:induction false} FindFromSelects(name: string, argc: nat, i: nat, k: nat)
    requires i <= k < |Table| && Name(Table[k]) == name && Arity(Table[k]) == argc
    ensures FindFrom(name, argc, i).found == Some(Table[k])
    decreases k - i
  {
    if Name(Table[i]) == name {
      NamesDistinct(Table[i], Table[k]);
    } else {
      FindFromSelects(name, argc, i + 1, k);
    }
  }

  /**
    `CheckArgs`, having accepted `count` types: reads the type at `count + 1`
    (the scan pre-increments its pointer, so it starts at index 1). A 0 ends the
    list; a function type is rejected; the list may not run past `argc` types.
  */
  function CheckFrom(types: nat -> Byte, argc: nat, count: nat): (r: Option<ErrorCode>)
    requires count <= argc
    ensures r == None || r == Some(ArgTypeErr) || r == Some(ArgcDoesntMatch)
    decreases argc - count
  {
    var t := types(count + 1);
    if t == IdNone then (if count != argc then Some(ArgcDoesntMatch) else None)
    else if t == IdFunc then Some(ArgTypeErr)
    else if count + 1 > argc then Some(ArgcDoesntMatch)
    else CheckFrom(types, argc, count + 1)
  }

  /** `CheckArgs`: `None` when it returns 1, else the error. */
  function CheckArgs(types: nat -> Byte, argc: nat): (r: Option<ErrorCode>)
    ensures r == None || r == Some(ArgTypeErr) || r == Some(ArgcDoesntMatch)
    ensures types(1) == IdFunc ==> r == Some(ArgTypeErr)
    ensures types(1) == IdNone ==> (r == None <==> argc == 0)
  {
    CheckFrom(types, argc, 0)
  }

  /** An acceptable argument type: neither the terminator nor a function. */
  predicate IsValueType(t: Byte)
  {
    t != IdNone && t != IdFunc
  }

  /**
    The check passes exactly when entries 1 to `argc` are value types and entry
    `argc + 1` is the terminator: entry 0 is never looked at.
  */
  lemma {:induction false} CheckFromPasses(types: nat -> Byte, argc: nat, count: nat)
    requires count <= argc
    ensures CheckFrom(types, argc, count) == None <==>
      (forall k :: count < k <= argc ==> IsValueType(types(k))) && types(argc + 1) == IdNone
    decreases argc - count
  {
    if count < argc && IsValueType(types(count + 1)) {
      CheckFromPasses(types, argc, count + 1);
      if CheckFrom(types, argc, count + 1) == None {
        forall k | count < k <= argc ensures IsValueType(types(k)) {
          if k > count + 1 {
          }
        }
      }
    }
  }

  lemma CheckArgsPasses(types: nat -> Byte, argc: nat)
    ensures CheckArgs(types, argc) == None <==>
      (forall k :: 0 < k <= argc ==> IsValueType(types(k))) && types(argc + 1) == IdNone
  {
    CheckFromPasses(types, argc, 0);
  }

  /** With value types up to a terminator at `argc`, the scan comes up one argument short. */
  lemma {:induction false} CheckFromShort(types: nat -> Byte, argc: nat, count: nat)
    requires count < argc && types(argc) == IdNone
    requires forall k :: count < k < argc ==> IsValueType(types(k))
    ensures CheckFrom(types, argc, count) == Some(ArgcDoesntMatch)
    decreases argc - count
  {
    if count + 1 < argc {
      CheckFromShort(types, argc, count + 1);
    }
  }

  /**
    The argument-type array in its documented form, `argc` value types followed
    by the 0 terminator, is rejected for every function with arguments: the
    scan starts one entry late and finds the terminator one argument short.
  */
  lemma DocumentedTypesRejected(types: nat -> Byte, argc: nat)
    requires argc >= 1 && types(argc) == IdNone
    requires forall k :: 0 <= k < argc ==> IsValueType(types(k))
    ensures CheckArgs(types, argc) == Some(ArgcDoesntMatch)
  {
    CheckFromShort(types, argc, 0);
  }
}

=== FILE: byte_buffer.dfy ===
/**
  The bounded output writer. A buffer is its backing array (whose length is the
  capacity) and the write position. Appends either fit entirely and advance the
  position, or report failure and leave the buffer as it was.
*/
module ByteBuffer {
  import opened Base

  datatype Buffer = Buffer(data: seq<Byte>, pos: int)

  /** The class invariant: the position lies within the array. */
  predicate Valid(b: Buffer)
  {
    0 <= b.pos <= |b.data|
  }

  /** A fresh writer over a caller-supplied array. */
  function Over(data: seq<Byte>): (b: Buffer)
    ensures Valid(b) && b.pos == 0 && b.data == data
  {
    Buffer(data, 0)
  }

  /** Free space left. */
  function Room(b: Buffer): int
  {
    |b.data| - b.pos
  }

  /** `ensureCapacity(n)`. */
  function EnsureCapacity(b: Buffer, n: int): (ok: bool)
    ensures ok <==> b.pos + n <= |b.data|
  {
    Room(b) >= n
  }

  /** The outcome of an append: whether it fit, and the buffer afterwards. */
  datatype Appended = Appended(ok: bool, buf: Buffer)

  /** The two bytes of `uint16(v)` in x86 (little-endian) order. */
  function Bytes16(v: int): (r: seq<Byte>)
    ensures |r| == 2 && r[0] as int + 0x100 * (r[1] as int) == v % 0x1_0000
  {
    var u := v % 0x1_0000;
    [u % 0x100, u / 0x100]
  }

  /** The four bytes of a 32-bit word in little-endian order. */
  function Bytes32(v: Word32): (r: seq<Byte>)
    ensures |r| == 4
  {
    [v % 0x100, (v / 0x100) % 0x100, (v / 0x1_0000) % 0x100, v / 0x100_0000]
  }

  /** Reads four little-endian bytes back as a word. */
  function Word32Of(r: seq<Byte>): Word32
    requires |r| == 4
  {
    r[0] as int + 0x100 * (r[1] as int) + 0x1_0000 * (r[2] as int) + 0x100_0000 * (r[3] as int)
  }

  /** Little-endian storage loses nothing: reading the four bytes back gives the word. */
  lemma Bytes32RoundTrip(v: Word32)
    ensures Word32Of(Bytes32(v)) == v
  {
    var b := Bytes32(v);
    assert v == v % 0x100 + 0x100 * (v / 0x100);
    assert v / 0x100 == (v / 0x100) % 0x100 + 0x100 * (v / 0x1_0000);
    assert v / 0x1_0000 == (v / 0x1_0000) % 0x100 + 0x100 * (v / 0x100_0000);
  }

  /** Writes `bytes` at the position: the bytes before and after are kept. */
  function Put(b: Buffer, bytes: seq<Byte>): (r: Buffer)
    requires Valid(b) && b.pos + |bytes| <= |b.data|
    ensures Valid(r) && |r.data| == |b.data| && r.pos == b.pos + |bytes|
    ensures r.data[..b.pos] == b.data[..b.pos]
    ensures r.data[b.pos..r.pos] == bytes
    ensures r.data[r.pos..] == b.data[r.pos..]
  {
    Buffer(b.data[..b.pos] + bytes + b.data[b.pos + |bytes|..], b.pos + |bytes|)
  }

  /** Shared shape of the three appends: all the bytes fit, or nothing happens. */
  function AppendBytes(b: Buffer, bytes: seq<Byte>): (r: Appended)
    requires Valid(b)
    ensures Valid(r.buf)
    ensures r.ok <==> EnsureCapacity(b, |bytes|)
    ensures !r.ok ==> r.buf == b
  {
    if EnsureCapacity(b, |bytes|) then Appended(true, Put(b, bytes)) else Appended(false, b)
  }

  /** `append_8`: stores the low 8 bits of the value. */
  function Append8(b: Buffer, v: int): (r: Appended)
    requires Valid(b)
    ensures Valid(r.buf) && |r.buf.data| == |b.data|
    ensures r.ok <==> Room(b) >= 1
    ensures r.ok ==> r.buf.pos == b.pos + 1 && r.buf.data == b.data[b.pos := v % 0x100]
    ensures !r.ok ==> r.buf == b
  {
    var r := AppendBytes(b, [v % 0x100]);
    assert r.ok ==> r.buf.data == b.data[b.pos := v % 0x100] by {
      if r.ok {
        assert r.buf.data == b.data[..b.pos] + [v % 0x100] + b.data[b.pos + 1..];
      }
    }
    r
  }

  /** `append_16`: stores `uint16(v)` little-endian in the next two bytes. */
  function Append16(b: Buffer, v: int): (r: Appended)
    requires Valid(b)
    ensures Valid(r.buf) && |r.buf.data| == |b.data|
    ensures r.ok <==> Room(b) >= 2
    ensures r.ok ==> r.buf.pos == b.pos + 2 && r.buf.data[b.pos..b.pos + 2] == Bytes16(v)
    ensures r.ok ==> r.buf.data[..b.pos] == b.data[..b.pos] && r.buf.data[b.pos + 2..] == b.data[b.pos + 2..]
    ensures !r.ok ==> r.buf == b
  {
    AppendBytes(b, Bytes16(v))
  }

  /** `append_32`: stores the word little-endian in the next four bytes. */
  function Append32(b: Buffer, v: Word32): (r: Appended)
    requires Valid(b)
    ensures Valid(r.buf) && |r.buf.data| == |b.data|
    ensures r.ok <==> Room(b) >= 4
    ensures r.ok ==> r.buf.pos == b.pos + 4 && Word32Of(r.buf.data[b.pos..b.pos + 4]) == v
    ensures r.ok ==> r.buf.data[..b.pos] == b.data[..b.pos] && r.buf.data[b.pos + 4..] == b.data[b.pos + 4..]
    ensures !r.ok ==> r.buf == b
  {
    Bytes32RoundTrip(v);
    AppendBytes(b, Bytes32(v))
  }

  /** One append call of a `!buf.append_x(..) || ...` chain. */
  datatype Write = W8(v: int) | W16(v: int) | W32(w: Word32)

  function WriteBytes(w: Write): seq<Byte>
  {
    match w
    case W8(v) => [v % 0x100]
    case W16(v) => Bytes16(v)
    case W32(x) => Bytes32(x)
  }

  function Apply(b: Buffer, w: Write): (r: Appended)
    requires Valid(b)
    ensures Valid(r.buf)
  {
    match w
    case W8(v) => Append8(b, v)
    case W16(v) => Append16(b, v)
    case W32(x) => Append32(b, x)
  }

  /** The bytes a chain of appends stores, in order. */
  function ChainBytes(ws: seq<Write>): seq<Byte>
  {
    if ws == [] then [] else WriteBytes(ws[0]) + ChainBytes(ws[1..])
  }

  /**
    A chain `!append(..) || !append(..) || ...`: stops at the first append that
    does not fit. Appends that fitted before it stay written.
  */
  function AppendAll(b: Buffer, ws: seq<Write>): (r: Appended)
    requires Valid(b)
    ensures Valid(r.buf) && |r.buf.data| == |b.data| && b.pos <= r.buf.pos
    ensures r.buf.data[..b.pos] == b.data[..b.pos]
    ensures r.ok <==> Room(b) >= |ChainBytes(ws)|
    ensures r.ok ==> r.buf == Put(b, ChainBytes(ws))
    decreases |ws|
  {
    if ws == [] then Appended(true, b)
    else
      var a := Apply(b, ws[0]);
      if !a.ok then a
      else
        assert a.buf == Put(b, WriteBytes(ws[0])) by { ApplyPuts(b, ws[0]); }
        var r := AppendAll(a.buf, ws[1..]);
        if r.ok then
          PutTwice(b, WriteBytes(ws[0]), ChainBytes(ws[1..]));
          r
        else r
  }

  lemma ApplyPuts(b: Buffer, w: Write)
    requires Valid(b)
    ensures Apply(b, w).ok <==> Room(b) >= |WriteBytes(w)|
    ensures Apply(b, w).ok ==> Apply(b, w).buf == Put(b, WriteBytes(w))
  {
    match w
    case W8(v) =>
      if Apply(b, w).ok {
        assert Put(b, [v % 0x100]).data == b.data[b.pos := v % 0x100];
      }
    case W16(v) =>
    case W32(x) =>
  }

  /** Two consecutive puts are one put of the concatenation. */
  lemma PutTwice(b: Buffer, x: seq<Byte>, y: seq<Byte>)
    requires Valid(b) && b.pos + |x| + |y| <= |b.data|
    ensures Put(Put(b, x), y) == Put(b, x + y)
  {
    var p := Put(Put(b, x), y);
    var q := Put(b, x + y);
    assert p.data == q.data by {
      assert p.data == b.data[..b.pos] + x + y + b.data[b.pos + |x| + |y|..];
    }
  }
  /** The bytes of a chain of two chains are the two byte strings in order. */
  lemma {:induction false} ChainBytesAppend(xs: seq<Write>, ys: seq<Write>)
    ensures ChainBytes(xs + ys) == ChainBytes(xs) + ChainBytes(ys)
    decreases |xs|
  {
    if xs != [] {
      assert (xs + ys)[1..] == xs[1..] + ys;
      ChainBytesAppend(xs[1..], ys);
    } else {
      assert xs + ys == ys;
    }
  }
}

=== FILE: codegen.dfy ===
/**
  A reference for the emitter with no buffer in it: the bytes each node's code
  consists of, and the error (if any) that ends it. The position only matters
  through `start` (nothing written yet), because a child that writes nothing at
  position 0 returns 0 and so stops its parent. `EmitMatchesCode` shows that the
  emitter writes exactly these bytes when they fit, and otherwise reports a
  too-small buffer.
*/
module CodeGen {
  import opened Base
  import opened Fpu
  import opened Api
  import opened Ast
  import opened ByteBuffer
  import opened Marshalling
  import opened Builtins
  import opened X87
  import opened Emitter

  /** Code generated up to its end or its error. */
  datatype Gen = Gen(bytes: seq<Byte>, err: Option<ErrorCode>)

  /** A reported error is a real failure: its code is negative. */
  predicate Proper(g: Gen)
  {
    g.err.Some? ==> Code(g.err.value) < 0
  }

  function Writes(ws: seq<Write>): (g: Gen)
    ensures Proper(g) && g.err.None?
  {
    Gen(ChainBytes(ws), None)
  }

  function Fail(err: ErrorCode): Gen
  {
    Gen([], Some(err))
  }

  /** The part before stops its parent: an error, or no bytes at position 0. */
  predicate Stops(g: Gen, start: bool)
  {
    g.err.Some? || (start && g.bytes == [])
  }

  /** `g` followed by `h`, unless `g` stops the parent. */
  function AndThen(g: Gen, start: bool, h: Gen): (r: Gen)
    ensures Proper(g) && Proper(h) ==> Proper(r)
  {
    if Stops(g, start) then g else Gen(g.bytes + h.bytes, h.err)
  }

  /** The operator's code. */
  function OperatorCode(op: char): (g: Gen)
    ensures Proper(g)
  {
    match OperatorOpcode(op)
    case Some(c) => Writes([W16(c)])
    case None => Fail(UnknownOperand)
  }

  /** The return type's fix-up code. */
  function FixupCode(t: Byte): (g: Gen)
    ensures Proper(g)
  {
    match ReturnFixup(t)
    case None => Fail(RetTypeErr)
    case Some(ws) => Writes(ws)
  }

  /** The store code after a non-immediate argument. */
  function StoreCode(t: Byte): (g: Gen)
    ensures Proper(g)
  {
    match PushStackTop(t)
    case None => Fail(ArgTypeErr)
    case Some(ws) => Writes(ws)
  }

  /** The code of a tree, written from a position that is 0 exactly when `start` holds. */
  function CodeOf(e: Expr, start: bool, res: Resolver, ops: FloatOps): (g: Gen)
    ensures Proper(g)
    decreases e, 2
  {
    match e
    case Number(v) => Writes(LoadNumber(v, ops))
    case Variable(n) =>
      (match res(n)
       case None => Fail(UnknownIdentifier)
       case Some(id) =>
         match LoadOpcode(id.kind)
         case None => Fail(IdentifierMisuse)
         case Some(opcode) => Writes(LoadVariable(opcode, id.address)))
    case Call(_, _) => CallCode(e, start, res, ops)
    case Binary(op, l, r) =>
      var li := Info(l, ops);
      var ri := Info(r, ops);
      if li.kind == Imm && ri.kind == Imm then
        match Compute(op, li.imm, ri.imm, ops)
        case Some(v) => Writes(LoadNumber(v, ops))
        case None => Fail(ImmBinaryComputeErr)
      else
        AndThen(CodeOf(l, start, res, ops), start, AndThen(CodeOf(r, false, res, ops), false, OperatorCode(op)))
  }

  function CallCode(e: Expr, start: bool, res: Resolver, ops: FloatOps): (g: Gen)
    requires e.Call?
    ensures Proper(g)
    decreases e, 1
  {
    var lk := Find(e.name, |e.args|);
    match lk.found
    case Some(f) => BuiltinCode(e, f, start, res, ops)
    case None =>
      match res(e.name)
      case None => Fail(if lk.overloaded then ArgcDoesntMatch else UnknownIdentifier)
      case Some(id) =>
        if id.kind != IdFunc then Fail(IdentifierMisuse)
        else
          match CheckArgs(id.argTypes, |e.args|)
          case Some(err) => Fail(err)
          case None => HostArgsCode(e, id, 0, start, res, ops)
  }

  function BuiltinCode(e: Expr, f: Builtin, start: bool, res: Resolver, ops: FloatOps): (g: Gen)
    requires e.Call? && |e.args| == Arity(f)
    ensures Proper(g)
    decreases e, 0, 0
  {
    if f == Pi then Writes(BuiltinSuffix(f))
    else if f == Log2 then
      AndThen(Writes(Log2Prefix), start, AndThen(CodeOf(e.args[0], false, res, ops), false, Writes(BuiltinSuffix(f))))
    else AndThen(CodeOf(e.args[0], start, res, ops), start, Writes(BuiltinSuffix(f)))
  }

  /** The call and the result fix-up after each argument. */
  function CallTailCode(id: Identifier): (g: Gen)
    ensures Proper(g)
  {
    AndThen(Writes(CallAddress(id.address)), false, FixupCode(id.returnType))
  }

  /** Pushing argument `i` as the host's type at index `i`. */
  function PushCode(e: Expr, id: Identifier, i: nat, start: bool, res: Resolver, ops: FloatOps): (g: Gen)
    requires e.Call? && i < |e.args|
    ensures Proper(g)
    decreases e, 0, |e.args| - i, 0
  {
    var a := e.args[i];
    var t := id.argTypes(i);
    var info := Info(a, ops);
    if info.kind == Imm then
      match PushImmediate(t, info.imm, ops)
      case None => Fail(ArgTypeErr)
      case Some(ws) => Writes(ws)
    else AndThen(CodeOf(a, start, res, ops), start, StoreCode(t))
  }

  function HostArgsCode(e: Expr, id: Identifier, i: nat, start: bool, res: Resolver, ops: FloatOps): (g: Gen)
    requires e.Call? && i <= |e.args|
    ensures Proper(g)
    decreases e, 0, |e.args| - i, 1
  {
    if i == |e.args| then Gen([], None)
    else
      AndThen(PushCode(e, id, i, start, res, ops), start,
        AndThen(CallTailCode(id), false, HostArgsCode(e, id, i + 1, false, res, ops)))
  }

  // ---- The emitter writes exactly the reference code ----

  /** The emission that ends with `buf` and the error `err`, if any. */
  function Outcome(buf: Buffer, err: Option<ErrorCode>): Emission
  {
    match err
    case None => Emitted(buf)
    case Some(x) => Failed(x, buf)
  }

  /**
    The emission `r` from `b` is the one the code `g` describes: when the code
    fits, it is written after the existing bytes and its error (if any) is
    returned; when it does not, the buffer-too-small error is returned.
  */
  predicate Matches(b: Buffer, r: Emission, g: Gen)
    requires Valid(b)
  {
    if Room(b) >= |g.bytes| then r == Outcome(Put(b, g.bytes), g.err)
    else r.Failed? && r.err == OutputBufferTooSmall
  }

  lemma PutNothing(b: Buffer)
    requires Valid(b)
    ensures Put(b, []) == b
  {
    assert Put(b, []).data == b.data;
  }

  lemma AppendMatches(b: Buffer, ws: seq<Write>)
    requires Valid(b)
    ensures Matches(b, Append(b, ws), Writes(ws))
  {
  }

  lemma FailMatches(b: Buffer, err: ErrorCode)
    requires Valid(b)
    ensures Matches(b, Failed(err, b), Fail(err))
  {
    PutNothing(b);
  }

  /**
    Sequencing: if the first emission matches its code, and the rest matches its
    code from where the first left off, the stop-or-continue emission matches
    the stop-or-continue code.
  */
  lemma StepMatches(b: Buffer, r1: Emission, g1: Gen, start: bool, r2: Emission, g2: Gen)
    requires Valid(b) && start == (b.pos == 0) && Proper(g1)
    requires Matches(b, r1, g1) && Valid(r1.buf)
    requires !Aborts(r1) ==> Matches(r1.buf, r2, g2)
    ensures Matches(b, if Aborts(r1) then r1 else r2, AndThen(g1, start, g2))
  {
    if Room(b) >= |g1.bytes| && !Stops(g1, start) {
      var b1 := Put(b, g1.bytes);
      assert r1 == Emitted(b1);
      if Room(b1) >= |g2.bytes| {
        PutTwice(b, g1.bytes, g2.bytes);
      }
    }
  }

  /** An emission that matches proper code and does not stop `EXIT_ON_ERR` has written something. */
  lemma Proceeds(b: Buffer, r: Emission, g: Gen)
    requires Valid(b) && Matches(b, r, g) && Proper(g) && !Aborts(r)
    ensures r.Emitted? && r.buf.pos > 0
  {
  }

  lemma {:induction false} EmitMatchesCode(b: Buffer, e: Expr, res: Resolver, ops: FloatOps)
    requires Valid(b)
    ensures Matches(b, Emit(b, e, res, ops), CodeOf(e, b.pos == 0, res, ops))
    decreases e, 2
  {
    match e
    case Number(v) => AppendMatches(b, LoadNumber(v, ops));
    case Variable(n) =>
      match res(n) {
        case None => FailMatches(b, UnknownIdentifier);
        case Some(id) =>
          match LoadOpcode(id.kind) {
            case None => FailMatches(b, IdentifierMisuse);
            case Some(opcode) => AppendMatches(b, LoadVariable(opcode, id.address));
          }
      }
    case Call(_, _) => EmitCallMatches(b, e, res, ops);
    case Binary(_, _, _) => EmitBinaryMatches(b, e, res, ops);
  }

  lemma EmitOperatorMatches(b: Buffer, op: char)
    requires Valid(b)
    ensures Matches(b, EmitOperator(b, op), OperatorCode(op))
  {
    match OperatorOpcode(op)
    case Some(c) => AppendMatches(b, [W16(c)]);
    case None => FailMatches(b, UnknownOperand);
  }

  lemma {:induction false} EmitBinaryMatches(b: Buffer, e: Expr, res: Resolver, ops: FloatOps)
    requires Valid(b) && e.Binary?
    ensures Matches(b, EmitBinary(b, e, res, ops), CodeOf(e, b.pos == 0, res, ops))
    decreases e, 1
  {
    var start := b.pos == 0;
    var li := Info(e.lhs, ops);
    var ri := Info(e.rhs, ops);
    if li.kind == Imm && ri.kind == Imm {
      match Compute(e.op, li.imm, ri.imm, ops)
      case Some(v) => AppendMatches(b, LoadNumber(v, ops));
      case None => FailMatches(b, ImmBinaryComputeErr);
    } else {
      var rl := Emit(b, e.lhs, res, ops);
      EmitMatchesCode(b, e.lhs, res, ops);
      var rr := Emit(rl.buf, e.rhs, res, ops);
      var rz := EmitOperator(rr.buf, e.op);
      if !Aborts(rl) {
        EmitMatchesCode(rl.buf, e.rhs, res, ops);
        EmitOperatorMatches(rr.buf, e.op);
        StepMatches(rl.buf, rr, CodeOf(e.rhs, false, res, ops), false, rz, OperatorCode(e.op));
      }
      StepMatches(b, rl, CodeOf(e.lhs, start, res, ops), start, if Aborts(rr) then rr else rz,
        AndThen(CodeOf(e.rhs, false, res, ops), false, OperatorCode(e.op)));
    }
  }

  lemma {:induction false} EmitCallMatches(b: Buffer, e: Expr, res: Resolver, ops: FloatOps)
    requires Valid(b) && e.Call?
    ensures Matches(b, EmitCall(b, e, res, ops), CallCode(e, b.pos == 0, res, ops))
    decreases e, 1
  {
    var lk := Find(e.name, |e.args|);
    match lk.found
    case Some(f) => EmitBuiltinMatches(b, e, f, res, ops);
    case None =>
      match res(e.name)
      case None => FailMatches(b, if lk.overloaded then ArgcDoesntMatch else UnknownIdentifier);
      case Some(id) =>
        if id.kind != IdFunc {
          FailMatches(b, IdentifierMisuse);
        } else {
          match CheckArgs(id.argTypes, |e.args|)
          case Some(err) => FailMatches(b, err);
          case None => EmitHostArgsMatches(b, e, id, 0, res, ops);
        }
  }

  lemma {:induction false} EmitBuiltinMatches(b: Buffer, e: Expr, f: Builtin, res: Resolver, ops: FloatOps)
    requires Valid(b) && e.Call? && |e.args| == Arity(f)
    ensures Matches(b, EmitBuiltin(b, e, f, res, ops), BuiltinCode(e, f, b.pos == 0, res, ops))
    decreases e, 0, 0
  {
    var start := b.pos == 0;
    var ws := BuiltinSuffix(f);
    if f == Pi {
      AppendMatches(b, ws);
    } else if f == Log2 {
      var r0 := Append(b, Log2Prefix);
      AppendMatches(b, Log2Prefix);
      if !Aborts(r0) {
        ArgThenWrites(r0.buf, e.args[0], ws, false, res, ops);
      }
      assert Aborts(r0) <==> r0.Failed?;
      var ra := Emit(r0.buf, e.args[0], res, ops);
      StepMatches(b, r0, Writes(Log2Prefix), start, if Aborts(ra) then ra else Append(ra.buf, ws),
        AndThen(CodeOf(e.args[0], false, res, ops), false, Writes(ws)));
    } else {
      ArgThenWrites(b, e.args[0], ws, start, res, ops);
    }
  }

  /** An argument's code followed by fixed writes, as every built-in with an argument emits them. */
  lemma {:induction false} ArgThenWrites(b: Buffer, a: Expr, ws: seq<Write>, start: bool, res: Resolver, ops: FloatOps)
    requires Valid(b) && start == (b.pos == 0)
    ensures var ra := Emit(b, a, res, ops);
      Matches(b, if Aborts(ra) then ra else Append(ra.buf, ws), AndThen(CodeOf(a, start, res, ops), start, Writes(ws)))
    decreases a, 3
  {
    var ra := Emit(b, a, res, ops);
    EmitMatchesCode(b, a, res, ops);
    var rz := Append(ra.buf, ws);
    AppendMatches(ra.buf, ws);
    StepMatches(b, ra, CodeOf(a, start, res, ops), start, rz, Writes(ws));
  }

  lemma EmitFixupMatches(b: Buffer, t: Byte)
    requires Valid(b)
    ensures Matches(b, EmitFixup(b, t), FixupCode(t))
  {
    match ReturnFixup(t)
    case None => FailMatches(b, RetTypeErr);
    case Some(ws) => AppendMatches(b, ws);
  }

  lemma EmitCallTailMatches(b: Buffer, id: Identifier)
    requires Valid(b) && b.pos > 0
    ensures Matches(b, EmitCallTail(b, id), CallTailCode(id))
    ensures Aborts(EmitCallTail(b, id)) <==> EmitCallTail(b, id).Failed?
  {
    AppendThenFixup(b, CallAddress(id.address), id.returnType);
  }

  /** Any writes followed by the return fix-up, past the start of the buffer. */
  lemma AppendThenFixup(b: Buffer, ws: seq<Write>, t: Byte)
    requires Valid(b) && b.pos > 0
    ensures var rc := Append(b, ws);
      var r := if rc.Failed? then rc else EmitFixup(rc.buf, t);
      && Matches(b, r, AndThen(Writes(ws), false, FixupCode(t)))
      && (Aborts(r) <==> r.Failed?)
  {
    var rc := Append(b, ws);
    AppendMatches(b, ws);
    StopsIffFailed(b, rc);
    var rz := EmitFixup(rc.buf, t);
    if !Aborts(rc) {
      EmitFixupMatches(rc.buf, t);
      StopsIffFailed(rc.buf, rz);
    }
    StepMatches(b, rc, Writes(ws), false, rz, FixupCode(t));
  }

  /** Past the start of the buffer, `EXIT_ON_ERR` stops exactly at a real error. */
  lemma StopsIffFailed(b: Buffer, r: Emission)
    requires b.pos > 0 && Grows(b, r.buf)
    requires r.Failed? ==> r.err in {OutputBufferTooSmall, RetTypeErr}
    ensures Aborts(r) <==> r.Failed?
  {
  }

  lemma EmitStoreMatches(b: Buffer, t: Byte)
    requires Valid(b)
    ensures Matches(b, EmitStore(b, t), StoreCode(t))
  {
    match PushStackTop(t)
    case None => FailMatches(b, ArgTypeErr);
    case Some(ws) => AppendMatches(b, ws);
  }

  lemma {:induction false} EmitPushMatches(b: Buffer, e: Expr, id: Identifier, i: nat, res: Resolver, ops: FloatOps)
    requires Valid(b) && e.Call? && i < |e.args|
    ensures Matches(b, EmitPush(b, e, id, i, res, ops), PushCode(e, id, i, b.pos == 0, res, ops))
    decreases e, 0, |e.args| - i, 0
  {
    var start := b.pos == 0;
    var a := e.args[i];
    var t := id.argTypes(i);
    var info := Info(a, ops);
    if info.kind == Imm {
      match PushImmediate(t, info.imm, ops)
      case None => FailMatches(b, ArgTypeErr);
      case Some(ws) => AppendMatches(b, ws);
    } else {
      var ra := Emit(b, a, res, ops);
      EmitMatchesCode(b, a, res, ops);
      var rs := EmitStore(ra.buf, t);
      if !Aborts(ra) {
        EmitStoreMatches(ra.buf, t);
      }
      StepMatches(b, ra, CodeOf(a, start, res, ops), start, rs, StoreCode(t));
    }
  }

  /** After argument `i` is pushed: the call, the fix-up and the remaining arguments. */
  lemma {:induction false} HostTailMatches(b: Buffer, e: Expr, id: Identifier, i: nat, res: Resolver, ops: FloatOps)
    requires Valid(b) && b.pos > 0 && e.Call? && i < |e.args|
    ensures var rc := EmitCallTail(b, id);
      Matches(b, if rc.Failed? then rc else EmitHostArgs(rc.buf, e, id, i + 1, res, ops),
        AndThen(CallTailCode(id), false, HostArgsCode(e, id, i + 1, false, res, ops)))
    decreases e, 0, |e.args| - i, 0
  {
    var rc := EmitCallTail(b, id);
    EmitCallTailMatches(b, id);
    var rn := EmitHostArgs(rc.buf, e, id, i + 1, res, ops);
    if !rc.Failed? {
      EmitHostArgsMatches(rc.buf, e, id, i + 1, res, ops);
    }
    StepMatches(b, rc, CallTailCode(id), false, rn, HostArgsCode(e, id, i + 1, false, res, ops));
  }

  lemma {:induction false} EmitHostArgsMatches(b: Buffer, e: Expr, id: Identifier, i: nat, res: Resolver, ops: FloatOps)
    requires Valid(b) && e.Call? && i <= |e.args|
    ensures Matches(b, EmitHostArgs(b, e, id, i, res, ops), HostArgsCode(e, id, i, b.pos == 0, res, ops))
    decreases e, 0, |e.args| - i, 1
  {
    var start := b.pos == 0;
    if i == |e.args| {
      PutNothing(b);
    } else {
      var pushed := EmitPush(b, e, id, i, res, ops);
      EmitPushMatches(b, e, id, i, res, ops);
      var rc := EmitCallTail(pushed.buf, id);
      var rest := if rc.Failed? then rc else EmitHostArgs(rc.buf, e, id, i + 1, res, ops);
      var tail := AndThen(CallTailCode(id), false, HostArgsCode(e, id, i + 1, false, res, ops));
      HostArgsUnfold(b, e, id, i, res, ops);
      if !Aborts(pushed) {
        Proceeds(b, pushed, PushCode(e, id, i, start, res, ops));
        HostTailMatches(pushed.buf, e, id, i, res, ops);
      }
      StepMatches(b, pushed, PushCode(e, id, i, start, res, ops), start, rest, tail);
    }
  }

  /** One round of the host-call loop, in the emitter and in the reference code. */
  lemma HostArgsUnfold(b: Buffer, e: Expr, id: Identifier, i: nat, res: Resolver, ops: FloatOps)
    requires Valid(b) && e.Call? && i < |e.args|
    ensures var pushed := EmitPush(b, e, id, i, res, ops);
      var rc := EmitCallTail(pushed.buf, id);
      EmitHostArgs(b, e, id, i, res, ops)
        == if Aborts(pushed) then pushed
           else if rc.Failed? then rc else EmitHostArgs(rc.buf, e, id, i + 1, res, ops)
    ensures HostArgsCode(e, id, i, b.pos == 0, res, ops)
      == AndThen(PushCode(e, id, i, b.pos == 0, res, ops), b.pos == 0,
           AndThen(CallTailCode(id), false, HostArgsCode(e, id, i + 1, false, res, ops)))
  {
  }
}

=== FILE: driver.dfy ===
/**
  The library's exported entry points: `ParseExpression`, `PrintExpression` and
  `CompileExpression`. A null pointer argument is `None` (or `false` for the
  parse result's destination); every entry point first rejects null pointers and
  non-positive lengths with `ERR_INVALID_INPUT`.
*/
module Driver {
  import opened Base
  import opened Fpu
  import opened Api
  import opened Lexer
  import opened Ast
  import opened ByteBuffer
  import opened Emitter
  import opened CodeGen
  import opened Render
  import opened Builtins
  import Parser
  import Grammar
  import LexerSpec

  /** What `ParseExpression` returns, and the tree it stores through `exprPtr` on success. */
  datatype Parsing = Parsing(code: ErrorCode, tree: Option<Expr>)

  /**
    `ParseExpression(expr, expr_len, exprPtr)`: parse the first `exprLen` bytes
    of `expr` into a tree. The caller's text must hold that many bytes.
  */
  function ParseExpression(expr: Option<seq<Byte>>, exprLen: int, hasOut: bool, ops: FloatOps): (r: Parsing)
    requires expr.Some? && exprLen > 0 ==> exprLen <= |expr.value|
    ensures r.code == InvalidInput <==> expr.None? || exprLen <= 0 || !hasOut
    ensures r.code in {Success, InvalidInput, ParsingFailed}
    ensures r.tree.Some? <==> r.code == Success
    ensures r.tree.Some? ==> WellFormed(r.tree.value)
  {
    if expr.None? || exprLen <= 0 || !hasOut then Parsing(InvalidInput, None)
    else
      match Parser.Parse(expr.value[..exprLen], ops)
      case None => Parsing(ParsingFailed, None)
      case Some(e) => Parsing(Success, Some(e))
  }

  /**
    A successful parse is exactly a derivation by the reference grammar over
    the reference lexer's tokens of the text: the two references and the
    entry point agree on which texts parse and on the tree.
  */
  lemma ParseFollowsGrammar(text: seq<Byte>, ops: FloatOps)
    requires |text| > 0
    ensures Parser.ValidTokens(LexerSpec.SpecTokens(LexerSpec.Rest(text, 0), "", Zero, ops))
    ensures var r := ParseExpression(Some(text), |text|, true, ops);
      var g := Grammar.Expression(LexerSpec.SpecTokens(LexerSpec.Rest(text, 0), "", Zero, ops), 0);
      && (r.code == Success <==> g.Some?)
      && (g.Some? ==> r.tree == Some(g.value.e))
  {
    var toks := Tokens(text, ops);
    assert text[..|text|] == text;
    LexerSpec.TokensMatchSpec(text, ops);
    assert Parser.ValidTokens(toks);
    Grammar.ParseExpressionIsReference(toks, 0);
  }

  /** What `PrintExpression` returns with the characters it wrote, or the run-time abort of `sprintf_s`. */
  datatype Printing = Printing(code: int, text: string) | PrintAborted

  /** `PrintExpression(exprPtr, store, store_len)`. */
  function PrintExpression(expr: Option<Expr>, hasStore: bool, storeLen: int, ops: FloatOps): (r: Printing)
    ensures (expr.None? || !hasStore || storeLen <= 0) ==> r == Printing(Code(InvalidInput), "")
    ensures r.Printing? && r.code >= 0 ==> r.code == |r.text| && r.code <= storeLen
  {
    if !hasStore || storeLen <= 0 || expr.None? then Printing(Code(InvalidInput), "")
    else
      var out := ToString(expr.value, storeLen, ops);
      if out.Aborted? then PrintAborted
      else if out.text == "" then Printing(0, "")
      else
        Printing(|out.text|, out.text)
  }

  /** A store with room for the canonical text and its terminator gets exactly that text. */
  lemma PrintGivesText(e: Expr, storeLen: int, ops: FloatOps)
    requires WellFormed(e) && FormatsNonEmpty(ops) && |Text(e, ops)| < storeLen
    ensures PrintExpression(Some(e), true, storeLen, ops) == Printing(|Text(e, ops)|, Text(e, ops))
  {
    RoomyBufferGetsText(e, storeLen, ops);
  }

  /** What `CompileExpression` returns, and the contents of the output buffer afterwards. */
  datatype Compiling = Compiling(code: int, out: seq<Byte>)

  /**
    `CompileExpression(exprPtr, output, output_len, callback)`: emit the tree
    from position 0 and append `ret`. The caller's output buffer must hold
    `outputLen` bytes; only those are written.
  */
  function CompileExpression(expr: Option<Expr>, output: Option<seq<Byte>>, outputLen: int,
                             resolver: Option<Resolver>, ops: FloatOps): (r: Compiling)
    requires output.Some? && outputLen > 0 ==> outputLen <= |output.value|
    ensures (output.None? || outputLen <= 0 || expr.None? || resolver.None?) ==> r.code == Code(InvalidInput)
    ensures r.code > 0 ==> r.code <= outputLen == |r.out| && r.out[r.code - 1] == 0xC3
    ensures r.code != 0
  {
    if output.None? || outputLen <= 0 || expr.None? || resolver.None? then Compiling(Code(InvalidInput), [])
    else
      var out := output.value[..outputLen];
      assert |out| == outputLen;
      Compile(expr.value, out, resolver.value, ops)
  }

  /** Compiling into the caller's `output_len` bytes once every argument has been checked. */
  function Compile(e: Expr, output: seq<Byte>, res: Resolver, ops: FloatOps): (r: Compiling)
    ensures r.code > 0 ==> r.code <= |output| == |r.out| && r.out[r.code - 1] == 0xC3
    ensures r.code != 0
  {
    var em := Emit(Buffer(output, 0), e, res, ops);
    assert |em.buf.data| == |output|;
    Finish(em)
  }

  /**
    What `CompileExpression` does once the tree is emitted: `EXIT_ON_ERR`
    (an empty result is a compilation failure), then the final `ret`.
  */
  function Finish(r: Emission): (c: Compiling)
    requires ByteBuffer.Valid(r.buf)
    ensures |c.out| == |r.buf.data|
    ensures c.code > 0 ==> c.code <= |c.out| && c.out[c.code - 1] == 0xC3
    ensures Ret(r) < 0 ==> c.code == Ret(r)
    ensures c.code != 0
  {
    var n := Ret(r);
    if n == 0 then Compiling(Code(CompilationFailed), r.buf.data)
    else if n < 0 then Compiling(n, r.buf.data)
    else
      RetBytes();
      var a := Append(r.buf, [W8(0xC3)]);
      if a.Failed? then Compiling(Code(OutputBufferTooSmall), a.buf.data)
      else Compiling(a.buf.pos, a.buf.data)
  }

  /** `ret` is the single byte C3. */
  lemma RetBytes()
    ensures ChainBytes([W8(0xC3)]) == [0xC3]
  {
    assert ChainBytes([W8(0xC3)][1..]) == [];
  }

  /**
    The result of compiling is decided by the reference code of the tree: it
    succeeds exactly when that code has no error, is not empty, and fits with
    the final `ret`; then the buffer starts with the code and `ret` and the
    count covers both. Otherwise the code's own error, the empty-code failure
    or the too-small-buffer error is returned.
  */
  lemma CompileFollowsCode(e: Expr, output: seq<Byte>, res: Resolver, ops: FloatOps)
    requires |output| > 0
    ensures var r := CompileExpression(Some(e), Some(output), |output|, Some(res), ops);
      var g := CodeOf(e, true, res, ops);
      && (r.code > 0 <==> g.err.None? && 0 < |g.bytes| < |output|)
      && (r.code > 0 ==> r.code == |g.bytes| + 1 && r.out[..r.code] == g.bytes + [0xC3])
      && (g.err.None? && g.bytes == [] ==> r.code == Code(CompilationFailed))
      && (g.err.Some? && |g.bytes| <= |output| ==> r.code == Code(g.err.value))
      && (|g.bytes| >= |output| && (g.err.None? || |g.bytes| > |output|) ==> r.code == Code(OutputBufferTooSmall))
  {
    var b := Buffer(output, 0);
    EmitMatchesCode(b, e, res, ops);
    CompileIsFinish(e, output, res, ops);
    FinishMatches(b, Emit(b, e, res, ops), CodeOf(e, true, res, ops));
  }

  /** With every argument present, the entry point is `Finish` of the emission into the whole buffer. */
  lemma CompileIsFinish(e: Expr, output: seq<Byte>, res: Resolver, ops: FloatOps)
    requires |output| > 0
    ensures CompileExpression(Some(e), Some(output), |output|, Some(res), ops)
      == Finish(Emit(Buffer(output, 0), e, res, ops))
  {
    assert output[..|output|] == output;
  }

  /** `Finish` of any emission that matches a code, from position 0: the cases of `CompileFollowsCode`. */
  lemma FinishMatches(b: Buffer, em: Emission, g: Gen)
    requires ByteBuffer.Valid(b) && ByteBuffer.Valid(em.buf) && b.pos == 0 < |b.data|
    requires Proper(g) && Matches(b, em, g)
    ensures var r := Finish(em);
      && (r.code > 0 <==> g.err.None? && 0 < |g.bytes| < |b.data|)
      && (r.code > 0 ==> r.code == |g.bytes| + 1 && r.out[..r.code] == g.bytes + [0xC3])
      && (g.err.None? && g.bytes == [] ==> r.code == Code(CompilationFailed))
      && (g.err.Some? && |g.bytes| <= |b.data| ==> r.code == Code(g.err.value))
      && (|g.bytes| >= |b.data| && (g.err.None? || |g.bytes| > |b.data|) ==> r.code == Code(OutputBufferTooSmall))
  {
    if |g.bytes| <= |b.data| {
      assert em == Outcome(Put(b, g.bytes), g.err);
      FinishCode(b, g);
    } else {
      FinishTooSmall(em);
    }
  }

  /** A tree whose code does not fit fails the whole compilation with the too-small-buffer error. */
  lemma FinishTooSmall(em: Emission)
    requires ByteBuffer.Valid(em.buf) && em.Failed? && em.err == OutputBufferTooSmall
    ensures Finish(em).code == Code(OutputBufferTooSmall)
  {
    assert Ret(em) == -4;
  }

  /** `Finish` applied to the emission of a code that fits: the cases of `CompileFollowsCode`. */
  lemma FinishCode(b: Buffer, g: Gen)
    requires ByteBuffer.Valid(b) && b.pos == 0 && Proper(g) && |g.bytes| <= |b.data|
    ensures var r := Finish(Outcome(Put(b, g.bytes), g.err));
      && (r.code > 0 <==> g.err.None? && 0 < |g.bytes| < |b.data|)
      && (r.code > 0 ==> r.code == |g.bytes| + 1 && r.out[..r.code] == g.bytes + [0xC3])
      && (g.err.None? && g.bytes == [] ==> r.code == Code(CompilationFailed))
      && (g.err.Some? ==> r.code == Code(g.err.value))
      && (g.err.None? && |g.bytes| == |b.data| > 0 ==> r.code == Code(OutputBufferTooSmall))
  {
    match g.err
    case Some(_) => FinishCodeError(b, g);
    case None => FinishCodeDone(b, g);
  }

  /** Code that ends in an error: the error passes through `Finish`. */
  lemma FinishCodeError(b: Buffer, g: Gen)
    requires ByteBuffer.Valid(b) && b.pos == 0 && Proper(g) && |g.bytes| <= |b.data| && g.err.Some?
    ensures Finish(Outcome(Put(b, g.bytes), g.err)).code == Code(g.err.value) < 0
  {
    var c := Put(b, g.bytes);
    assert Outcome(c, g.err) == Failed(g.err.value, c);
  }

  /** Error-free code: empty code fails, otherwise `ret` is appended when there is room. */
  lemma FinishCodeDone(b: Buffer, g: Gen)
    requires ByteBuffer.Valid(b) && b.pos == 0 && Proper(g) && |g.bytes| <= |b.data| && g.err.None?
    ensures var r := Finish(Outcome(Put(b, g.bytes), g.err));
      && (r.code > 0 <==> 0 < |g.bytes| < |b.data|)
      && (r.code > 0 ==> r.code == |g.bytes| + 1 && r.out[..r.code] == g.bytes + [0xC3])
      && (g.bytes == [] ==> r.code == Code(CompilationFailed))
      && (|g.bytes| == |b.data| > 0 ==> r.code == Code(OutputBufferTooSmall))
  {
    var c := Put(b, g.bytes);
    assert c.data[..c.pos] == g.bytes;
    assert Outcome(c, g.err) == Emitted(c);
    if |g.bytes| == 0 {
    } else if |g.bytes| < |b.data| {
      RetAppended(c, g.bytes);
    } else {
      RetBytes();
      assert Room(c) < |ChainBytes([W8(0xC3)])|;
    }
  }

  /** The final `ret` after code that starts the buffer: the count and the bytes. */
  lemma RetAppended(c: Buffer, code: seq<Byte>)
    requires ByteBuffer.Valid(c) && c.pos == |code| < |c.data| && c.data[..c.pos] == code
    ensures var a := Append(c, [W8(0xC3)]);
      a.Emitted? && a.buf.pos == |code| + 1 && a.buf.data[..a.buf.pos] == code + [0xC3]
  {
    RetBytes();
    var a := Append(c, [W8(0xC3)]);
    assert a.buf.data[..c.pos] == c.data[..c.pos];
  }

  /**
    A call to a host function with no arguments produces no code at all (the
    call instruction is emitted inside the argument loop), so compiling it
    alone fails.
  */
  lemma NoArgumentHostCallFails(name: string, output: seq<Byte>, res: Resolver, ops: FloatOps)
    requires |output| > 0
    requires Find(name, 0).found.None?
    requires res(name).Some? && res(name).value.kind == IdFunc && res(name).value.argTypes(1) == IdNone
    ensures CodeOf(Call(name, []), true, res, ops) == Gen([], None)
    ensures CompileExpression(Some(Call(name, [])), Some(output), |output|, Some(res), ops).code == Code(CompilationFailed)
  {
    var e := Call(name, []);
    var id := res(name).value;
    assert CheckArgs(id.argTypes, 0) == None;
    assert HostArgsCode(e, id, 0, true, res, ops) == Gen([], None);
    assert CallCode(e, true, res, ops) == Gen([], None);
    CompileFollowsCode(e, output, res, ops);
  }
}

=== FILE: emitter.dfy ===
/**
  Code generation (`Emit` of each node kind) into a bounded buffer. Each emitter
  returns the buffer position on success and an error code otherwise; a parent
  stops as soon as a child returns a value `<= 0` and returns that same value
  (`EXIT_ON_ERR`). Bytes written before a failure stay in the buffer.
*/
module Emitter {
  import opened Base
  import opened Fpu
  import opened Api
  import opened Ast
  import opened ByteBuffer
  import opened Marshalling
  import opened Builtins
  import opened X87

  /** An emitter's outcome, with the buffer as it is left. */
  datatype Emission = Emitted(buf: Buffer) | Failed(err: ErrorCode, buf: Buffer)

  /** The integer an emitter returns: the position on success. */
  function Ret(r: Emission): (n: int)
    ensures r.Emitted? && Valid(r.buf) ==> n >= 0
    ensures r.Failed? ==> FromCode(n) == Some(r.err) && (n > 0 <==> r.err == Success)
  {
    match r
    case Emitted(b) => b.pos
    case Failed(e, _) =>
      CodeRoundTrip(e);
      OnlySuccessIsPositive(e);
      Code(e)
  }

  /** `EXIT_ON_ERR` fires: an error, or a success that left the position at 0. */
  predicate Aborts(r: Emission)
    ensures Aborts(r) <==> (r.Emitted? && r.buf.pos <= 0) || (r.Failed? && r.err != Success)
  {
    Ret(r) <= 0
  }

  /** The shape every emitter keeps: same array, position moved forward, bytes before it untouched. */
  predicate Extends(b: Buffer, r: Emission)
  {
    Grows(b, r.buf)
  }

  predicate Grows(b: Buffer, c: Buffer)
  {
    Valid(c) && |c.data| == |b.data| && 0 <= b.pos <= c.pos && c.data[..b.pos] == b.data[..b.pos]
  }

  lemma GrowsTrans(a: Buffer, b: Buffer, c: Buffer)
    requires Grows(a, b) && Grows(b, c)
    ensures Grows(a, c)
  {
    assert c.data[..a.pos] == c.data[..b.pos][..a.pos];
  }

  /** A chain `!append(..) || ...` returning `ERR_OUTPUT_BUFFER_TOO_SMALL` when an append does not fit. */
  function Append(b: Buffer, ws: seq<Write>): (r: Emission)
    requires Valid(b)
    ensures Extends(b, r)
    ensures r.Emitted? <==> Room(b) >= |ChainBytes(ws)|
    ensures r.Emitted? ==> r.buf == Put(b, ChainBytes(ws))
    ensures r.Failed? ==> r.err == OutputBufferTooSmall
  {
    var a := AppendAll(b, ws);
    if a.ok then Emitted(a.buf) else Failed(OutputBufferTooSmall, a.buf)
  }

  /** `NumberExpression::Emit`. */
  function EmitNumber(b: Buffer, v: Double, ops: FloatOps): (r: Emission)
    requires Valid(b)
    ensures Extends(b, r)
  {
    Append(b, LoadNumber(v, ops))
  }

  /** `VariableExpression::Emit`: the host must know the name as a variable of a numeric kind. */
  function EmitVariable(b: Buffer, name: string, res: Resolver): (r: Emission)
    requires Valid(b)
    ensures Extends(b, r)
  {
    match res(name)
    case None => Failed(UnknownIdentifier, b)
    case Some(id) =>
      match LoadOpcode(id.kind)
      case None => Failed(IdentifierMisuse, b)
      case Some(opcode) => Append(b, LoadVariable(opcode, id.address))
  }

  /** `Emit` of any node. */
  function Emit(b: Buffer, e: Expr, res: Resolver, ops: FloatOps): (r: Emission)
    requires Valid(b)
    ensures Extends(b, r)
    decreases e, 2
  {
    match e
    case Number(v) => EmitNumber(b, v, ops)
    case Variable(n) => EmitVariable(b, n, res)
    case Call(_, _) => EmitCall(b, e, res, ops)
    case Binary(_, _, _) => EmitBinary(b, e, res, ops)
  }

  /**
    `BinaryExpression::Emit`: two immediates are folded and the result loaded as
    a number; otherwise both operands are emitted, then the operator.
  */
  function EmitBinary(b: Buffer, e: Expr, res: Resolver, ops: FloatOps): (r: Emission)
    requires Valid(b) && e.Binary?
    ensures Extends(b, r)
    decreases e, 1
  {
    var li := Info(e.lhs, ops);
    var ri := Info(e.rhs, ops);
    if li.kind == Imm && ri.kind == Imm then
      match Compute(e.op, li.imm, ri.imm, ops)
      case Some(v) => EmitNumber(b, v, ops)
      case None => Failed(ImmBinaryComputeErr, b)
    else
      var rl := Emit(b, e.lhs, res, ops);
      if Aborts(rl) then rl
      else
        var rr := Emit(rl.buf, e.rhs, res, ops);
        GrowsTrans(b, rl.buf, rr.buf);
        if Aborts(rr) then rr
        else
          var rz := EmitOperator(rr.buf, e.op);
          GrowsTrans(b, rr.buf, rz.buf);
          rz
  }

  /** The `switch` on the operator: its instruction, or an unknown-operand error. */
  function EmitOperator(b: Buffer, op: char): (r: Emission)
    requires Valid(b)
    ensures Extends(b, r)
  {
    match OperatorOpcode(op)
    case Some(c) => Append(b, [W16(c)])
    case None => Failed(UnknownOperand, b)
  }

  /**
    `CallExpression::Emit`: a built-in with the right argument count is inlined;
    otherwise the host must know the name as a function whose argument types
    pass `CheckArgs`. A built-in name with the wrong count that the host does
    not know is an argument-count error rather than an unknown identifier.
  */
  function EmitCall(b: Buffer, e: Expr, res: Resolver, ops: FloatOps): (r: Emission)
    requires Valid(b) && e.Call?
    ensures Extends(b, r)
    decreases e, 1
  {
    var lk := Find(e.name, |e.args|);
    match lk.found
    case Some(f) => EmitBuiltin(b, e, f, res, ops)
    case None =>
      match res(e.name)
      case None => Failed(if lk.overloaded then ArgcDoesntMatch else UnknownIdentifier, b)
      case Some(id) =>
        if id.kind != IdFunc then Failed(IdentifierMisuse, b)
        else
          match CheckArgs(id.argTypes, |e.args|)
          case Some(err) => Failed(err, b)
          case None => EmitHostArgs(b, e, id, 0, res, ops)
  }

  /** The handlers of the built-ins: the argument, then the instruction(s); `log2` loads 1 first, `pi` has no argument. */
  function EmitBuiltin(b: Buffer, e: Expr, f: Builtin, res: Resolver, ops: FloatOps): (r: Emission)
    requires Valid(b) && e.Call? && |e.args| == Arity(f)
    ensures Extends(b, r)
    decreases e, 0, 0
  {
    if f == Pi then Append(b, BuiltinSuffix(f))
    else if f == Log2 then
      var r0 := Append(b, Log2Prefix);
      if r0.Failed? then r0
      else
        var ra := Emit(r0.buf, e.args[0], res, ops);
        GrowsTrans(b, r0.buf, ra.buf);
        if Aborts(ra) then ra
        else
          var rz := Append(ra.buf, BuiltinSuffix(f));
          GrowsTrans(b, ra.buf, rz.buf);
          rz
    else
      var ra := Emit(b, e.args[0], res, ops);
      if Aborts(ra) then ra
      else
        var rz := Append(ra.buf, BuiltinSuffix(f));
        GrowsTrans(b, ra.buf, rz.buf);
        rz
  }

  /** After an argument is pushed: call the function and bring its result onto the x87 stack. */
  function EmitCallTail(b: Buffer, id: Identifier): (r: Emission)
    requires Valid(b)
    ensures Extends(b, r)
  {
    var rc := Append(b, CallAddress(id.address));
    if rc.Failed? then rc
    else
      var rz := EmitFixup(rc.buf, id.returnType);
      GrowsTrans(b, rc.buf, rz.buf);
      rz
  }

  /** The `switch` on the return type: the fix-up, or a return-type error. */
  function EmitFixup(b: Buffer, t: Byte): (r: Emission)
    requires Valid(b)
    ensures Extends(b, r)
  {
    match ReturnFixup(t)
    case None => Failed(RetTypeErr, b)
    case Some(ws) => Append(b, ws)
  }

  /**
    Pushing argument `i` as the type at index `i` of the host's array: an
    immediate directly, anything else by emitting it and storing st0.
  */
  function EmitPush(b: Buffer, e: Expr, id: Identifier, i: nat, res: Resolver, ops: FloatOps): (r: Emission)
    requires Valid(b) && e.Call? && i < |e.args|
    ensures Extends(b, r)
    decreases e, 0, |e.args| - i, 0
  {
    var a := e.args[i];
    var t := id.argTypes(i);
    var info := Info(a, ops);
    if info.kind == Imm then
      match PushImmediate(t, info.imm, ops)
      case None => Failed(ArgTypeErr, b)
      case Some(ws) => Append(b, ws)
    else
      var ra := Emit(b, a, res, ops);
      if Aborts(ra) then ra
      else
        var rs := EmitStore(ra.buf, t);
        GrowsTrans(b, ra.buf, rs.buf);
        rs
  }

  /** Storing st0 into a new stack slot as type `t`, or an argument-type error. */
  function EmitStore(b: Buffer, t: Byte): (r: Emission)
    requires Valid(b)
    ensures Extends(b, r)
  {
    match PushStackTop(t)
    case None => Failed(ArgTypeErr, b)
    case Some(ws) => Append(b, ws)
  }

  /**
    The argument loop of a host call, from argument `i`: each argument is
    pushed, and then, still inside the loop, the function is called and its
    result fixed up.
  */
  function EmitHostArgs(b: Buffer, e: Expr, id: Identifier, i: nat, res: Resolver, ops: FloatOps): (r: Emission)
    requires Valid(b) && e.Call? && i <= |e.args|
    ensures Extends(b, r)
    decreases e, 0, |e.args| - i, 1
  {
    if i == |e.args| then Emitted(b)
    else
      var pushed := EmitPush(b, e, id, i, res, ops);
      if Aborts(pushed) then pushed
      else
        var rc := EmitCallTail(pushed.buf, id);
        GrowsTrans(b, pushed.buf, rc.buf);
        if rc.Failed? then rc
        else
          var rn := EmitHostArgs(rc.buf, e, id, i + 1, res, ops);
          GrowsTrans(b, rc.buf, rn.buf);
          rn
  }
}

=== FILE: emitter_facts.dfy ===
/**
  What the generated code looks like: numbers are loaded with the constant
  instruction or through two pushed words that encode them exactly; constant
  subtrees become a single load regardless of the host; variables are one load
  from their address.
*/
module EmitterFacts {
  import opened Base
  import opened Fpu
  import opened Api
  import opened Ast
  import opened ByteBuffer
  import opened Marshalling
  import opened Builtins
  import opened X87
  import opened Emitter
  import opened CodeGen

  /** A number close to a special constant is loaded by that constant's 2-byte instruction, D9 E8+i. */
  lemma SpecialNumberBytes(v: Double, ops: FloatOps)
    requires FirstSpecial(v, ops).Some?
    ensures var i := FirstSpecial(v, ops).value;
      ChainBytes(LoadNumber(v, ops)) == [0xD9, 0xE8 + i]
  {
    var i := FirstSpecial(v, ops).value;
    assert ChainBytes([W16(SpecialOpcodes[i])]) == Bytes16(SpecialOpcodes[i]);
  }

  /**
    Any other number is pushed as two words, high word first, and loaded from
    the stack: the two words read back from the code are the double's bits.
  */
  lemma GenericNumberBytes(v: Double, ops: FloatOps)
    requires FirstSpecial(v, ops).None?
    ensures var c := ChainBytes(LoadNumber(v, ops));
      && |c| == 16
      && c[0] == 0x68 && c[5] == 0x68
      && c[10..] == [0xDD, 0x04, 0x24, 0x83, 0xC4, 0x08]
      && Double(Word32Of(c[1..5]) * 0x1_0000_0000 + Word32Of(c[6..10])) == v
  {
    var c := ChainBytes(LoadNumber(v, ops));
    var hi := Bytes32(HighWord(v));
    var lo := Bytes32(LowWord(v));
    GenericNumberLayout(v, ops);
    assert c[1..5] == hi && c[6..10] == lo;
    Bytes32RoundTrip(HighWord(v));
    Bytes32RoundTrip(LowWord(v));
    WordsRoundTrip(v);
  }

  lemma GenericNumberLayout(v: Double, ops: FloatOps)
    requires FirstSpecial(v, ops).None?
    ensures ChainBytes(LoadNumber(v, ops))
      == [0x68] + Bytes32(HighWord(v)) + [0x68] + Bytes32(LowWord(v)) + [0xDD, 0x04, 0x24, 0x83, 0xC4, 0x08]
  {
    var pushes := [W8(0x68), W32(HighWord(v)), W8(0x68), W32(LowWord(v))];
    var tail := [W8(0xDD), W8(0x04), W8(0x24), W8(0x83), W8(0xC4), W8(0x08)];
    assert LoadNumber(v, ops) == pushes + tail;
    ChainBytesAppend(pushes, tail);
    PushPairBytes(HighWord(v), LowWord(v));
    StackLoadBytes();
  }

  lemma PushPairBytes(h: Word32, l: Word32)
    ensures ChainBytes([W8(0x68), W32(h), W8(0x68), W32(l)]) == [0x68] + Bytes32(h) + [0x68] + Bytes32(l)
  {
    var ws := [W8(0x68), W32(h), W8(0x68), W32(l)];
    assert ChainBytes(ws[3..]) == Bytes32(l);
    assert ChainBytes(ws[2..]) == [0x68] + Bytes32(l);
    assert ChainBytes(ws[1..]) == Bytes32(h) + [0x68] + Bytes32(l);
  }

  lemma StackLoadBytes()
    ensures ChainBytes([W8(0xDD), W8(0x04), W8(0x24), W8(0x83), W8(0xC4), W8(0x08)])
      == [0xDD, 0x04, 0x24, 0x83, 0xC4, 0x08]
  {
    var tail := [W8(0xDD), W8(0x04), W8(0x24), W8(0x83), W8(0xC4), W8(0x08)];
    assert ChainBytes(tail[5..]) == [0x08];
    assert ChainBytes(tail[4..]) == [0xC4, 0x08];
    assert ChainBytes(tail[3..]) == [0x83, 0xC4, 0x08];
    assert ChainBytes(tail[2..]) == [0x24, 0x83, 0xC4, 0x08];
    assert ChainBytes(tail[1..]) == [0x04, 0x24, 0x83, 0xC4, 0x08];
  }

  /** A variable is one load from its 32-bit address: the opcode for its kind, ModRM 05, the address. */
  lemma VariableBytes(opcode: Byte, address: Word32)
    ensures var c := ChainBytes(LoadVariable(opcode, address));
      |c| == 6 && c[..2] == [opcode, 0x05] && Word32Of(c[2..]) == address
  {
    var c := ChainBytes(LoadVariable(opcode, address));
    var ws := LoadVariable(opcode, address);
    assert ChainBytes(ws[2..]) == Bytes32(address);
    assert ChainBytes(ws[1..]) == [0x05] + Bytes32(address);
    assert c == [opcode, 0x05] + Bytes32(address);
    assert c[2..] == Bytes32(address);
    Bytes32RoundTrip(address);
  }

  /**
    A tree of numbers and operators compiles to one load of its value, whatever
    the host knows: folding happens entirely at compile time.
  */
  lemma ConstantTreeIsOneLoad(e: Expr, start: bool, res: Resolver, ops: FloatOps)
    requires WellFormed(e) && IsConstant(e)
    ensures Eval(e, ops).Some?
    ensures CodeOf(e, start, res, ops) == Writes(LoadNumber(Eval(e, ops).value, ops))
  {
    ConstantHasValue(e, ops);
    match e
    case Number(_) =>
    case Binary(op, l, r) =>
      ConstantHasValue(l, ops);
      ConstantHasValue(r, ops);
      FoldedIsValue(l, ops);
      FoldedIsValue(r, ops);
  }

  /** The emitted bytes of a constant tree do not depend on the resolver: both runs are the load of its value. */
  lemma ConstantTreeIgnoresHost(b: Buffer, e: Expr, res1: Resolver, res2: Resolver, ops: FloatOps)
    requires Valid(b) && WellFormed(e) && IsConstant(e)
    ensures Emit(b, e, res1, ops) == Emit(b, e, res2, ops)
  {
    ConstantEmitIsLoad(b, e, res1, ops);
    ConstantEmitIsLoad(b, e, res2, ops);
  }

  /** The emitter itself, on a constant tree, is the number load of its value. */
  lemma ConstantEmitIsLoad(b: Buffer, e: Expr, res: Resolver, ops: FloatOps)
    requires Valid(b) && WellFormed(e) && IsConstant(e)
    ensures Eval(e, ops).Some?
    ensures Emit(b, e, res, ops) == EmitNumber(b, Eval(e, ops).value, ops)
  {
    ConstantHasValue(e, ops);
    match e
    case Number(_) =>
    case Binary(op, l, r) =>
      ConstantHasValue(l, ops);
      ConstantHasValue(r, ops);
      FoldedIsValue(l, ops);
      FoldedIsValue(r, ops);
  }

  /** The first leaf emitted: binary nodes emit their left operand first. */
  function Leftmost(e: Expr): Expr
  {
    match e
    case Binary(_, l, _) => Leftmost(l)
    case _ => e
  }

  /**
    A variable the host does not know, in first position, fails the whole tree
    with the unknown-identifier error before anything is written: the error of
    a child is returned unchanged by every enclosing binary node.
  */
  lemma {:induction false} UnknownLeftmostFails(b: Buffer, e: Expr, res: Resolver, ops: FloatOps)
    requires Valid(b) && Leftmost(e).Variable? && res(Leftmost(e).name).None?
    ensures Emit(b, e, res, ops) == Failed(UnknownIdentifier, b)
  {
    match e
    case Variable(_) =>
    case Binary(op, l, r) =>
      UnknownLeftmostFails(b, l, res, ops);
      ImmIffConstant(l, ops);
      LeftmostNotConstant(l);
  }

  lemma {:induction false} LeftmostNotConstant(e: Expr)
    requires Leftmost(e).Variable?
    ensures !IsConstant(e)
  {
    match e
    case Variable(_) =>
    case Binary(_, l, _) => LeftmostNotConstant(l);
  }

  /** A host function of two doubles returning a double, at `address`. */
  function TwoDoubles(address: Word32): Identifier
  {
    Identifier(IdFunc, IdFloat64, address, (k: nat) => if k <= 2 then IdFloat64 else IdNone)
  }

  /**
    The call instruction sits inside the argument loop: a host call with two
    immediate arguments pushes the first, calls, pushes the second and calls
    again.
  */
  lemma HostCallPerArgument(x: Double, y: Double, address: Word32, res: Resolver, ops: FloatOps)
    requires res("f") == Some(TwoDoubles(address))
    ensures var push := (v: Double) => ChainBytes(PushImmediate(IdFloat64, v, ops).value);
      var call := ChainBytes(CallAddress(address));
      CodeOf(Call("f", [Number(x), Number(y)]), true, res, ops)
        == Gen(push(x) + call + push(y) + call, None)
  {
    var e := Call("f", [Number(x), Number(y)]);
    var id := TwoDoubles(address);
    assert Find("f", 2).found.None? by {
      FindIsTable("f", 2);
      forall k | 0 <= k < |Table| ensures Name(Table[k]) != "f" {
      }
    }
    CheckArgsPasses(id.argTypes, 2);
    var call := Writes(CallAddress(address));
    assert CallTailCode(id) == call by {
      assert ChainBytes([]) == [];
    }
    var p0 := Writes(PushImmediate(IdFloat64, x, ops).value);
    var p1 := Writes(PushImmediate(IdFloat64, y, ops).value);
    assert HostArgsCode(e, id, 2, false, res, ops) == Gen([], None);
    assert HostArgsCode(e, id, 1, false, res, ops) == Gen(p1.bytes + call.bytes, None);
    assert HostArgsCode(e, id, 0, true, res, ops) == Gen(p0.bytes + (call.bytes + (p1.bytes + call.bytes)), None);
  }
}

=== FILE: fpu.dfy ===
/**
  IEEE-754 doubles as the compiler sees them. A `Double` is its 64-bit pattern, so
  splitting it into the two 32-bit words pushed by the emitter is exact. Everything
  numeric (arithmetic, conversions, the tolerance comparison, `%.3f` formatting) is
  an uninterpreted operation supplied in a `FloatOps` record.
*/
module Fpu {
  import opened Base

  datatype Double = Double(bits: Bits64)

  /** The upper 32 bits of the pattern (`((uint32*)&d)[1]` on little-endian x86). */
  function HighWord(d: Double): (w: Word32)
    ensures w * 0x1_0000_0000 <= d.bits < (w + 1) * 0x1_0000_0000
  {
    d.bits / 0x1_0000_0000
  }

  /** The lower 32 bits of the pattern (`((uint32*)&d)[0]`). */
  function LowWord(d: Double): (w: Word32)
    ensures w <= d.bits && (d.bits - w) % 0x1_0000_0000 == 0
  {
    d.bits % 0x1_0000_0000
  }

  /** The two words determine the double: splitting is lossless. */
  lemma WordsRoundTrip(d: Double)
    ensures Double(HighWord(d) * 0x1_0000_0000 + LowWord(d)) == d
  {
  }

  /** Two doubles with the same words are the same double. */
  lemma WordsInjective(a: Double, b: Double)
    requires HighWord(a) == HighWord(b) && LowWord(a) == LowWord(b)
    ensures a == b
  {
    WordsRoundTrip(a);
    WordsRoundTrip(b);
  }

  /**
    The floating-point behaviour the model leaves uninterpreted.
    `nearlyEqual` is `eqdbl` (absolute tolerance 1e-9), `toFloat32Bits` is the
    pattern of `float(d)`, `toInt32Bits` is the pattern of `int32(d)`, `format`
    is `"%.3f"`, and `indeterminate` is whatever an uninitialised double holds.
  */
  datatype FloatOps = FloatOps(
    add: (Double, Double) -> Double,
    sub: (Double, Double) -> Double,
    mul: (Double, Double) -> Double,
    div: (Double, Double) -> Double,
    toFloat32Bits: Double -> Word32,
    toInt32Bits: Double -> Word32,
    nearlyEqual: (Double, Double) -> bool,
    format: Double -> string,
    indeterminate: Double)

  // Exactly representable constants used by the lexer.
  const Zero: Double := Double(0)
  const One: Double := Double(0x3FF0_0000_0000_0000)
  const Ten: Double := Double(0x4024_0000_0000_0000)

  /** `double(d)` for a decimal digit value d: these are exact. */
  function DigitValue(d: int): Double
    requires 0 <= d <= 9
  {
    [Double(0), Double(0x3FF0_0000_0000_0000), Double(0x4000_0000_0000_0000),
     Double(0x4008_0000_0000_0000), Double(0x4010_0000_0000_0000), Double(0x4014_0000_0000_0000),
     Double(0x4018_0000_0000_0000), Double(0x401C_0000_0000_0000), Double(0x4020_0000_0000_0000),
     Double(0x4022_0000_0000_0000)][d]
  }
}

=== FILE: grammar.dfy ===
/**
  The grammar of the parser written the textbook way, as a reference for the
  recursive-descent, precedence-climbing parser:

    expression ::= term (('+' | '-') term)*
    term       ::= primary (('*' | '/') primary)*
    primary    ::= number
                 | identifier
                 | identifier '(' ')'
                 | identifier '(' arguments
                 | '(' expression ')'
    arguments  ::= expression ')'
                 | expression ',' arguments      (fewer than 32 read so far)
                 | expression ',' <any token>    (the 32nd argument)

  with every operator grouping to the left. Nothing here calls the parser: only
  the token vocabulary (`Cur`, `Precedence`, `OpChar`) is shared. The lemmas
  say that `ParseExpression`, `ParsePrimary` and the argument loop build
  exactly the trees and positions this grammar describes, for every token list.
*/
module Grammar {
  import opened Base
  import opened Fpu
  import opened Lexer
  import opened Ast
  import opened Parser

  /** The arguments of a call and the position after the token that ends them. */
  datatype Arguments = Arguments(list: seq<Expr>, next: nat)

  /** A whole expression by the reference grammar. */
  function Expression(toks: seq<Tok>, i: nat): (r: Option<Parsed>)
    requires i <= |toks| && ValidTokens(toks)
    ensures r.Some? ==> i < r.value.next <= |toks| && WellFormed(r.value.e)
    decreases |toks| - i, 3
  {
    match Primary(toks, i)
    case None => None
    case Some(Parsed(lhs, j)) => ExprFrom(toks, lhs, j)
  }

  /**
    A primary: a number; an identifier, which is a call of that name when '('
    follows it; or a parenthesised expression, whose ')' is required.
  */
  function Primary(toks: seq<Tok>, i: nat): (r: Option<Parsed>)
    requires i <= |toks| && ValidTokens(toks)
    ensures r.Some? ==> i < r.value.next <= |toks| && WellFormed(r.value.e)
    decreases |toks| - i, 2
  {
    var t := Cur(toks, i);
    if t.code == TokNumber then Some(Parsed(Number(t.value), i + 1))
    else if t.code == TokIdentifier then
      if Cur(toks, i + 1).code != LParen then Some(Parsed(Variable(t.name), i + 1))
      else if Cur(toks, i + 2).code == RParen then Some(Parsed(Call(t.name, []), i + 3))
      else
        match ArgList(toks, i + 2, 0)
        case None => None
        case Some(Arguments(args, k)) => Some(Parsed(Call(t.name, args), k))
    else if t.code == LParen then
      match Expression(toks, i + 1)
      case None => None
      case Some(Parsed(e, j)) => if Cur(toks, j).code == RParen then Some(Parsed(e, j + 1)) else None
    else None
  }

  /**
    The arguments from `i` when `n` were read before them: each is an
    expression followed by ')' (the end) or ','. The 32nd argument's ',' is
    followed by one more token that ends the list, whatever it is; at the end
    of the input there is no such token and the list ends at the ','.
  */
  function ArgList(toks: seq<Tok>, i: nat, n: nat): (r: Option<Arguments>)
    requires i <= |toks| && ValidTokens(toks) && n < MaxArgs
    ensures r.Some? ==> i < r.value.next <= |toks|
    ensures r.Some? ==> 0 < |r.value.list| <= MaxArgs - n && forall a | a in r.value.list :: WellFormed(a)
    decreases |toks| - i, 4
  {
    match Expression(toks, i)
    case None => None
    case Some(Parsed(a, j)) =>
      if Cur(toks, j).code == RParen then Some(Arguments([a], j + 1))
      else if Cur(toks, j).code != Comma then None
      else if n + 1 < MaxArgs then Prepend(a, ArgList(toks, j + 1, n + 1))
      else Some(Arguments([a], if j + 1 < |toks| then j + 2 else j + 1))
  }

  /** The argument `a` in front of the arguments of `r`; a failure stays a failure. */
  function Prepend(a: Expr, r: Option<Arguments>): (p: Option<Arguments>)
    ensures p.Some? <==> r.Some?
    ensures p.Some? ==> p.value.list == [a] + r.value.list && p.value.next == r.value.next
  {
    match r
    case None => None
    case Some(Arguments(rest, k)) => Some(Arguments([a] + rest, k))
  }

  /** `lhs` followed by ('*' | '/') primary, repeated, grouped to the left. */
  function TermTail(toks: seq<Tok>, lhs: Expr, i: nat): (r: Option<Parsed>)
    requires i <= |toks| && ValidTokens(toks) && WellFormed(lhs)
    ensures r.Some? ==> i <= r.value.next <= |toks| && WellFormed(r.value.e)
    ensures r.Some? ==> Precedence(Cur(toks, r.value.next)) != 40
    decreases |toks| - i, 0
  {
    var t := Cur(toks, i);
    if Precedence(t) != 40 then Some(Parsed(lhs, i))
    else
      match Primary(toks, i + 1)
      case None => None
      case Some(Parsed(rhs, j)) => TermTail(toks, Binary(OpChar(t), lhs, rhs), j)
  }

  /** `lhs` followed by ('+' | '-') term, repeated, grouped to the left. */
  function ExprTail(toks: seq<Tok>, lhs: Expr, i: nat): (r: Option<Parsed>)
    requires i <= |toks| && ValidTokens(toks) && WellFormed(lhs)
    ensures r.Some? ==> i <= r.value.next <= |toks| && WellFormed(r.value.e)
    decreases |toks| - i, 0
  {
    var t := Cur(toks, i);
    if Precedence(t) != 20 then Some(Parsed(lhs, i))
    else
      match Primary(toks, i + 1)
      case None => None
      case Some(Parsed(p, j)) =>
        match TermTail(toks, p, j)
        case None => None
        case Some(Parsed(rhs, k)) => ExprTail(toks, Binary(OpChar(t), lhs, rhs), k)
  }

  /** The rest of an expression whose first primary is `lhs`. */
  function ExprFrom(toks: seq<Tok>, lhs: Expr, i: nat): (r: Option<Parsed>)
    requires i <= |toks| && ValidTokens(toks) && WellFormed(lhs)
    ensures r.Some? ==> i <= r.value.next <= |toks| && WellFormed(r.value.e)
    decreases |toks| - i, 1
  {
    match TermTail(toks, lhs, i)
    case None => None
    case Some(Parsed(t, j)) => ExprTail(toks, t, j)
  }

  /** `ParseExpression` parses by the reference grammar. */
  lemma {:induction false} ParseExpressionIsReference(toks: seq<Tok>, i: nat)
    requires i <= |toks| && ValidTokens(toks)
    ensures ParseExpression(toks, i) == Expression(toks, i)
    decreases |toks| - i, 3
  {
    PrimaryIsReference(toks, i);
    match ParsePrimary(toks, i)
    case None =>
    case Some(Parsed(lhs, j)) => BinOpRHSIsExprFrom(toks, lhs, j);
  }

  /** `ParsePrimary` reads the reference primary: the same tree, ending at the same token, and fails alike. */
  lemma {:induction false} PrimaryIsReference(toks: seq<Tok>, i: nat)
    requires i <= |toks| && ValidTokens(toks)
    ensures ParsePrimary(toks, i) == Primary(toks, i)
    decreases |toks| - i, 2
  {
    var t := Cur(toks, i);
    if t.code == TokIdentifier {
      if Cur(toks, i + 1).code == LParen && Cur(toks, i + 2).code != RParen {
        ArgsIsReference(toks, t.name, i + 2, []);
        assert ParsePrimary(toks, i) == ParseArgs(toks, t.name, i + 2, []);
        match ArgList(toks, i + 2, 0)
        case None =>
        case Some(Arguments(rest, k)) => assert [] + rest == rest;
      }
    } else if t.code == LParen {
      ParseExpressionIsReference(toks, i + 1);
    }
  }

  /**
    The argument loop, entered with `args` already read, makes a call of
    `name` whose arguments are `args` followed by the reference argument list,
    and fails exactly when that list does.
  */
  lemma {:induction false} ArgsIsReference(toks: seq<Tok>, name: string, i: nat, args: seq<Expr>)
    requires i <= |toks| && ValidTokens(toks) && IsIdentifierName(name)
    requires |args| < MaxArgs && forall a | a in args :: WellFormed(a)
    ensures ParseArgs(toks, name, i, args) == CallOf(name, args, ArgList(toks, i, |args|))
    decreases |toks| - i, 4
  {
    ParseExpressionIsReference(toks, i);
    match ParseExpression(toks, i)
    case None =>
      assert ArgList(toks, i, |args|) == None;
    case Some(Parsed(a, j)) =>
      var c := Cur(toks, j).code;
      if c == RParen {
        ArgsClosed(toks, name, i, args, a, j);
      } else if c != Comma {
        ArgsBadSeparator(toks, name, i, args, a, j);
      } else if |args| + 1 == MaxArgs {
        ArgsLast(toks, name, i, args, a, j);
      } else {
        ArgsContinue(toks, name, i, args, a, j);
        ArgsIsReference(toks, name, j + 1, args + [a]);
        CallOfPrepend(name, args, a, ArgList(toks, j + 1, |args| + 1));
      }
  }

  /** The call of `name` with `args` followed by the arguments of `r`, or failure with `r`. */
  function CallOf(name: string, args: seq<Expr>, r: Option<Arguments>): Option<Parsed>
  {
    match r
    case None => None
    case Some(Arguments(rest, k)) => Some(Parsed(Call(name, args + rest), k))
  }

  /** Reading `a` into the arguments so far, or putting it in front of the rest, makes the same call. */
  lemma CallOfPrepend(name: string, args: seq<Expr>, a: Expr, r: Option<Arguments>)
    ensures CallOf(name, args + [a], r) == CallOf(name, args, Prepend(a, r))
  {
    if r.Some? {
      assert args + [a] + r.value.list == args + ([a] + r.value.list);
    }
  }

  /** An argument `a` ending at `j`, read by both the loop and the reference list. */
  predicate ArgumentAt(toks: seq<Tok>, name: string, i: nat, args: seq<Expr>, a: Expr, j: nat)
  {
    && i <= |toks| && ValidTokens(toks) && IsIdentifierName(name)
    && |args| < MaxArgs && (forall a | a in args :: WellFormed(a))
    && ParseExpression(toks, i) == Some(Parsed(a, j)) && Expression(toks, i) == Some(Parsed(a, j))
  }

  /** ')' after the argument ends both with it. */
  lemma ArgsClosed(toks: seq<Tok>, name: string, i: nat, args: seq<Expr>, a: Expr, j: nat)
    requires ArgumentAt(toks, name, i, args, a, j) && Cur(toks, j).code == RParen
    ensures ParseArgs(toks, name, i, args) == Some(Parsed(Call(name, args + [a]), j + 1))
    ensures ArgList(toks, i, |args|) == Some(Arguments([a], j + 1))
  {
  }

  /** Any other token than ')' or ',' after the argument fails both. */
  lemma ArgsBadSeparator(toks: seq<Tok>, name: string, i: nat, args: seq<Expr>, a: Expr, j: nat)
    requires ArgumentAt(toks, name, i, args, a, j) && Cur(toks, j).code != RParen && Cur(toks, j).code != Comma
    ensures ParseArgs(toks, name, i, args) == None
    ensures ArgList(toks, i, |args|) == None
  {
  }

  /** After the 32nd argument and its ',', both eat the next token, if any, and end. */
  lemma ArgsLast(toks: seq<Tok>, name: string, i: nat, args: seq<Expr>, a: Expr, j: nat)
    requires ArgumentAt(toks, name, i, args, a, j) && Cur(toks, j).code == Comma && |args| + 1 == MaxArgs
    ensures var k := if j + 1 < |toks| then j + 2 else j + 1;
      && ParseArgs(toks, name, i, args) == Some(Parsed(Call(name, args + [a]), k))
      && ArgList(toks, i, |args|) == Some(Arguments([a], k))
  {
  }

  /** Before the 32nd argument, a ',' makes both go on from the next token. */
  lemma ArgsContinue(toks: seq<Tok>, name: string, i: nat, args: seq<Expr>, a: Expr, j: nat)
    requires ArgumentAt(toks, name, i, args, a, j) && Cur(toks, j).code == Comma && |args| + 1 < MaxArgs
    ensures j + 1 <= |toks| && forall x | x in args + [a] :: WellFormed(x)
    ensures ParseArgs(toks, name, i, args) == ParseArgs(toks, name, j + 1, args + [a])
    ensures ArgList(toks, i, |args|) == Prepend(a, ArgList(toks, j + 1, |args| + 1))
  {
  }

  /** One pass of the argument loop after the argument `a`, which ends at `j`. */
  lemma ParseArgsStep(toks: seq<Tok>, name: string, i: nat, args: seq<Expr>, a: Expr, j: nat)
    requires i <= |toks| && ValidTokens(toks) && IsIdentifierName(name)
    requires |args| < MaxArgs && forall a | a in args :: WellFormed(a)
    requires ParseExpression(toks, i) == Some(Parsed(a, j))
    ensures ParseArgs(toks, name, i, args) ==
      if Cur(toks, j).code == RParen then Some(Parsed(Call(name, args + [a]), j + 1))
      else if Cur(toks, j).code != Comma then None
      else if |args| + 1 < MaxArgs then ParseArgs(toks, name, j + 1, args + [a])
      else Some(Parsed(Call(name, args + [a]), if j + 1 < |toks| then j + 2 else j + 1))
  {
  }

  /** Above the additive level, the loop only gathers '*' and '/' operators, to the left. */
  lemma {:induction false} BinOpRHSIsTermTail(toks: seq<Tok>, minPrec: int, lhs: Expr, i: nat)
    requires i <= |toks| && ValidTokens(toks) && WellFormed(lhs)
    requires 21 <= minPrec <= 40
    ensures ParseBinOpRHS(toks, minPrec, lhs, i) == TermTail(toks, lhs, i)
    decreases |toks| - i, 0
  {
    var t := Cur(toks, i);
    if Precedence(t) >= minPrec {
      PrimaryIsReference(toks, i + 1);
      match ParsePrimary(toks, i + 1)
      case None =>
      case Some(Parsed(rhs, j)) =>
        BinOpRHSIsTermTail(toks, minPrec, Binary(OpChar(t), lhs, rhs), j);
    }
  }

  /** From the bottom level, the loop builds exactly the reference expression. */
  lemma {:induction false} BinOpRHSIsExprFrom(toks: seq<Tok>, lhs: Expr, i: nat)
    requires i <= |toks| && ValidTokens(toks) && WellFormed(lhs)
    ensures ParseBinOpRHS(toks, 0, lhs, i) == ExprFrom(toks, lhs, i)
    decreases |toks| - i, 1
  {
    var t := Cur(toks, i);
    var prec := Precedence(t);
    if prec == 40 {
      PrimaryIsReference(toks, i + 1);
      match ParsePrimary(toks, i + 1)
      case None =>
      case Some(Parsed(rhs, j)) =>
        BinOpRHSIsExprFrom(toks, Binary(OpChar(t), lhs, rhs), j);
    } else if prec == 20 {
      assert TermTail(toks, lhs, i) == Some(Parsed(lhs, i));
      PrimaryIsReference(toks, i + 1);
      match ParsePrimary(toks, i + 1)
      case None =>
      case Some(Parsed(rhs, j)) =>
        var rhs1 :=
          if prec < Precedence(Cur(toks, j)) then ParseBinOpRHS(toks, prec + 1, rhs, j)
          else Some(Parsed(rhs, j));
        if prec < Precedence(Cur(toks, j)) {
          BinOpRHSIsTermTail(toks, prec + 1, rhs, j);
        }
        assert rhs1 == TermTail(toks, rhs, j);
        match rhs1
        case None =>
        case Some(Parsed(rhs2, k)) =>
          var b := Binary(OpChar(t), lhs, rhs2);
          BinOpRHSIsExprFrom(toks, b, k);
          assert TermTail(toks, b, k) == Some(Parsed(b, k));
    }
  }
}

=== FILE: lexer.dfy ===
/**
  The lexer of `AstParser`: a cursor over the input bytes plus one character of
  lookahead (`lastChar`, with -1 for end of input), producing one token code per
  call. Token codes are those of the source: 0 error, -1 identifier, -2 number,
  -3 end of input, and otherwise the character itself. The identifier text and
  the numeric value of the last identifier/number token live in the state.
*/
module Lexer {
  import opened Base
  import opened Fpu
  import opened Util

  const TokError: int := 0
  const TokIdentifier: int := -1
  const TokNumber: int := -2
  const TokEof: int := -3

  /** The character value standing for end of input. */
  const EOF: int := -1

  /** The size of the identifier buffer. */
  const MaxIdentifier: nat := 128

  datatype LexState = LexState(input: seq<Byte>, pos: nat, lastChar: int, ident: string, num: Double)

  predicate Valid(s: LexState)
  {
    s.pos <= |s.input|
  }

  /** The constructor's state: nothing read, `lastChar` a blank. */
  function Initial(input: seq<Byte>): (s: LexState)
    ensures Valid(s)
  {
    LexState(input, 0, ' ' as int, "", Zero)
  }

  /** A byte read through a signed `char` (MSVC): 0x80..0xFF become -128..-1. */
  function SignedChar(b: Byte): (c: int)
    ensures -128 <= c <= 127
    ensures c == EOF <==> b == 0xFF
  {
    if b < 0x80 then b as int else b as int - 0x100
  }

  /**
    Three bytes read as the codes of other tokens: 0xFE as the number code,
    0xFD as the end-of-input code and 0x00 as the error code. Each becomes a
    raw token carrying that code.
  */
  lemma RawBytesCollide()
    ensures SignedChar(0xFE) == TokNumber && SignedChar(0xFD) == TokEof && SignedChar(0x00) == TokError
    ensures forall b: Byte :: SignedChar(b) == TokIdentifier ==> b == 0xFF
  {
  }

  /** `m_lastChar = GetChar()`: read one character, or -1 without advancing at the end. */
  function Advance(s: LexState): (r: LexState)
    requires Valid(s)
    ensures Valid(r) && r.input == s.input && r.ident == s.ident && r.num == s.num
    ensures s.pos <= r.pos
  {
    if |s.input| <= s.pos then s.(lastChar := EOF)
    else s.(lastChar := SignedChar(s.input[s.pos]), pos := s.pos + 1)
  }

  /** `PeekChar()`: the next character without consuming it. */
  function PeekChar(s: LexState): (c: int)
    requires Valid(s)
    ensures c == Advance(s).lastChar
    ensures c == EOF <==> |s.input| <= s.pos || s.input[s.pos] == 0xFF
  {
    if |s.input| <= s.pos then EOF else SignedChar(s.input[s.pos])
  }

  /** Termination measure: unread bytes, plus one while `lastChar` is not EOF. */
  function Remaining(s: LexState): nat
    requires Valid(s)
  {
    2 * (|s.input| - s.pos) + (if s.lastChar == EOF then 0 else 1)
  }

  lemma AdvanceProgress(s: LexState)
    requires Valid(s)
    ensures Remaining(Advance(s)) <= Remaining(s)
    ensures s.lastChar != EOF ==> Remaining(Advance(s)) < Remaining(s)
  {
  }

  /** The whitespace loop at the head of `GetToken`. */
  function SkipWhitespace(s: LexState): (r: LexState)
    requires Valid(s)
    ensures Valid(r) && r.input == s.input && r.ident == s.ident && r.num == s.num
    ensures Remaining(r) <= Remaining(s) && !IsWhitespaceChar(r.lastChar)
    decreases Remaining(s)
  {
    if IsWhitespaceChar(s.lastChar) then
      AdvanceProgress(s);
      SkipWhitespace(Advance(s))
    else s
  }

  /**
    The identifier loop: `name` holds the characters stored so far, the last of
    which is `s.lastChar`. The next character is always read, even when the
    buffer is full, so a 129th identifier character starts the next token.
  */
  function ScanIdentifier(s: LexState, name: string): (r: LexState)
    requires Valid(s) && s.lastChar != EOF
    ensures Valid(r) && r.input == s.input && r.num == s.num
    ensures Remaining(r) < Remaining(s)
    decreases Remaining(s)
  {
    AdvanceProgress(s);
    var s1 := Advance(s);
    if IsChar(s1.lastChar) && IsIdentifierChar(s1.lastChar) && |name| < MaxIdentifier then
      ScanIdentifier(s1, name + [s1.lastChar as char])
    else s1.(ident := name)
  }

  /** The result of one `GetToken` call: the token code and the state after it. */
  datatype Lexed = Lexed(code: int, next: LexState)

  /**
    The number loop, one iteration per call: `places` is set once a '.' has been
    read, `q` is the weight of the next fractional digit and `s.num` the value
    accumulated so far (kept in the state, as the source keeps it in a member).
    A second '.' returns the error token without consuming it.
  */
  function ScanNumber(s: LexState, places: bool, q: Double, ops: FloatOps): (r: Lexed)
    requires Valid(s)
    ensures Valid(r.next) && r.next.input == s.input && r.next.ident == s.ident
    ensures Remaining(r.next) <= Remaining(s)
    ensures r.code == TokNumber || r.code == TokError
    decreases Remaining(s)
  {
    var c := s.lastChar;
    if c == '.' as int && places then Lexed(TokError, s)
    else if c != '.' as int && !IsDigitChar(c) then Lexed(TokError, s)
    else
      var places1 := places || c == '.' as int;
      var q1 := if c != '.' as int && places then ops.div(q, Ten) else q;
      var v1 :=
        if c == '.' as int then s.num
        else if places then ops.add(s.num, ops.mul(DigitValue(c - '0' as int), q1))
        else ops.add(ops.mul(s.num, Ten), DigitValue(c - '0' as int));
      AdvanceProgress(s);
      var s1 := Advance(s.(num := v1));
      if IsDigitChar(s1.lastChar) || s1.lastChar == '.' as int then ScanNumber(s1, places1, q1, ops)
      else Lexed(TokNumber, s1)
  }

  /** True when only whitespace is left: `GetToken` then reports EOF forever. */
  predicate AtEnd(s: LexState)
    requires Valid(s)
  {
    SkipWhitespace(s).lastChar == EOF
  }

  /** A well-formed identifier: 1 to 128 identifier characters, not starting with a digit. */
  predicate IsIdentifierName(n: string)
  {
    && 1 <= |n| <= MaxIdentifier
    && !IsDigitChar(n[0] as int)
    && forall i :: 0 <= i < |n| ==> IsIdentifierChar(n[i] as int)
  }

  /** `GetToken()`. */
  function GetToken(s: LexState, ops: FloatOps): (r: Lexed)
    requires Valid(s)
    ensures Valid(r.next) && r.next.input == s.input
    ensures Remaining(r.next) <= Remaining(s)
    ensures !AtEnd(s) ==> Remaining(r.next) < Remaining(s)
    ensures AtEnd(s) ==> r == Lexed(TokEof, SkipWhitespace(s))
    ensures r.code == TokIdentifier ==> IsIdentifierName(r.next.ident)
  {
    var s1 := SkipWhitespace(s);
    var c := s1.lastChar;
    if IsIdentifierChar(c) && !IsDigitChar(c) then
      var r := ScanIdentifier(s1, [c as char]);
      ScanIdentifierName(s1, [c as char]);
      Lexed(TokIdentifier, r)
    else if IsDigitChar(c) || (c == '.' as int && IsDigitChar(PeekChar(s1))) then
      var r := ScanNumber(s1.(num := Zero), false, One, ops);
      ScanNumberProgress(s1.(num := Zero), false, One, ops);
      r
    else if c == EOF then Lexed(TokEof, s1)
    else
      AdvanceProgress(s1);
      Lexed(c, Advance(s1))
  }

  lemma ScanIdentifierName(s: LexState, name: string)
    requires Valid(s) && s.lastChar != EOF && IsIdentifierName(name)
    ensures IsIdentifierName(ScanIdentifier(s, name).ident)
    decreases Remaining(s)
  {
    AdvanceProgress(s);
    var s1 := Advance(s);
    if IsChar(s1.lastChar) && IsIdentifierChar(s1.lastChar) && |name| < MaxIdentifier {
      var n1 := name + [s1.lastChar as char];
      assert forall i :: 0 <= i < |n1| ==> IsIdentifierChar(n1[i] as int) by {
        forall i | 0 <= i < |n1| ensures IsIdentifierChar(n1[i] as int) {
          if i < |name| { assert n1[i] == name[i]; }
        }
      }
      ScanIdentifierName(s1, n1);
    }
  }

  /** A number scan that starts on a digit or '.' consumes at least that character. */
  lemma ScanNumberProgress(s: LexState, places: bool, q: Double, ops: FloatOps)
    requires Valid(s) && !places && (IsDigitChar(s.lastChar) || s.lastChar == '.' as int)
    ensures Remaining(ScanNumber(s, places, q, ops).next) < Remaining(s)
  {
    AdvanceProgress(s);
  }

  /** Once at the end, the lexer stays there: EOF is returned again and again. */
  lemma EndIsSticky(s: LexState, ops: FloatOps)
    requires Valid(s) && AtEnd(s)
    ensures GetToken(s, ops).code == TokEof
    ensures AtEnd(GetToken(s, ops).next)
    ensures GetToken(GetToken(s, ops).next, ops) == GetToken(s, ops)
  {
  }

  /** A token as the parser sees it: its code and the identifier and number fields at that moment. */
  datatype Tok = Tok(code: int, name: string, value: Double)

  /** What the parser sees once the input is exhausted. */
  const EofTok: Tok := Tok(TokEof, "", Zero)

  /**
    All the tokens `GetToken` returns from `s` up to the end of input, in order.
    The parser pulls tokens one at a time; reading them from this list (with
    `EofTok` past its end) gives it the same tokens, since the lexer never
    depends on the parser and `EndIsSticky` holds.
  */
  function Tokenize(s: LexState, ops: FloatOps): (r: seq<Tok>)
    requires Valid(s)
    ensures forall i :: 0 <= i < |r| && r[i].code == TokIdentifier ==> IsIdentifierName(r[i].name)
    ensures |r| <= Remaining(s)
    decreases Remaining(s)
  {
    if AtEnd(s) then []
    else
      var l := GetToken(s, ops);
      [Tok(l.code, l.next.ident, l.next.num)] + Tokenize(l.next, ops)
  }

  /** The tokens of a whole input, from the constructor's state. */
  function Tokens(input: seq<Byte>, ops: FloatOps): (r: seq<Tok>)
    ensures forall i :: 0 <= i < |r| && r[i].code == TokIdentifier ==> IsIdentifierName(r[i].name)
    ensures |r| <= 2 * |input| + 1
  {
    Tokenize(Initial(input), ops)
  }
}

=== FILE: lexer_spec.dfy ===
/**
  A reference description of the lexer over the character stream it sees.
  The stream of a state is `lastChar` followed by the unread input, and it ends
  at the end of the input or at the first byte that reads as EOF (0xFF). The
  reference says where each token starts and ends in that stream; the lemma
  `GetTokenMatchesSpec` shows that `GetToken` behaves exactly so.
*/
module LexerSpec {
  import opened Base
  import opened Fpu
  import opened Util
  import opened Lexer

  /** The characters `GetChar` will return from `pos` before it returns EOF. */
  function Rest(input: seq<Byte>, pos: nat): (w: seq<int>)
    ensures forall i :: 0 <= i < |w| ==> w[i] != EOF
    decreases |input| - pos
  {
    if |input| <= pos then []
    else
      var c := SignedChar(input[pos]);
      if c == EOF then [] else [c] + Rest(input, pos + 1)
  }

  /** The character stream a lexer state will see. */
  function Stream(s: LexState): (w: seq<int>)
    ensures forall i :: 0 <= i < |w| ==> w[i] != EOF
  {
    if s.lastChar == EOF then [] else [s.lastChar] + Rest(s.input, s.pos)
  }

  lemma AdvanceStream(s: LexState)
    requires Valid(s) && s.lastChar != EOF
    ensures Stream(s) == [s.lastChar] + Stream(Advance(s))
  {
  }

  lemma PeekStream(s: LexState)
    requires Valid(s) && s.lastChar != EOF
    ensures PeekChar(s) == if |Stream(s)| > 1 then Stream(s)[1] else EOF
  {
  }

  /** Number of leading whitespace characters. */
  function LeadingSpace(w: seq<int>): (k: nat)
    ensures k <= |w|
    ensures forall i :: 0 <= i < k ==> IsWhitespaceChar(w[i])
    ensures k < |w| ==> !IsWhitespaceChar(w[k])
  {
    if w == [] || !IsWhitespaceChar(w[0]) then 0 else 1 + LeadingSpace(w[1..])
  }

  /** Length of the longest prefix made of identifier characters. */
  function IdentRun(w: seq<int>): (m: nat)
    ensures m <= |w|
    ensures forall i :: 0 <= i < m ==> IsIdentifierChar(w[i])
    ensures m < |w| ==> !IsIdentifierChar(w[m])
  {
    if w == [] || !IsIdentifierChar(w[0]) then 0 else 1 + IdentRun(w[1..])
  }

  /** Length of the longest prefix made of digits and dots. */
  function NumRun(w: seq<int>): (m: nat)
    ensures m <= |w|
    ensures forall i :: 0 <= i < m ==> IsDigitChar(w[i]) || w[i] == '.' as int
    ensures m < |w| ==> !IsDigitChar(w[m]) && w[m] != '.' as int
  {
    if w == [] || !(IsDigitChar(w[0]) || w[0] == '.' as int) then 0 else 1 + NumRun(w[1..])
  }

  /** The index of the first '.' that follows an earlier one (or any '.', once `seen`). */
  function BadDot(u: seq<int>, seen: bool): (r: Option<nat>)
    ensures r.Some? ==> r.value < |u| && u[r.value] == '.' as int
  {
    if u == [] then None
    else if u[0] == '.' as int && seen then Some(0)
    else ShiftIndex(BadDot(u[1..], seen || u[0] == '.' as int))
  }

  /** An index found in a tail, as an index into the whole sequence. */
  function ShiftIndex(r: Option<nat>): Option<nat>
  {
    match r
    case Some(j) => Some(j + 1)
    case None => None
  }

  /** The state of the decimal accumulation: dot seen, weight of the next fraction digit, value. */
  datatype NumAcc = NumAcc(places: bool, q: Double, v: Double)

  /** Accumulating one digit or dot. */
  function AccStep(c: int, a: NumAcc, ops: FloatOps): NumAcc
    requires IsDigitChar(c) || c == '.' as int
  {
    if c == '.' as int then a.(places := true)
    else if a.places then
      var q := ops.div(a.q, Ten);
      NumAcc(true, q, ops.add(a.v, ops.mul(DigitValue(c - '0' as int), q)))
    else NumAcc(false, a.q, ops.add(ops.mul(a.v, Ten), DigitValue(c - '0' as int)))
  }

  /** Accumulating a run of digits and dots from left to right. */
  function Accumulate(u: seq<int>, a: NumAcc, ops: FloatOps): NumAcc
    requires forall i :: 0 <= i < |u| ==> IsDigitChar(u[i]) || u[i] == '.' as int
  {
    if u == [] then a else Accumulate(u[1..], AccStep(u[0], a, ops), ops)
  }

  /** A run of identifier characters as text. */
  function AsString(u: seq<int>): (t: string)
    requires forall i :: 0 <= i < |u| ==> IsIdentifierChar(u[i])
    ensures |t| == |u| && forall i :: 0 <= i < |u| ==> t[i] as int == u[i]
  {
    seq(|u|, i requires 0 <= i < |u| && IsIdentifierChar(u[i]) => u[i] as char)
  }

  /** The reference token: its code, the stream after it, and the identifier and number fields. */
  datatype SpecLexed = SpecLexed(code: int, rest: seq<int>, ident: string, num: Double)

  function Min(a: nat, b: nat): nat
  {
    if a <= b then a else b
  }

  /** The tail of a number starting at the head of `u`, from accumulator state `a`. */
  function SpecNumber(u: seq<int>, ident: string, a: NumAcc, ops: FloatOps): SpecLexed
  {
    var n := NumRun(u);
    match BadDot(u[..n], a.places)
    case Some(j) => SpecLexed(TokError, u[j..], ident, Accumulate(u[..j], a, ops).v)
    case None => SpecLexed(TokNumber, u[n..], ident, Accumulate(u[..n], a, ops).v)
  }

  /**
    The reference lexer. After leading whitespace:
    nothing left gives EOF and consumes nothing; a letter or '_' starts an
    identifier of at most 128 characters; a digit, or a '.' followed by a digit,
    starts a number made of the following digits and dots, ending in the error
    token at a second dot; anything else is returned as its own one-character token.
  */
  function SpecToken(w: seq<int>, ident: string, num: Double, ops: FloatOps): SpecLexed
  {
    var k := LeadingSpace(w);
    if k == |w| then SpecLexed(TokEof, [], ident, num)
    else
      var u := w[k..];
      var c := u[0];
      if IsIdentifierChar(c) && !IsDigitChar(c) then
        var m := Min(IdentRun(u), MaxIdentifier);
        SpecLexed(TokIdentifier, u[m..], AsString(u[..m]), num)
      else if IsDigitChar(c) || (c == '.' as int && |u| > 1 && IsDigitChar(u[1])) then
        SpecNumber(u, ident, NumAcc(false, One, Zero), ops)
      else SpecLexed(c, u[1..], ident, num)
  }

  // ---- GetToken agrees with the reference ----

  lemma {:induction false} SkipWhitespaceStream(s: LexState)
    requires Valid(s)
    ensures Stream(SkipWhitespace(s)) == Stream(s)[LeadingSpace(Stream(s))..]
    decreases Remaining(s)
  {
    if IsWhitespaceChar(s.lastChar) {
      AdvanceStream(s);
      AdvanceProgress(s);
      SkipWhitespaceStream(Advance(s));
      var w := Stream(s);
      assert w[1..] == Stream(Advance(s));
      assert LeadingSpace(w) == 1 + LeadingSpace(w[1..]);
    }
  }

  lemma AsStringAppend(u: seq<int>, c: int)
    requires IsIdentifierChar(c)
    requires forall i :: 0 <= i < |u| ==> IsIdentifierChar(u[i])
    ensures AsString(u + [c]) == AsString(u) + [c as char]
  {
    var t := AsString(u + [c]);
    var t' := AsString(u) + [c as char];
    assert |t| == |t'|;
    forall i | 0 <= i < |t| ensures t[i] == t'[i] {
      if i < |u| { assert (u + [c])[i] == u[i]; }
    }
  }

  /** Splitting the head character off a prefix. */
  lemma SplitHead(stored: seq<int>, w: seq<int>, m: nat)
    requires 1 <= m <= |w|
    ensures stored + [w[0]] + w[1..][..m - 1] == stored + w[..m]
    ensures w[1..][m - 1..] == w[m..]
  {
    assert w[1..][..m - 1] == w[1..m];
    assert w[..m] == [w[0]] + w[1..m];
    assert stored + [w[0]] + w[1..m] == stored + ([w[0]] + w[1..m]);
  }

  lemma IdentRunCons(w: seq<int>, room: nat)
    requires |w| > 0 && IsIdentifierChar(w[0]) && room > 0
    ensures Min(IdentRun(w), room) == Min(IdentRun(w[1..]), room - 1) + 1
  {
  }

  /**
    The identifier loop stores up to `128 - |name|` more identifier characters
    and leaves the first character it did not store at the head of the stream.
  */
  lemma {:induction false} ScanIdentifierStream(s: LexState, name: string, stored: seq<int>)
    requires Valid(s) && s.lastChar != EOF && |name| <= MaxIdentifier
    requires forall i :: 0 <= i < |stored| ==> IsIdentifierChar(stored[i])
    requires name == AsString(stored)
    ensures var w := Stream(s)[1..];
      var m := Min(IdentRun(w), MaxIdentifier - |name|);
      && ScanIdentifier(s, name).ident == AsString(stored + w[..m])
      && Stream(ScanIdentifier(s, name)) == w[m..]
    decreases Remaining(s), 0
  {
    AdvanceStream(s);
    AdvanceProgress(s);
    var s1 := Advance(s);
    var w := Stream(s)[1..];
    assert w == Stream(s1);
    var m := Min(IdentRun(w), MaxIdentifier - |name|);
    if IsChar(s1.lastChar) && IsIdentifierChar(s1.lastChar) && |name| < MaxIdentifier {
      ScanIdentifierStep(s1, name, stored, w, m);
    } else {
      if s1.lastChar == EOF {
        assert w == [];
      } else if |name| < MaxIdentifier {
        Util.ClassesAreAscii(s1.lastChar);
        assert !IsIdentifierChar(w[0]);
      }
      assert m == 0;
      assert stored + w[..m] == stored;
    }
  }

  lemma {:induction false} ScanIdentifierStep(s1: LexState, name: string, stored: seq<int>, w: seq<int>, m: nat)
    requires Valid(s1) && s1.lastChar != EOF && |name| < MaxIdentifier
    requires IsChar(s1.lastChar) && IsIdentifierChar(s1.lastChar)
    requires forall i :: 0 <= i < |stored| ==> IsIdentifierChar(stored[i])
    requires name == AsString(stored)
    requires w == Stream(s1) && m == Min(IdentRun(w), MaxIdentifier - |name|)
    ensures ScanIdentifier(s1, name + [s1.lastChar as char]).ident == AsString(stored + w[..m])
    ensures Stream(ScanIdentifier(s1, name + [s1.lastChar as char])) == w[m..]
    decreases Remaining(s1), 1
  {
    var c := s1.lastChar;
    assert w[0] == c;
    AsStringAppend(stored, c);
    ScanIdentifierStream(s1, name + [c as char], stored + [c]);
    IdentRunCons(w, MaxIdentifier - |name|);
    SplitHead(stored, w, m);
  }

  /** A dot seen while a dot was already seen: where the number loop reports an error. */
  predicate IsBadDot(c: int, a: NumAcc)
  {
    c == '.' as int && a.places
  }

  /** At a second dot the reference number ends in the error token, consuming nothing. */
  lemma SpecNumberBadDot(w: seq<int>, ident: string, a: NumAcc, ops: FloatOps)
    requires |w| > 0 && IsBadDot(w[0], a)
    ensures SpecNumber(w, ident, a, ops) == SpecLexed(TokError, w, ident, a.v)
  {
    var n := NumRun(w);
    assert BadDot(w[..n], a.places) == Some(0);
    assert w[..0] == [];
  }

  /** Dropping the first character of a number run shifts the position of a bad dot by one. */
  lemma BadDotShift(w: seq<int>, a: NumAcc, ops: FloatOps)
    requires |w| > 0 && (IsDigitChar(w[0]) || w[0] == '.' as int) && !IsBadDot(w[0], a)
    ensures NumRun(w) == 1 + NumRun(w[1..])
    ensures BadDot(w[..NumRun(w)], a.places)
      == ShiftIndex(BadDot(w[1..][..NumRun(w) - 1], AccStep(w[0], a, ops).places))
  {
    var n := NumRun(w);
    assert n == 1 + NumRun(w[1..]);
    var v := w[..n];
    assert v[0] == w[0] && v[1..] == w[1..][..n - 1];
    assert AccStep(w[0], a, ops).places == (a.places || w[0] == '.' as int);
    BadDotUnfold(v, a.places);
  }

  lemma BadDotUnfold(v: seq<int>, seen: bool)
    requires |v| > 0 && !(v[0] == '.' as int && seen)
    ensures BadDot(v, seen) == ShiftIndex(BadDot(v[1..], seen || v[0] == '.' as int))
  {
  }

  /** Otherwise the reference number is the reference number of the tail, one step further on. */
  lemma SpecNumberStep(w: seq<int>, ident: string, a: NumAcc, ops: FloatOps)
    requires |w| > 0 && (IsDigitChar(w[0]) || w[0] == '.' as int) && !IsBadDot(w[0], a)
    ensures SpecNumber(w, ident, a, ops) == SpecNumber(w[1..], ident, AccStep(w[0], a, ops), ops)
  {
    var c := w[0];
    var a1 := AccStep(c, a, ops);
    var n := NumRun(w);
    var w1 := w[1..];
    BadDotShift(w, a, ops);
    match BadDot(w1[..n - 1], a1.places)
    case Some(j) =>
      SpecNumberAtBadDot(w, ident, a, ops, j + 1);
      SpecNumberAtBadDot(w1, ident, a1, ops, j);
      SpecNumberStepAt(w, ident, a, ops, j + 1);
    case None =>
      SpecNumberAtEnd(w, ident, a, ops);
      SpecNumberAtEnd(w1, ident, a1, ops);
      SpecNumberStepAt(w, ident, a, ops, n);
  }

  /** A reference number that reaches a second dot at `j`. */
  lemma SpecNumberAtBadDot(u: seq<int>, ident: string, a: NumAcc, ops: FloatOps, j: nat)
    requires BadDot(u[..NumRun(u)], a.places) == Some(j)
    ensures j < NumRun(u)
    ensures SpecNumber(u, ident, a, ops) == SpecLexed(TokError, u[j..], ident, Accumulate(u[..j], a, ops).v)
  {
  }

  /** A reference number without a second dot: the whole run. */
  lemma SpecNumberAtEnd(u: seq<int>, ident: string, a: NumAcc, ops: FloatOps)
    requires BadDot(u[..NumRun(u)], a.places) == None
    ensures var n := NumRun(u);
      SpecNumber(u, ident, a, ops) == SpecLexed(TokNumber, u[n..], ident, Accumulate(u[..n], a, ops).v)
  {
  }

  /** The number value and rest, cut at position `j >= 1`, agree with those of the tail cut at `j - 1`. */
  lemma SpecNumberStepAt(w: seq<int>, ident: string, a: NumAcc, ops: FloatOps, j: nat)
    requires |w| > 0 && (IsDigitChar(w[0]) || w[0] == '.' as int) && !IsBadDot(w[0], a)
    requires 1 <= j <= NumRun(w)
    ensures Accumulate(w[..j], a, ops) == Accumulate(w[1..][..j - 1], AccStep(w[0], a, ops), ops)
    ensures w[j..] == w[1..][j - 1..]
  {
    assert w[..j] == [w[0]] + w[1..][..j - 1];
    AccumulateCons(w[1..][..j - 1], w[0], a, ops);
  }

  lemma AccumulateCons(u: seq<int>, c: int, a: NumAcc, ops: FloatOps)
    requires forall i :: 0 <= i < |u| ==> IsDigitChar(u[i]) || u[i] == '.' as int
    requires IsDigitChar(c) || c == '.' as int
    ensures Accumulate([c] + u, a, ops) == Accumulate(u, AccStep(c, a, ops), ops)
  {
    assert ([c] + u)[1..] == u;
  }

  /** An empty number run: the reference number ends right here. */
  lemma SpecNumberEnd(w: seq<int>, ident: string, a: NumAcc, ops: FloatOps)
    requires NumRun(w) == 0
    ensures SpecNumber(w, ident, a, ops) == SpecLexed(TokNumber, w, ident, a.v)
  {
    assert w[..0] == [];
    assert w[0..] == w;
  }

  /** One iteration of the number loop is one `AccStep` followed by one character read. */
  lemma ScanNumberUnfold(s: LexState, places: bool, q: Double, ops: FloatOps)
    requires Valid(s) && (IsDigitChar(s.lastChar) || s.lastChar == '.' as int)
    requires !IsBadDot(s.lastChar, NumAcc(places, q, s.num))
    ensures var a1 := AccStep(s.lastChar, NumAcc(places, q, s.num), ops);
      var s1 := Advance(s.(num := a1.v));
      ScanNumber(s, places, q, ops) ==
        if IsDigitChar(s1.lastChar) || s1.lastChar == '.' as int then ScanNumber(s1, a1.places, a1.q, ops)
        else Lexed(TokNumber, s1)
  {
  }

  /**
    The number loop, started on a digit or dot with accumulator (`places`, `q`,
    `s.num`), agrees with `SpecNumber` on the stream.
  */
  lemma {:induction false} ScanNumberStream(s: LexState, places: bool, q: Double, ops: FloatOps)
    requires Valid(s) && (IsDigitChar(s.lastChar) || s.lastChar == '.' as int)
    ensures var r := ScanNumber(s, places, q, ops);
      var sp := SpecNumber(Stream(s), s.ident, NumAcc(places, q, s.num), ops);
      r.code == sp.code && Stream(r.next) == sp.rest && r.next.ident == sp.ident && r.next.num == sp.num
    decreases Remaining(s)
  {
    var w := Stream(s);
    var c := s.lastChar;
    var a := NumAcc(places, q, s.num);
    assert w[0] == c;
    if IsBadDot(c, a) {
      SpecNumberBadDot(w, s.ident, a, ops);
      assert ScanNumber(s, places, q, ops) == Lexed(TokError, s);
    } else {
      var a1 := AccStep(c, a, ops);
      SpecNumberStep(w, s.ident, a, ops);
      var s0 := s.(num := a1.v);
      AdvanceStream(s0);
      AdvanceProgress(s0);
      var s1 := Advance(s0);
      assert Stream(s1) == w[1..] && s1.ident == s.ident && s1.num == a1.v;
      ScanNumberUnfold(s, places, q, ops);
      if IsDigitChar(s1.lastChar) || s1.lastChar == '.' as int {
        assert ScanNumber(s, places, q, ops) == ScanNumber(s1, a1.places, a1.q, ops);
        ScanNumberStream(s1, a1.places, a1.q, ops);
        assert NumAcc(a1.places, a1.q, s1.num) == a1;
      } else {
        assert ScanNumber(s, places, q, ops) == Lexed(TokNumber, s1);
        assert NumRun(w[1..]) == 0;
        SpecNumberEnd(w[1..], s.ident, a1, ops);
      }
    }
  }

  /** The lexer's result and the reference's result name the same token, rest, and buffers. */
  predicate Agrees(r: Lexed, sp: SpecLexed)
    requires Valid(r.next)
  {
    r.code == sp.code && Stream(r.next) == sp.rest && r.next.ident == sp.ident && r.next.num == sp.num
  }

  /** The reference lexer skips leading whitespace first. */
  lemma SpecTokenSkip(w: seq<int>, ident: string, num: Double, ops: FloatOps)
    ensures SpecToken(w, ident, num, ops) == SpecToken(w[LeadingSpace(w)..], ident, num, ops)
  {
    var u := w[LeadingSpace(w)..];
    assert LeadingSpace(u) == 0;
    assert u[0..] == u;
  }

  lemma IdentifierTokenSpec(s1: LexState, ops: FloatOps)
    requires Valid(s1) && IsIdentifierChar(s1.lastChar) && !IsDigitChar(s1.lastChar)
    ensures Agrees(Lexed(TokIdentifier, ScanIdentifier(s1, [s1.lastChar as char])),
                   SpecToken(Stream(s1), s1.ident, s1.num, ops))
  {
    var c := s1.lastChar;
    var u := Stream(s1);
    AdvanceStream(s1);
    IdentifierSpecToken(u, s1.ident, s1.num, ops);
    ScanIdentifierStream(s1, [c as char], [c]);
    assert |[c as char]| == 1;
    IdentifierSplit(u);
  }

  /** The reference token of a stream that starts an identifier. */
  lemma IdentifierSpecToken(u: seq<int>, ident: string, num: Double, ops: FloatOps)
    requires |u| > 0 && IsIdentifierChar(u[0]) && !IsDigitChar(u[0])
    ensures var m := Min(IdentRun(u), MaxIdentifier);
      SpecToken(u, ident, num, ops) == SpecLexed(TokIdentifier, u[m..], AsString(u[..m]), num)
  {
    assert LeadingSpace(u) == 0 && u[0..] == u;
  }

  /** The first character of an identifier, then the run of the rest within one less room. */
  lemma IdentifierSplit(u: seq<int>)
    requires |u| > 0 && IsIdentifierChar(u[0])
    ensures var m := Min(IdentRun(u), MaxIdentifier);
      var m1 := Min(IdentRun(u[1..]), MaxIdentifier - 1);
      && [u[0]] + u[1..][..m1] == u[..m]
      && u[1..][m1..] == u[m..]
  {
    IdentRunCons(u, MaxIdentifier);
    ConsPrefix(u, Min(IdentRun(u), MaxIdentifier));
  }

  lemma ConsPrefix(u: seq<int>, m: nat)
    requires 1 <= m <= |u|
    ensures [u[0]] + u[1..][..m - 1] == u[..m]
    ensures u[1..][m - 1..] == u[m..]
  {
    assert u[1..][..m - 1] == u[1..m];
  }

  lemma NumberTokenSpec(s1: LexState, ops: FloatOps)
    requires Valid(s1)
    requires IsDigitChar(s1.lastChar) || (s1.lastChar == '.' as int && IsDigitChar(PeekChar(s1)))
    ensures Agrees(ScanNumber(s1.(num := Zero), false, One, ops), SpecToken(Stream(s1), s1.ident, s1.num, ops))
  {
    var u := Stream(s1);
    assert u[0] == s1.lastChar;
    assert LeadingSpace(u) == 0 && u[0..] == u;
    PeekStream(s1);
    var s2 := s1.(num := Zero);
    assert Stream(s2) == u;
    ScanNumberStream(s2, false, One, ops);
  }

  lemma RawTokenSpec(s1: LexState, ops: FloatOps)
    requires Valid(s1) && s1.lastChar != EOF && !IsWhitespaceChar(s1.lastChar)
    requires !IsIdentifierChar(s1.lastChar) && s1.lastChar != '.' as int
    ensures Agrees(Lexed(s1.lastChar, Advance(s1)), SpecToken(Stream(s1), s1.ident, s1.num, ops))
  {
    var u := Stream(s1);
    assert u[0] == s1.lastChar;
    assert LeadingSpace(u) == 0 && u[0..] == u;
    AdvanceStream(s1);
  }

  /** A '.' not followed by a digit is a token of its own. */
  lemma DotTokenSpec(s1: LexState, ops: FloatOps)
    requires Valid(s1) && s1.lastChar == '.' as int && !IsDigitChar(PeekChar(s1))
    ensures Agrees(Lexed(s1.lastChar, Advance(s1)), SpecToken(Stream(s1), s1.ident, s1.num, ops))
  {
    var u := Stream(s1);
    assert u[0] == s1.lastChar;
    assert LeadingSpace(u) == 0 && u[0..] == u;
    PeekStream(s1);
    AdvanceStream(s1);
  }

  /** `GetToken` returns the reference token and leaves the reference rest of the stream. */
  lemma GetTokenMatchesSpec(s: LexState, ops: FloatOps)
    requires Valid(s)
    ensures Agrees(GetToken(s, ops), SpecToken(Stream(s), s.ident, s.num, ops))
  {
    var w := Stream(s);
    SkipWhitespaceStream(s);
    SpecTokenSkip(w, s.ident, s.num, ops);
    var s1 := SkipWhitespace(s);
    var c := s1.lastChar;
    if c == EOF {
      assert Stream(s1) == [];
    } else if IsIdentifierChar(c) && !IsDigitChar(c) {
      IdentifierTokenSpec(s1, ops);
    } else if IsDigitChar(c) || (c == '.' as int && IsDigitChar(PeekChar(s1))) {
      NumberTokenSpec(s1, ops);
    } else if c == '.' as int {
      DotTokenSpec(s1, ops);
    } else {
      RawTokenSpec(s1, ops);
    }
  }


  /** Outside the end, every reference token consumes at least one character. */
  lemma SpecTokenShrinks(w: seq<int>, ident: string, num: Double, ops: FloatOps)
    requires LeadingSpace(w) < |w|
    ensures |SpecToken(w, ident, num, ops).rest| < |w|
  {
    var u := w[LeadingSpace(w)..];
    var n := NumRun(u);
    if n > 0 {
      BadDotUnfold(u[..n], false);
    }
  }

  /**
    The reference token list: reference tokens one after the other until only
    whitespace is left, each paired with the identifier and number fields after it.
  */
  function SpecTokens(w: seq<int>, ident: string, num: Double, ops: FloatOps): seq<Tok>
    decreases |w|
  {
    if LeadingSpace(w) == |w| then []
    else
      var sp := SpecToken(w, ident, num, ops);
      SpecTokenShrinks(w, ident, num, ops);
      [Tok(sp.code, sp.ident, sp.num)] + SpecTokens(sp.rest, sp.ident, sp.num, ops)
  }

  /** The lexer is at its end exactly when only whitespace is left of the stream. */
  lemma AtEndStream(s: LexState)
    requires Valid(s)
    ensures AtEnd(s) <==> LeadingSpace(Stream(s)) == |Stream(s)|
  {
    SkipWhitespaceStream(s);
  }

  /** The lexer's token list is the reference token list of the stream. */
  lemma {:induction false} TokenizeMatchesSpec(s: LexState, ops: FloatOps)
    requires Valid(s)
    ensures Tokenize(s, ops) == SpecTokens(Stream(s), s.ident, s.num, ops)
    decreases Remaining(s)
  {
    AtEndStream(s);
    if !AtEnd(s) {
      var l := GetToken(s, ops);
      GetTokenMatchesSpec(s, ops);
      TokenizeMatchesSpec(l.next, ops);
    }
  }

  /** The tokens of a whole input are the reference tokens of its character stream. */
  lemma TokensMatchSpec(input: seq<Byte>, ops: FloatOps)
    ensures Tokens(input, ops) == SpecTokens(Rest(input, 0), "", Zero, ops)
  {
    TokenizeMatchesSpec(Initial(input), ops);
    assert Stream(Initial(input)) == [' ' as int] + Rest(input, 0);
    var w := Rest(input, 0);
    assert LeadingSpace([' ' as int] + w) == 1 + LeadingSpace(w) by {
      assert ([' ' as int] + w)[1..] == w;
    }
    SpecTokenSkip([' ' as int] + w, "", Zero, ops);
    SpecTokenSkip(w, "", Zero, ops);
    assert ([' ' as int] + w)[1 + LeadingSpace(w)..] == w[LeadingSpace(w)..];
  }
}

=== FILE: marshalling.dfy ===
/**
  How a subtree hands its value to its parent. A number, and a binary operation
  on two immediates, are immediates known at compile time (the binary one folded
  with the host's arithmetic); everything else leaves its value on top of the
  x87 stack. The other kinds of the enumeration exist but no node reports them.
*/
module Marshalling {
  import opened Base
  import opened Fpu
  import opened Ast

  datatype MarshallingType = Imm | Ptr | StI | StF | StD | St0 | Eax

  /** The kind, and for `Imm` the value (for other kinds the field is never read). */
  datatype MarshallingInfo = MarshallingInfo(kind: MarshallingType, imm: Double)

  /** `compute`: the operator applied to two immediates; `None` for an unknown operator. */
  function Compute(op: char, a: Double, b: Double, ops: FloatOps): (r: Option<Double>)
    ensures r.Some? <==> IsOperator(op)
  {
    if op == '+' then Some(ops.add(a, b))
    else if op == '-' then Some(ops.sub(a, b))
    else if op == '*' then Some(ops.mul(a, b))
    else if op == '/' then Some(ops.div(a, b))
    else None
  }

  /**
    `GetMarshallingInfo()`. When folding an unknown operator fails, `compute`
    leaves the immediate unset, and it is the indeterminate value.
  */
  function Info(e: Expr, ops: FloatOps): (r: MarshallingInfo)
    ensures r.kind == Imm || r.kind == St0
  {
    match e
    case Number(v) => MarshallingInfo(Imm, v)
    case Variable(_) => MarshallingInfo(St0, ops.indeterminate)
    case Call(_, _) => MarshallingInfo(St0, ops.indeterminate)
    case Binary(op, l, r) =>
      var li := Info(l, ops);
      var ri := Info(r, ops);
      if li.kind == Imm && ri.kind == Imm then
        MarshallingInfo(Imm, Compute(op, li.imm, ri.imm, ops).GetOr(ops.indeterminate))
      else MarshallingInfo(St0, ops.indeterminate)
  }

  /**
    The reference value of a tree: defined exactly for trees of numbers and
    known operators, by evaluating both operands and applying the operator.
  */
  function Eval(e: Expr, ops: FloatOps): Option<Double>
  {
    match e
    case Number(v) => Some(v)
    case Variable(_) => None
    case Call(_, _) => None
    case Binary(op, l, r) =>
      match (Eval(l, ops), Eval(r, ops))
      case (Some(a), Some(b)) => Compute(op, a, b, ops)
      case _ => None
  }

  /** A subtree is folded into an immediate exactly when it holds no variable and no call. */
  lemma {:induction false} ImmIffConstant(e: Expr, ops: FloatOps)
    ensures Info(e, ops).kind == Imm <==> IsConstant(e)
  {
    match e
    case Number(_) =>
    case Variable(_) =>
    case Call(_, _) =>
    case Binary(_, l, r) =>
      ImmIffConstant(l, ops);
      ImmIffConstant(r, ops);
  }

  /** Where the reference value exists, the folded immediate is that value. */
  lemma {:induction false} FoldedIsValue(e: Expr, ops: FloatOps)
    requires Eval(e, ops).Some?
    ensures Info(e, ops) == MarshallingInfo(Imm, Eval(e, ops).value)
  {
    match e
    case Number(_) =>
    case Binary(op, l, r) =>
      FoldedIsValue(l, ops);
      FoldedIsValue(r, ops);
  }

  /** Every constant tree the parser builds has a reference value. */
  lemma {:induction false} ConstantHasValue(e: Expr, ops: FloatOps)
    requires WellFormed(e) && IsConstant(e)
    ensures Eval(e, ops).Some?
  {
    match e
    case Number(_) =>
    case Binary(op, l, r) =>
      ConstantHasValue(l, ops);
      ConstantHasValue(r, ops);
  }
}

=== FILE: parser.dfy ===
/**
  The recursive-descent, precedence-climbing parser of `AstParser`, reading the
  token list the lexer produces. A position `i` is the index of the current
  token; past the end of the list the current token is end-of-input, and eating
  it leaves the position where it is, as the lexer keeps returning EOF there.
  A failed parse is `None`: the source returns a null tree and no position.
*/
module Parser {
  import opened Base
  import opened Fpu
  import opened Lexer
  import opened Ast

  /** A parsed tree and the position of the first token after it. */
  datatype Parsed = Parsed(e: Expr, next: nat)

  const LParen: int := '(' as int
  const RParen: int := ')' as int
  const Comma: int := ',' as int

  /** The lexer guarantees every identifier token carries a valid name. */
  predicate ValidTokens(toks: seq<Tok>)
  {
    forall i :: 0 <= i < |toks| && toks[i].code == TokIdentifier ==> IsIdentifierName(toks[i].name)
  }

  /** `m_currentToken` at position `i`. */
  function Cur(toks: seq<Tok>, i: nat): Tok
  {
    if i < |toks| then toks[i] else EofTok
  }

  /** `GetNextToken()`: move past the current token. */
  function Eat(toks: seq<Tok>, i: nat): (j: nat)
    requires i <= |toks|
    ensures j <= |toks|
    ensures Cur(toks, i).code != TokEof ==> j == i + 1
  {
    if i < |toks| then i + 1 else i
  }

  /** A successful parse from `i` that consumed at least one token and produced a well-formed tree. */
  predicate Advances(toks: seq<Tok>, i: nat, r: Option<Parsed>)
  {
    r.Some? ==> i < r.value.next <= |toks| && WellFormed(r.value.e)
  }

  /** `GetTokPrecedence()`: 20 for '+' and '-', 40 for '*' and '/', -1 for any other token. */
  function Precedence(t: Tok): (p: int)
    ensures p == 20 || p == 40 || p == -1
    ensures p != -1 <==> t.code in {'+' as int, '-' as int, '*' as int, '/' as int}
  {
    if t.code == '+' as int || t.code == '-' as int then 20
    else if t.code == '*' as int || t.code == '/' as int then 40
    else -1
  }

  /** The operator character of an operator token. */
  function OpChar(t: Tok): (op: char)
    requires Precedence(t) != -1
    ensures IsOperator(op) && op as int == t.code
  {
    if t.code == '+' as int then '+'
    else if t.code == '-' as int then '-'
    else if t.code == '*' as int then '*'
    else '/'
  }

  /** `ParseNumberExpr`: the number token's value. */
  function ParseNumberExpr(toks: seq<Tok>, i: nat): (r: Option<Parsed>)
    requires i <= |toks| && Cur(toks, i).code == TokNumber
    ensures Advances(toks, i, r) && r.Some?
    ensures r.value.e == Number(Cur(toks, i).value) && r.value.next == i + 1
  {
    Some(Parsed(Number(toks[i].value), i + 1))
  }

  /**
    `ParseIdentifierExpr`: a variable, or, when '(' follows, a call. An empty
    argument list is `()`; otherwise arguments are read while fewer than 32
    have been read.
  */
  function ParseIdentifierExpr(toks: seq<Tok>, i: nat): (r: Option<Parsed>)
    requires i <= |toks| && ValidTokens(toks) && Cur(toks, i).code == TokIdentifier
    ensures Advances(toks, i, r)
    ensures Cur(toks, i + 1).code != LParen ==> r == Some(Parsed(Variable(Cur(toks, i).name), i + 1))
    ensures r.Some? && Cur(toks, i + 1).code == LParen ==> r.value.e.Call? && r.value.e.name == Cur(toks, i).name
    decreases |toks| - i, 0
  {
    var name := toks[i].name;
    var j := i + 1;
    if Cur(toks, j).code != LParen then Some(Parsed(Variable(name), j))
    else
      var k := j + 1;
      if Cur(toks, k).code == RParen then Some(Parsed(Call(name, []), Eat(toks, k)))
      else ParseArgs(toks, name, k, [])
  }

  /**
    The argument loop of `ParseIdentifierExpr`, with `args` read so far. After
    an argument, ')' ends the call and ',' continues it; once 32 arguments have
    been read after a ',', the loop stops and the token after the ',' is eaten
    as if it were the ')', whatever it is.
  */
  function ParseArgs(toks: seq<Tok>, name: string, i: nat, args: seq<Expr>): (r: Option<Parsed>)
    requires i <= |toks| && ValidTokens(toks) && IsIdentifierName(name)
    requires |args| < MaxArgs && forall a | a in args :: WellFormed(a)
    ensures r.Some? ==> i < r.value.next <= |toks| && WellFormed(r.value.e)
    ensures r.Some? ==> r.value.e.Call? && r.value.e.name == name
    ensures r.Some? ==> |args| < |r.value.e.args| && r.value.e.args[..|args|] == args
    ensures ParseExpression(toks, i).None? ==> r.None?
    decreases |toks| - i, 3
  {
    match ParseExpression(toks, i)
    case None => None
    case Some(Parsed(arg, j)) =>
      var args1 := args + [arg];
      if Cur(toks, j).code == RParen then Some(Parsed(Call(name, args1), Eat(toks, j)))
      else if Cur(toks, j).code != Comma then None
      else if |args1| < MaxArgs then ParseArgs(toks, name, j + 1, args1)
      else Some(Parsed(Call(name, args1), Eat(toks, j + 1)))
  }

  /** `ParseParenExpr`: '(' expression ')', the parentheses leaving no node behind. */
  function ParseParenExpr(toks: seq<Tok>, i: nat): (r: Option<Parsed>)
    requires i <= |toks| && ValidTokens(toks) && Cur(toks, i).code == LParen
    ensures Advances(toks, i, r)
    ensures r.Some? ==> Cur(toks, r.value.next - 1).code == RParen
    ensures r.Some? ==> ParseExpression(toks, i + 1) == Some(Parsed(r.value.e, r.value.next - 1))
    decreases |toks| - i, 0
  {
    match ParseExpression(toks, i + 1)
    case None => None
    case Some(Parsed(e, j)) =>
      if Cur(toks, j).code != RParen then None
      else Some(Parsed(e, j + 1))
  }

  /** `ParsePrimary`: an identifier expression, a number or a parenthesised expression. */
  function ParsePrimary(toks: seq<Tok>, i: nat): (r: Option<Parsed>)
    requires i <= |toks| && ValidTokens(toks)
    ensures Advances(toks, i, r)
    ensures r.Some? ==> Cur(toks, i).code == TokIdentifier || Cur(toks, i).code == TokNumber || Cur(toks, i).code == LParen
    ensures Cur(toks, i).code == TokNumber ==> r == Some(Parsed(Number(Cur(toks, i).value), i + 1))
    decreases |toks| - i, 1
  {
    var c := Cur(toks, i).code;
    if c == TokIdentifier then ParseIdentifierExpr(toks, i)
    else if c == TokNumber then ParseNumberExpr(toks, i)
    else if c == LParen then ParseParenExpr(toks, i)
    else None
  }

  /**
    `ParseBinOpRHS`: extend `lhs` with every following operator whose precedence
    is at least `minPrec`. When the operator after the right operand binds
    tighter, that operand first absorbs the tighter operators.
  */
  function ParseBinOpRHS(toks: seq<Tok>, minPrec: int, lhs: Expr, i: nat): (r: Option<Parsed>)
    requires i <= |toks| && ValidTokens(toks) && 0 <= minPrec && WellFormed(lhs)
    ensures r.Some? ==> i <= r.value.next <= |toks| && WellFormed(r.value.e)
    decreases |toks| - i, 0
  {
    var t := Cur(toks, i);
    var prec := Precedence(t);
    if prec < minPrec then Some(Parsed(lhs, i))
    else
      var op := OpChar(t);
      match ParsePrimary(toks, i + 1)
      case None => None
      case Some(Parsed(rhs, j)) =>
        var rhs1 :=
          if prec < Precedence(Cur(toks, j)) then ParseBinOpRHS(toks, prec + 1, rhs, j)
          else Some(Parsed(rhs, j));
        match rhs1
        case None => None
        case Some(Parsed(rhs2, k)) => ParseBinOpRHS(toks, minPrec, Binary(op, lhs, rhs2), k)
  }

  /** `ParseExpression`: a primary followed by any operators. */
  function ParseExpression(toks: seq<Tok>, i: nat): (r: Option<Parsed>)
    requires i <= |toks| && ValidTokens(toks)
    ensures Advances(toks, i, r)
    decreases |toks| - i, 2
  {
    match ParsePrimary(toks, i)
    case None => None
    case Some(Parsed(lhs, j)) => ParseBinOpRHS(toks, 0, lhs, j)
  }

  /**
    `GetExpression` on a fresh parser over `input`: read the first token and
    parse one expression. Tokens after it are never looked at.
  */
  function Parse(input: seq<Byte>, ops: FloatOps): (r: Option<Expr>)
    ensures r.Some? ==> WellFormed(r.value)
  {
    var toks := Tokens(input, ops);
    match ParseExpression(toks, 0)
    case None => None
    case Some(p) => Some(p.e)
  }
}

=== FILE: parser_facts.dfy ===
/**
  Consequences of the parser's definition: how operators group, what a
  successful parse leaves unread, and how the 32-argument limit behaves.
*/
module ParserFacts {
  import opened Base
  import opened Fpu
  import opened Lexer
  import opened Ast
  import opened Parser
  import opened Grammar

  function Id(n: string): Tok
  {
    Tok(TokIdentifier, n, Zero)
  }

  function Ch(c: char): Tok
  {
    Tok(c as int, "", Zero)
  }

  /** `a - b - c` groups to the left. */
  lemma SubtractionGroupsLeft()
    ensures var toks := [Id("a"), Ch('-'), Id("b"), Ch('-'), Id("c")];
      ParseExpression(toks, 0) ==
        Some(Parsed(Binary('-', Binary('-', Variable("a"), Variable("b")), Variable("c")), 5))
  {
    var toks := [Id("a"), Ch('-'), Id("b"), Ch('-'), Id("c")];
    assert ValidTokens(toks);
    assert ParsePrimary(toks, 0) == Some(Parsed(Variable("a"), 1));
    assert ParsePrimary(toks, 2) == Some(Parsed(Variable("b"), 3));
    assert ParsePrimary(toks, 4) == Some(Parsed(Variable("c"), 5));
    assert ParseBinOpRHS(toks, 0, Binary('-', Binary('-', Variable("a"), Variable("b")), Variable("c")), 5)
      == Some(Parsed(Binary('-', Binary('-', Variable("a"), Variable("b")), Variable("c")), 5));
    assert ParseBinOpRHS(toks, 0, Binary('-', Variable("a"), Variable("b")), 3)
      == Some(Parsed(Binary('-', Binary('-', Variable("a"), Variable("b")), Variable("c")), 5));
  }

  /** `a + b * c`: the multiplication binds tighter. */
  lemma ProductBindsTighterOnTheRight()
    ensures var toks := [Id("a"), Ch('+'), Id("b"), Ch('*'), Id("c")];
      ParseExpression(toks, 0) ==
        Some(Parsed(Binary('+', Variable("a"), Binary('*', Variable("b"), Variable("c"))), 5))
  {
    var toks := [Id("a"), Ch('+'), Id("b"), Ch('*'), Id("c")];
    var bc := Binary('*', Variable("b"), Variable("c"));
    assert ValidTokens(toks);
    assert ParsePrimary(toks, 0) == Some(Parsed(Variable("a"), 1));
    assert ParsePrimary(toks, 2) == Some(Parsed(Variable("b"), 3));
    assert ParsePrimary(toks, 4) == Some(Parsed(Variable("c"), 5));
    assert ParseBinOpRHS(toks, 21, bc, 5) == Some(Parsed(bc, 5));
    assert ParseBinOpRHS(toks, 21, Variable("b"), 3) == Some(Parsed(bc, 5));
    assert ParseBinOpRHS(toks, 0, Binary('+', Variable("a"), bc), 5) == Some(Parsed(Binary('+', Variable("a"), bc), 5));
  }

  /** `a * b + c`: the multiplication is the left operand of the addition. */
  lemma ProductBindsTighterOnTheLeft()
    ensures var toks := [Id("a"), Ch('*'), Id("b"), Ch('+'), Id("c")];
      ParseExpression(toks, 0) ==
        Some(Parsed(Binary('+', Binary('*', Variable("a"), Variable("b")), Variable("c")), 5))
  {
    var toks := [Id("a"), Ch('*'), Id("b"), Ch('+'), Id("c")];
    var ab := Binary('*', Variable("a"), Variable("b"));
    assert ValidTokens(toks);
    assert ParsePrimary(toks, 0) == Some(Parsed(Variable("a"), 1));
    assert ParsePrimary(toks, 2) == Some(Parsed(Variable("b"), 3));
    assert ParsePrimary(toks, 4) == Some(Parsed(Variable("c"), 5));
    assert ParseBinOpRHS(toks, 0, Binary('+', ab, Variable("c")), 5) == Some(Parsed(Binary('+', ab, Variable("c")), 5));
    assert ParseBinOpRHS(toks, 0, ab, 3) == Some(Parsed(Binary('+', ab, Variable("c")), 5));
  }

  /** `a b`: the expression ends at `a`; the second identifier is left unread and the parse succeeds. */
  lemma TrailingTokensIgnored()
    ensures ParseExpression([Id("a"), Id("b")], 0) == Some(Parsed(Variable("a"), 1))
  {
    var toks := [Id("a"), Id("b")];
    assert ValidTokens(toks);
    assert ParsePrimary(toks, 0) == Some(Parsed(Variable("a"), 1));
  }

  /** An operator with nothing after it, an unclosed parenthesis, and two arguments without a comma all fail. */
  lemma MalformedInputsFail()
    ensures ParseExpression([Id("a"), Ch('+')], 0) == None
    ensures ParseExpression([Ch('('), Id("a")], 0) == None
    ensures ParseExpression([Id("f"), Ch('('), Id("a"), Id("b"), Ch(')')], 0) == None
    ensures ParseExpression([Ch(')')], 0) == None
  {
    var t1 := [Id("a"), Ch('+')];
    assert ValidTokens(t1);
    assert ParsePrimary(t1, 0) == Some(Parsed(Variable("a"), 1));
    assert ParsePrimary(t1, 2) == None;
    var t2 := [Ch('('), Id("a")];
    assert ValidTokens(t2);
    assert ParsePrimary(t2, 1) == Some(Parsed(Variable("a"), 2));
    assert ParseExpression(t2, 1) == Some(Parsed(Variable("a"), 2));
    var t3 := [Id("f"), Ch('('), Id("a"), Id("b"), Ch(')')];
    assert ValidTokens(t3);
    assert ParsePrimary(t3, 2) == Some(Parsed(Variable("a"), 3));
    assert ParseExpression(t3, 2) == Some(Parsed(Variable("a"), 3));
    assert ParseArgs(t3, "f", 2, []) == None;
  }

  /** The number token used in the argument lists below. */
  const NumOne: Tok := Tok(TokNumber, "", One)

  /** `k` arguments that are all the number 1. */
  function Ones(k: nat): seq<Expr>
  {
    seq(k, _ => Number(One))
  }

  /**
    `f(1, 1, ..., 1,` with 32 ones, then `rest`: the tokens `f`, `(`, then 32
    pairs "number ," and the tokens of `rest`.
  */
  function OverlongCall(rest: seq<Tok>): (toks: seq<Tok>)
    ensures |toks| == 66 + |rest|
  {
    [Id("f"), Ch('(')] + seq(64, i => if i % 2 == 0 then NumOne else Ch(',')) + rest
  }

  lemma OverlongCallAt(rest: seq<Tok>, k: nat)
    requires k < MaxArgs
    ensures OverlongCall(rest)[2 + 2 * k] == NumOne && OverlongCall(rest)[3 + 2 * k] == Ch(',')
  {
  }

  lemma OverlongCallRest(rest: seq<Tok>, k: nat)
    requires k < |rest|
    ensures OverlongCall(rest)[66 + k] == rest[k]
  {
  }

  lemma OverlongCallValid(rest: seq<Tok>)
    requires ValidTokens(rest)
    ensures ValidTokens(OverlongCall(rest))
  {
    var toks := OverlongCall(rest);
    forall i | 0 <= i < |toks| && toks[i].code == TokIdentifier ensures IsIdentifierName(toks[i].name) {
      if 66 <= i {
        OverlongCallRest(rest, i - 66);
      } else if 2 <= i {
        OverlongCallAt(rest, (i - 2) / 2);
      }
    }
  }

  /**
    From the `k`-th argument on, the loop reads the remaining ones and stops
    after the 32nd ',', eating the next token whatever it is.
  */
  lemma {:induction false} OverlongArgs(rest: seq<Tok>, k: nat)
    requires k < MaxArgs && ValidTokens(rest) && |rest| > 0
    ensures ValidTokens(OverlongCall(rest))
    ensures ParseArgs(OverlongCall(rest), "f", 2 + 2 * k, Ones(k)) == Some(Parsed(Call("f", Ones(MaxArgs)), 67))
    decreases MaxArgs - k
  {
    var toks := OverlongCall(rest);
    OverlongCallValid(rest);
    var i := 2 + 2 * k;
    OverlongCallAt(rest, k);
    OneArgument(toks, i, Ones(k));
    assert Ones(k) + [Number(One)] == Ones(k + 1);
    if k + 1 < MaxArgs {
      OverlongArgs(rest, k + 1);
    }
  }

  /** The argument `1` followed by ',' at `i`: read it, then go on or, as the 32nd, eat the next token. */
  lemma OneArgument(toks: seq<Tok>, i: nat, args: seq<Expr>)
    requires i + 1 < |toks| && ValidTokens(toks) && toks[i] == NumOne && toks[i + 1] == Ch(',')
    requires |args| < MaxArgs && forall a | a in args :: WellFormed(a)
    ensures ParseArgs(toks, "f", i, args) ==
      if |args| + 1 < MaxArgs then ParseArgs(toks, "f", i + 2, args + [Number(One)])
      else Some(Parsed(Call("f", args + [Number(One)]), if i + 2 < |toks| then i + 3 else i + 2))
  {
    assert ParsePrimary(toks, i) == Some(Parsed(Number(One), i + 1));
    assert ParseExpression(toks, i) == Some(Parsed(Number(One), i + 1));
    ParseArgsStep(toks, "f", i, args, Number(One), i + 1);
  }

  /**
    A 33rd argument is not rejected: after the 32nd ',' the next token, the
    first of `rest`, is eaten in place of the ')' whatever it is, and the call
    ends with 32 arguments. Parsing then goes on from the token after it, with
    the call as the left operand of any operator found there.
  */
  lemma ThirtyThirdArgumentSwallowed(rest: seq<Tok>)
    requires ValidTokens(rest) && |rest| > 0
    ensures ValidTokens(OverlongCall(rest))
    ensures ParseExpression(OverlongCall(rest), 0) == ParseBinOpRHS(OverlongCall(rest), 0, Call("f", Ones(MaxArgs)), 67)
  {
    var toks := OverlongCall(rest);
    OverlongArgs(rest, 0);
    OverlongCallAt(rest, 0);
    assert Ones(0) == [];
    assert ParsePrimary(toks, 0) == ParseArgs(toks, "f", 2, []);
  }

  /** A single-token 33rd argument: `f(1, ..., 1, x)` is the call of the first 32, ending before the ')'. */
  lemma SingleTokenArgumentSwallowed(x: Tok)
    requires x.code != TokIdentifier || IsIdentifierName(x.name)
    ensures ValidTokens(OverlongCall([x, Ch(')')]))
    ensures ParseExpression(OverlongCall([x, Ch(')')]), 0) == Some(Parsed(Call("f", Ones(MaxArgs)), 67))
  {
    var rest := [x, Ch(')')];
    assert ValidTokens(rest);
    ThirtyThirdArgumentSwallowed(rest);
    OverlongCallRest(rest, 1);
  }

  /**
    `f(1, ..., 1, a+b)`: only `a` is swallowed, and `+b` goes on to extend the
    call, which becomes the left operand of the addition.
  */
  lemma SwallowedOperandContinues()
    ensures ValidTokens(OverlongCall([Id("a"), Ch('+'), Id("b"), Ch(')')]))
    ensures ParseExpression(OverlongCall([Id("a"), Ch('+'), Id("b"), Ch(')')]), 0)
      == Some(Parsed(Binary('+', Call("f", Ones(MaxArgs)), Variable("b")), 69))
  {
    var rest := [Id("a"), Ch('+'), Id("b"), Ch(')')];
    var toks := OverlongCall(rest);
    assert ValidTokens(rest);
    ThirtyThirdArgumentSwallowed(rest);
    OverlongCallRest(rest, 1);
    OverlongCallRest(rest, 2);
    OverlongCallRest(rest, 3);
    var c := Call("f", Ones(MaxArgs));
    assert ParsePrimary(toks, 68) == Some(Parsed(Variable("b"), 69));
    assert ParseBinOpRHS(toks, 0, Binary('+', c, Variable("b")), 69) == Some(Parsed(Binary('+', c, Variable("b")), 69));
  }
}

=== FILE: render.dfy ===
/**
  `ToString`: each node prints itself into a caller's buffer of `len` bytes and
  returns the number of characters it wrote, 0 meaning "did not fit". Numbers
  print with `"%.3f"`, variables as their name, calls as `f(a, b)` and binary
  nodes fully parenthesised as `(a + b)`.
*/
module Render {
  import opened Fpu
  import opened Lexer
  import opened Ast

  /**
    The outcome of printing: the characters written and counted (the return
    value is their number), or `Aborted` when a `sprintf_s` found no room for
    its text and terminator and the C runtime's invalid-parameter handler ended
    the program.
  */
  datatype Rendering = Rendered(text: string) | Aborted

  /** `sprintf_s(str, len, ...)` whose formatted text is `s`. */
  function Sprintf(s: string, len: int): (r: Rendering)
    ensures r.Rendered? <==> |s| < len
    ensures r.Rendered? ==> r.text == s
  {
    if |s| < len then Rendered(s) else Aborted
  }

  /** Puts `p` in front of what the rest of a loop printed. */
  function Prepend(p: string, r: Rendering): (q: Rendering)
    ensures q.Rendered? <==> r.Rendered?
    ensures q.Rendered? ==> q.text == p + r.text
  {
    match r
    case Aborted => Aborted
    case Rendered(t) => Rendered(p + t)
  }

  /** The text of a binary node's operator with its surrounding blanks, `" %c "`. */
  function OperatorText(op: char): string
  {
    [' ', op, ' ']
  }

  /** The canonical printed form of a tree. */
  function Text(e: Expr, ops: FloatOps): string
    decreases e, 1
  {
    match e
    case Number(v) => ops.format(v)
    case Variable(n) => n
    case Call(n, _) => n + "(" + Joined(e, 0, ops) + ")"
    case Binary(op, l, r) => "(" + Text(l, ops) + OperatorText(op) + Text(r, ops) + ")"
  }

  /** The arguments of a call from the `i`th on, separated by `", "`. */
  function Joined(e: Expr, i: nat, ops: FloatOps): string
    requires e.Call? && i <= |e.args|
    decreases e, 0, |e.args| - i
  {
    if i == |e.args| then ""
    else Text(e.args[i], ops) + (if i + 1 < |e.args| then ", " else "") + Joined(e, i + 1, ops)
  }

  /** `Expression::ToString(str, len)` for each kind of node. */
  function ToString(e: Expr, len: int, ops: FloatOps): (r: Rendering)
    ensures r.Rendered? && r.text != "" ==> |r.text| <= len
    decreases e, 2
  {
    match e
    case Number(v) => Sprintf(ops.format(v), len)
    case Variable(n) => if len < |n| then Rendered("") else Rendered(n)
    case Call(n, args) =>
      if len < |n| + 1 + 2 * |args| + 1 then Rendered("")
      else Prepend(n + "(", ArgsToString(e, 0, len - (|n| + 1), ops))
    case Binary(_, _, _) => BinaryToString(e, len, ops)
  }

  /**
    The argument loop of a call, from argument `i` with `len` bytes left, then
    the closing parenthesis. An argument that reports 0 stops the loop and the
    call returns what it wrote up to there.
  */
  function ArgsToString(e: Expr, i: nat, len: int, ops: FloatOps): (r: Rendering)
    requires e.Call? && i <= |e.args|
    ensures r.Rendered? && r.text != "" ==> |r.text| <= len
    decreases e, 1, |e.args| - i
  {
    if i == |e.args| then Sprintf(")", len)
    else
      match ToString(e.args[i], len, ops)
      case Aborted => Aborted
      case Rendered(t) =>
        if t == "" then Rendered("")
        else if i + 1 < |e.args| then
          (match Sprintf(", ", len - |t|)
           case Aborted => Aborted
           case Rendered(_) => Prepend(t + ", ", ArgsToString(e, i + 1, len - |t| - 2, ops)))
        else Prepend(t, ArgsToString(e, i + 1, len - |t|, ops))
  }

  /** A binary node: `(`, left operand, operator, right operand, `)`; any part reporting 0 makes the node report 0. */
  function BinaryToString(e: Expr, len: int, ops: FloatOps): (r: Rendering)
    requires e.Binary?
    ensures r.Rendered? && r.text != "" ==> |r.text| <= len && r.text[0] == '(' && r.text[|r.text| - 1] == ')'
    decreases e, 1
  {
    if Sprintf("(", len).Aborted? then Aborted
    else
      match ToString(e.lhs, len - 1, ops)
      case Aborted => Aborted
      case Rendered(lt) =>
        if lt == "" then Rendered("")
        else BinaryRest(e, len - 1 - |lt|, "(" + lt, ops)
  }

  /** The part of a binary node after its left operand, with `len` bytes left and `p` already written. */
  function BinaryRest(e: Expr, len: int, p: string, ops: FloatOps): (r: Rendering)
    requires e.Binary?
    ensures r.Rendered? && r.text != "" ==> |p| + 5 <= |r.text| <= |p| + len && r.text[..|p|] == p && r.text[|r.text| - 1] == ')'
    decreases e, 0
  {
    if Sprintf(OperatorText(e.op), len).Aborted? then Aborted
    else
      match ToString(e.rhs, len - 3, ops)
      case Aborted => Aborted
      case Rendered(rt) =>
        if rt == "" then Rendered("")
        else if Sprintf(")", len - 3 - |rt|).Aborted? then Aborted
        else Rendered(p + OperatorText(e.op) + rt + ")")
  }

  /** The host's `"%.3f"` never prints nothing. */
  ghost predicate FormatsNonEmpty(ops: FloatOps)
  {
    forall v :: ops.format(v) != ""
  }

  lemma {:induction false} TextNonEmpty(e: Expr, ops: FloatOps)
    requires WellFormed(e) && FormatsNonEmpty(ops)
    ensures Text(e, ops) != ""
  {
  }

  /** Each argument costs at least one character and each separator two, so the call's size check is implied by the text fitting. */
  lemma {:induction false} JoinedLength(e: Expr, i: nat, ops: FloatOps)
    requires WellFormed(e) && e.Call? && i <= |e.args| && FormatsNonEmpty(ops)
    ensures |Joined(e, i, ops)| + 1 >= 2 * (|e.args| - i)
    decreases |e.args| - i
  {
    if i < |e.args| {
      assert e.args[i] in e.args;
      TextNonEmpty(e.args[i], ops);
      JoinedLength(e, i + 1, ops);
    }
  }

  /**
    A buffer with room for the canonical text and its terminator receives
    exactly that text, and the count returned is its length.
  */
  lemma {:induction false} RoomyBufferGetsText(e: Expr, len: int, ops: FloatOps)
    requires WellFormed(e) && FormatsNonEmpty(ops) && |Text(e, ops)| < len
    ensures ToString(e, len, ops) == Rendered(Text(e, ops))
    decreases e, 1
  {
    match e
    case Number(_) =>
    case Variable(_) =>
    case Call(_, _) => RoomyCall(e, len, ops);
    case Binary(_, _, _) => RoomyBinary(e, len, ops);
  }

  lemma {:induction false} RoomyCall(e: Expr, len: int, ops: FloatOps)
    requires WellFormed(e) && e.Call? && FormatsNonEmpty(ops) && |Text(e, ops)| < len
    ensures ToString(e, len, ops) == Rendered(Text(e, ops))
    decreases e, 0
  {
    var n := e.name;
    JoinedLength(e, 0, ops);
    RoomyArgs(e, 0, len - (|n| + 1), ops);
    assert ToString(e, len, ops) == Prepend(n + "(", ArgsToString(e, 0, len - (|n| + 1), ops));
  }

  lemma {:induction false} RoomyBinary(e: Expr, len: int, ops: FloatOps)
    requires WellFormed(e) && e.Binary? && FormatsNonEmpty(ops) && |Text(e, ops)| < len
    ensures ToString(e, len, ops) == Rendered(Text(e, ops))
    decreases e, 0
  {
    var lt, rt := Text(e.lhs, ops), Text(e.rhs, ops);
    RoomyBufferGetsText(e.lhs, len - 1, ops);
    TextNonEmpty(e.lhs, ops);
    RoomyBufferGetsText(e.rhs, len - 1 - |lt| - 3, ops);
    TextNonEmpty(e.rhs, ops);
    assert BinaryRest(e, len - 1 - |lt|, "(" + lt, ops) == Rendered("(" + lt + OperatorText(e.op) + rt + ")");
    assert ToString(e, len, ops) == BinaryToString(e, len, ops);
  }

  lemma {:induction false} RoomyArgs(e: Expr, i: nat, len: int, ops: FloatOps)
    requires WellFormed(e) && e.Call? && i <= |e.args| && FormatsNonEmpty(ops)
    requires |Joined(e, i, ops)| + 1 < len
    ensures ArgsToString(e, i, len, ops) == Rendered(Joined(e, i, ops) + ")")
    decreases e, 0, |e.args| - i
  {
    if i < |e.args| {
      var a := e.args[i];
      assert a in e.args;
      RoomyBufferGetsText(a, len, ops);
      TextNonEmpty(a, ops);
      var t := Text(a, ops);
      if i + 1 < |e.args| {
        RoomyArgs(e, i + 1, len - |t| - 2, ops);
        assert Joined(e, i, ops) + ")" == t + ", " + (Joined(e, i + 1, ops) + ")");
      } else {
        RoomyArgs(e, i + 1, len - |t|, ops);
      }
    }
  }

  /** True when the tree holds no call. */
  predicate CallFree(e: Expr)
  {
    match e
    case Number(_) => true
    case Variable(_) => true
    case Call(_, _) => false
    case Binary(_, l, r) => CallFree(l) && CallFree(r)
  }

  /** Without calls, printing is all or nothing: the canonical text, or a count of 0. */
  lemma {:induction false} CallFreeAllOrNothing(e: Expr, len: int, ops: FloatOps)
    requires CallFree(e) && ToString(e, len, ops).Rendered?
    ensures ToString(e, len, ops).text in {"", Text(e, ops)}
    decreases e
  {
    match e
    case Number(_) =>
    case Variable(_) =>
    case Binary(op, l, r) =>
      assert ToString(e, len, ops) == BinaryToString(e, len, ops);
      var lr := ToString(l, len - 1, ops);
      if lr.Rendered? && lr.text != "" {
        CallFreeAllOrNothing(l, len - 1, ops);
        var room := len - 1 - |lr.text|;
        var rr := ToString(r, room - 3, ops);
        assert ToString(e, len, ops) == BinaryRest(e, room, "(" + lr.text, ops);
        if Sprintf(OperatorText(op), room).Rendered? && rr.Rendered? && rr.text != "" {
          CallFreeAllOrNothing(r, room - 3, ops);
          assert rr.text == Text(r, ops);
          assert ToString(e, len, ops).text in {"", "(" + lr.text + OperatorText(op) + rr.text + ")"};
          assert Text(e, ops) == "(" + Text(l, ops) + OperatorText(op) + Text(r, ops) + ")";
        }
        assert ToString(e, len, ops).text in {"", Text(e, ops)};
      }
      assert ToString(e, len, ops).text in {"", Text(e, ops)};
  }

  /**
    A call whose argument does not fit reports what it wrote so far, and an
    enclosing call takes that as a whole argument and carries on: `g(f(abcdefghij), x)`
    in 9 bytes prints `g(f(, x)`, which is not a prefix of the canonical text.
  */
  lemma TruncatedArgumentKeepsGoing(ops: FloatOps)
    ensures var e := Call("g", [Call("f", [Variable("abcdefghij")]), Variable("x")]);
      && ToString(e, 9, ops) == Rendered("g(f(, x)")
      && !("g(f(, x)" <= Text(e, ops))
  {
    TruncatedRendering(ops);
    TruncatedText(ops);
  }

  lemma TruncatedRendering(ops: FloatOps)
    ensures ToString(Call("g", [Call("f", [Variable("abcdefghij")]), Variable("x")]), 9, ops) == Rendered("g(f(, x)")
  {
    var inner := Call("f", [Variable("abcdefghij")]);
    var e := Call("g", [inner, Variable("x")]);
    assert ToString(inner, 7, ops) == Rendered("f(") by {
      assert ArgsToString(inner, 0, 5, ops) == Rendered("");
    }
    assert ArgsToString(e, 1, 3, ops) == Rendered("x)") by {
      assert ArgsToString(e, 2, 2, ops) == Rendered(")");
    }
    assert ArgsToString(e, 0, 7, ops) == Rendered("f(, x)");
  }

  /** The canonical text continues `g(f(a`, where the truncated rendering has `g(f(,`. */
  lemma TruncatedText(ops: FloatOps)
    ensures var t := Text(Call("g", [Call("f", [Variable("abcdefghij")]), Variable("x")]), ops);
      |t| > 4 && t[4] == 'a'
  {
    var inner := Call("f", [Variable("abcdefghij")]);
    var e := Call("g", [inner, Variable("x")]);
    var ji := Joined(inner, 0, ops);
    assert ji == "abcdefghij" + "" + Joined(inner, 1, ops);
    var ti := Text(inner, ops);
    assert ti == "f" + "(" + ji + ")";
    assert ti[2] == ji[0] == 'a';
    var je := Joined(e, 0, ops);
    assert je == ti + ", " + Joined(e, 1, ops);
    assert je[2] == ti[2];
    assert Text(e, ops) == "g" + "(" + je + ")";
    assert Text(e, ops)[4] == je[2];
  }
}

=== FILE: util.dfy ===
/** Character classification of the lexer, over C `int` character values (EOF is -1). */
module Util {

  /** `(uint32(c) & 0xFFFFFF00) == 0`: the value reinterpreted as unsigned fits in a byte. */
  predicate IsChar(c: int)
    ensures -0x8000_0000 <= c < 0x8000_0000 ==> (IsChar(c) <==> 0 <= c <= 255)
  {
    c % 0x1_0000_0000 < 0x100
  }

  /** On 32-bit signed values `IsChar` is exactly the range 0..255, so EOF (-1) is not a char. */
  lemma IsCharRange(c: int)
    requires -0x8000_0000 <= c < 0x8000_0000
    ensures IsChar(c) <==> 0 <= c <= 255
    ensures !IsChar(-1)
  {
  }

  /** `is_whitespace_char`: blank, tab, newline, carriage return. */
  predicate IsWhitespaceChar(c: int)
  {
    c == ' ' as int || c == '\t' as int || c == '\n' as int || c == '\r' as int
  }

  predicate IsLowerLetterChar(c: int)
  {
    'a' as int <= c <= 'z' as int
  }

  predicate IsUpperLetterChar(c: int)
  {
    'A' as int <= c <= 'Z' as int
  }

  predicate IsDigitChar(c: int)
  {
    '0' as int <= c <= '9' as int
  }

  predicate IsLetterChar(c: int)
  {
    IsLowerLetterChar(c) || IsUpperLetterChar(c)
  }

  predicate IsIdentifierChar(c: int)
  {
    IsLetterChar(c) || IsDigitChar(c) || c == '_' as int
  }

  /**
    The classes the lexer branches on are disjoint and all lie in 7-bit ASCII:
    whitespace is never part of an identifier, and EOF (-1) is in no class.
  */
  lemma ClassesAreAscii(c: int)
    ensures IsIdentifierChar(c) ==> IsChar(c) && 48 <= c <= 122 && !IsWhitespaceChar(c)
    ensures IsDigitChar(c) ==> IsIdentifierChar(c) && !IsLetterChar(c)
    ensures IsLowerLetterChar(c) ==> !IsUpperLetterChar(c)
    ensures IsIdentifierChar(c) && !IsDigitChar(c) ==> IsLetterChar(c) || c == '_' as int
    ensures !IsIdentifierChar(-1) && !IsWhitespaceChar(-1) && !IsDigitChar(-1)
  {
  }
}

=== FILE: x87.dfy ===
/**
  The x87 instruction sequences the emitter writes, as chains of appends. The
  bytes are those of 32-bit x86: for instance `fld1` is D9 E8 and
  `push imm32` is 68 followed by the little-endian word.
*/
module X87 {
  import opened Base
  import opened Fpu
  import opened Api
  import opened ByteBuffer
  import opened Builtins

  /** The doubles the x87 can load with one instruction: 1, log2(10), log2(e), pi, log10(2), ln(2), 0. */
  const SpecialValues: seq<Double> := [
    Double(0x3FF0_0000_0000_0000), Double(0x400A_934F_0979_A372), Double(0x3FF7_1547_652B_82FE),
    Double(0x4009_21FB_5444_2D18), Double(0x3FD3_4413_509F_79FE), Double(0x3FE6_2E42_FEFA_39EF),
    Double(0)]

  /** `fld1`, `fldl2t`, `fldl2e`, `fldpi`, `fldlg2`, `fldln2`, `fldz`, as `append_16` values. */
  const SpecialOpcodes: seq<int> := [0xE8D9, 0xE9D9, 0xEAD9, 0xEBD9, 0xECD9, 0xEDD9, 0xEED9]

  /** The first special value `v` is within the tolerance of, scanning from index `i`. */
  function FirstSpecialFrom(v: Double, ops: FloatOps, i: nat): (r: Option<nat>)
    requires i <= |SpecialValues|
    ensures r.Some? ==> i <= r.value < |SpecialValues| && ops.nearlyEqual(v, SpecialValues[r.value])
    ensures r.Some? ==> forall k :: i <= k < r.value ==> !ops.nearlyEqual(v, SpecialValues[k])
    ensures r.None? ==> forall k :: i <= k < |SpecialValues| ==> !ops.nearlyEqual(v, SpecialValues[k])
    decreases |SpecialValues| - i
  {
    if i == |SpecialValues| then None
    else if ops.nearlyEqual(v, SpecialValues[i]) then Some(i)
    else FirstSpecialFrom(v, ops, i + 1)
  }

  /** The special constant a number is loaded with, if any: the first in table order within the tolerance. */
  function FirstSpecial(v: Double, ops: FloatOps): (r: Option<nat>)
    ensures r.Some? ==> r.value < |SpecialValues| && ops.nearlyEqual(v, SpecialValues[r.value])
    ensures r.Some? ==> forall k :: 0 <= k < r.value ==> !ops.nearlyEqual(v, SpecialValues[k])
    ensures r.None? ==> forall k :: 0 <= k < |SpecialValues| ==> !ops.nearlyEqual(v, SpecialValues[k])
  {
    FirstSpecialFrom(v, ops, 0)
  }

  /**
    Loading a number: the 2-byte constant load for the first special value it is
    close to, otherwise push the high word, push the low word,
    `fld qword ptr [esp]`, `add esp, 8`.
  */
  function LoadNumber(v: Double, ops: FloatOps): (r: seq<Write>)
    ensures |r| == 1 <==> FirstSpecial(v, ops).Some?
    ensures |r| == 1 ==> r[0].W16? && r[0].v % 0x100 == 0xD9
    ensures |r| != 1 ==>
      && |r| == 10 && r[0] == r[2] == W8(0x68) && r[1].W32? && r[3].W32?
      && Double(r[1].w * 0x1_0000_0000 + r[3].w) == v
  {
    WordsRoundTrip(v);
    match FirstSpecial(v, ops)
    case Some(i) => [W16(SpecialOpcodes[i])]
    case None =>
      [W8(0x68), W32(HighWord(v)), W8(0x68), W32(LowWord(v)),
       W8(0xDD), W8(0x04), W8(0x24), W8(0x83), W8(0xC4), W8(0x08)]
  }

  /** The first byte of the load from memory for a variable kind (`fild`, `fld dword`, `fld qword`). */
  function LoadOpcode(kind: Byte): (r: Option<int>)
    ensures r.Some? <==> kind == IdInt32 || kind == IdFloat32 || kind == IdFloat64
    ensures r.Some? ==> IsValueType(kind) && 0xD8 <= r.value <= 0xDF
  {
    if kind == IdInt32 then Some(0xDB)
    else if kind == IdFloat32 then Some(0xD9)
    else if kind == IdFloat64 then Some(0xDD)
    else None
  }

  /** Loading a variable at a 32-bit address: opcode, ModRM 05, address. */
  function LoadVariable(opcode: int, address: Word32): (r: seq<Write>)
    ensures |r| == 3 && r[0] == W8(opcode) && r[2].W32? && r[2].w == address
  {
    [W8(opcode), W8(0x05), W32(address)]
  }

  /** The two-operand x87 instruction for an operator: `faddp`, `fsubp`, `fmulp`, `fdivp`. */
  function OperatorOpcode(op: char): (r: Option<int>)
    ensures r.Some? <==> op in {'+', '-', '*', '/'}
    ensures r.Some? ==> Bytes16(r.value)[0] == 0xDE && Bytes16(r.value)[1] >= 0xC0
  {
    if op == '+' then Some(0xC1DE)
    else if op == '-' then Some(0xE9DE)
    else if op == '*' then Some(0xC9DE)
    else if op == '/' then Some(0xF9DE)
    else None
  }

  /** What a one-argument built-in writes after its argument. */
  function BuiltinSuffix(f: Builtin): (r: seq<Write>)
    ensures |r| == (if f == Tan || f == Cot then 4 else 2)
    ensures r[0] == W8(0xD9) && forall k :: 0 <= k < |r| ==> r[k].W8?
  {
    match f
    case Sin => [W8(0xD9), W8(0xFE)]
    case Cos => [W8(0xD9), W8(0xFF)]
    case Abs => [W8(0xD9), W8(0xE1)]
    case Chs => [W8(0xD9), W8(0xE0)]
    case Tan => [W8(0xD9), W8(0xF2), W8(0xD9), W8(0xF7)]
    case Cot => [W8(0xD9), W8(0xE0), W8(0xDE), W8(0xF1)]
    case Sqrt => [W8(0xD9), W8(0xFA)]
    case Log2 => [W8(0xD9), W8(0xF1)]
    case Pi => [W8(0xD9), W8(0xEB)]
  }

  /** `fld1`, written by `log2` before its argument. */
  const Log2Prefix: seq<Write> := [W8(0xD9), W8(0xE8)]

  /** Pushing an immediate argument as the declared type; `None` for an unsupported type. */
  function PushImmediate(t: Byte, v: Double, ops: FloatOps): (r: Option<seq<Write>>)
    ensures r.Some? <==> LoadOpcode(t).Some?
    ensures r.Some? ==> |r.value| == (if t == IdFloat64 then 4 else 2)
    ensures r.Some? ==> forall k :: 0 <= k < |r.value| ==> (r.value[k] == W8(0x68) <==> k % 2 == 0)
    ensures r.Some? && t == IdFloat64 ==>
      && r.value[1].W32? && r.value[3].W32?
      && Double(r.value[1].w * 0x1_0000_0000 + r.value[3].w) == v
  {
    WordsRoundTrip(v);
    if t == IdFloat64 then Some([W8(0x68), W32(HighWord(v)), W8(0x68), W32(LowWord(v))])
    else if t == IdFloat32 then Some([W8(0x68), W32(ops.toFloat32Bits(v))])
    else if t == IdInt32 then Some([W8(0x68), W32(ops.toInt32Bits(v))])
    else None
  }

  /** Moving st0 into a fresh stack slot as the declared type; `None` for an unsupported type. */
  function PushStackTop(t: Byte): (r: Option<seq<Write>>)
    ensures r.Some? <==> LoadOpcode(t).Some?
    ensures r.Some? ==> |r.value| == (if t == IdFloat64 then 5 else 4)
    ensures r.Some? ==> forall k :: 0 <= k < |r.value| - 3 ==> r.value[k] == W8(0x50)
    ensures r.Some? ==> r.value[|r.value| - 3..] == [W8(LoadOpcode(t).value), W8(0x1C), W8(0x24)]
  {
    if t == IdFloat64 then Some([W8(0x50), W8(0x50), W8(0xDD), W8(0x1C), W8(0x24)])
    else if t == IdFloat32 then Some([W8(0x50), W8(0xD9), W8(0x1C), W8(0x24)])
    else if t == IdInt32 then Some([W8(0x50), W8(0xDB), W8(0x1C), W8(0x24)])
    else None
  }

  /** `mov eax, address` then `call eax`. */
  function CallAddress(address: Word32): (r: seq<Write>)
    ensures |r| == 4 && r[0] == W8(0xB8) && r[1] == W32(address)
  {
    [W8(0xB8), W32(address), W8(0xFF), W8(0xD0)]
  }

  /** Bringing the result onto the x87 stack: an int32 in eax is reloaded, floats are there already. */
  function ReturnFixup(t: Byte): (r: Option<seq<Write>>)
    ensures r.Some? <==> LoadOpcode(t).Some?
    ensures r.Some? ==> (r.value == [] <==> t != IdInt32)
    ensures t == IdInt32 ==>
      && |r.value| == 5 && r.value[0] == W8(0x50) && r.value[4] == W8(0x58)
      && r.value[1] == W8(LoadOpcode(t).value)
  {
    if t == IdInt32 then Some([W8(0x50), W8(0xDB), W8(0x04), W8(0x24), W8(0x58)])
    else if t == IdFloat32 || t == IdFloat64 then Some([])
    else None
  }

  /** `ret`, written by `CompileExpression` after the expression. */
  const Return: seq<Write> := [W8(0xC3)]
}
